=== FILE: README.md ===
# gcp-iam-watcher, modelled in Dafny

gcp-iam-watcher is a Cloud Function that gets Pub/Sub messages about
Google Cloud IAM policy changes and reports newly granted roles to chat
(Slack) and/or mail (SMTP). Messages come from two sources:

- **Cloud Asset Inventory feeds.** The function compares the new IAM policy
  with the prior one for each (role, condition) pair. It reports the added
  members, leaving out the basic `projectOwner`/`projectEditor`/`projectViewer`
  members. The project, folder or organization is resolved through Cloud
  Resource Manager.
- **Cloud Storage admin-activity audit logs** (`storage.setIamPermissions`
  on a `gcs_bucket`). The function keeps the `ADD` binding deltas and groups
  them by (role, `str(condition)`).

Both engines build one `IamChangeEvent`, with a Logs Explorer deep link and
a list of `ChangeGroup`s. The event goes to the destination that the
environment configures: a single sink, or a composite that fans out to
several sinks, each optionally behind a filter wrapper. The chat sink
retries with exponential backoff and honours `Retry-After`. The mail sink
opens one SMTP session.

Modules, one per source file:

- `Router` (main.dfy) models `main.py`.
- `AssetDiff` (asset_diff.dfy) and `AssetFeed` (asset_feed.dfy) model
  `handlers/asset.py`.
- `Audit` (audit.dfy) models `handlers/audit.py`.
- `LogsUrl` models `lib/logs_url.py`.
- `Base`, `Render`, `Slack`, `Email`, `Sinks`, `Composite` and `Factory`
  model `lib/destinations/`.

Supporting modules:

- `Py`: the Python value semantics the code relies on. This covers JSON
  values, truthiness, `dict.get`, `or`, iteration, `str()` and `int()`.
- `Text`: string operations.
- `Order`: `sorted()` of a set of strings.
- `Io`: the outside world. This is the environment, the HTTP and SMTP
  oracles, and a log of effects.

How state and I/O are modelled:

- The network and the mail server are a `Transport` object. Its oracles
  are indexed by call counters, and it keeps the effects (POSTs, sleeps,
  SMTP sessions, kept log lines) in order.
- Every method that talks to it is proved equal to a pure
  world-transforming function. The properties are proved about those
  functions.
- Cloud Resource Manager is an oracle from an ancestor name to a record or
  a raised error.

## Model

| member | source | states |
|---|---|---|
| Py.Lookup | handlers/asset.py:22-26 | a key is found iff some entry of the dict has it, and the value found is that of an entry with the key |
| Py.LookupLast | handlers/asset.py:22-26 | of several entries with the same key, the last one's value is found, as `json.loads` keeps it |
| Py.Get | handlers/audit.py:13-15 | `.get` succeeds exactly on a dict, and a missing key yields the default |
| Py.Or | handlers/asset.py:22-23 | `a or b` is `a` when `a` is truthy and `b` otherwise |
| Py.Field | handlers/audit.py:38-39 | `.get` on a known dict is what `Get` yields on it |
| Py.StrOf | handlers/audit.py:48 | `str()` of a string is the string itself and of `None` is `"None"` |
| Py.ListRepr | lib/destinations/slack_dest.py:31 | the f-string text of a member list is the `repr` of the list of those strings |
| Py.IntOf | lib/destinations/slack_dest.py:72 | `int(text)` succeeds iff the text, white space around it ignored, is an optional sign and ASCII digits with single underscores between digits; it yields that value and otherwise raises ValueError |
| Py.Iterate | handlers/asset.py:30 | iterating a list visits exactly its items |
| Text.Split | lib/destinations/factory.py:17 | `split(",")` gives at least one piece, and no piece holds the separator |
| Text.JoinSplit | lib/destinations/factory.py:17 | joining the pieces of a split with the separator gives back the text |
| Text.SplitJoin | lib/destinations/factory.py:17 | splitting a join of separator-free pieces gives back the pieces |
| Text.LastSegment | handlers/asset.py:106 | `split("/")[-1]` is a separator-free suffix that is the whole text or follows a separator |
| Text.LastSegmentIsLastPiece | handlers/asset.py:122 | that suffix is the last piece of the split |
| Text.SplitSingle | handlers/asset.py:106 | a split has one piece iff the separator does not occur, and then it is the whole text |
| Text.Strip | lib/destinations/factory.py:17 | `strip()` leaves no whitespace at either end |
| Text.TrimmedAreSpaces | lib/destinations/factory.py:17 | everything `strip()` removes is whitespace |
| Text.StripInside | lib/destinations/factory.py:17 | `strip()` only keeps characters of its input |
| Text.StripNoop | lib/destinations/factory.py:17 | text without whitespace at its ends is left as it is |
| Text.Lower | lib/destinations/factory.py:17 | `lower()` keeps the length and leaves no ASCII capital |
| Text.LowerKeeps | lib/destinations/factory.py:17 | `lower()` keeps whitespace and commas where they were and changes nothing without capitals |
| Text.Upper | lib/destinations/factory.py:37 | `upper()` keeps the length and leaves no ASCII small letter |
| Text.IntRoundTrip | lib/destinations/slack_dest.py:72 | `int()` reads back the decimal text of every integer |
| Text.IntIgnoresSpace | lib/destinations/email_dest.py:11 | white space before and after an integer's text does not change what `int()` reads |
| Text.UnderscoreIgnored | lib/destinations/email_dest.py:11 | an underscore between two runs of digits is skipped: `int("1_000") == int("1000")` |
| Text.StripPadded | lib/destinations/factory.py:17 | `strip()` removes exactly the white space around text that starts and ends with a non-space |
| Order.SortSet | handlers/asset.py:53 | `sorted()` of a set is strictly increasing and holds exactly the set's members |
| Order.SortSetUnique | handlers/asset.py:53 | a strictly increasing listing of a set is its `sorted()` |
| Order.SortMembers | handlers/asset.py:59 | the selection loop yields `sorted()` of the set |
| Order.BelowTransitive | handlers/asset.py:53 | the string order `sorted()` uses is transitive |
| Order.BelowTotal | handlers/asset.py:53 | any two distinct strings are ordered one way |
| Io.GetEnv | lib/destinations/slack_dest.py:12-14 | `os.getenv` yields a value iff the variable is set |
| Io.GetEnvOr | lib/destinations/email_dest.py:10-11 | `os.getenv` with a default yields the default when unset |
| Io.Transport.Post | lib/destinations/slack_dest.py:52-59 | one POST is answered by the oracle for its sequence number and is appended to the log |
| Io.Transport.Smtp | lib/destinations/email_dest.py:41-45 | one SMTP session ends as the oracle says and is appended to the log |
| Io.Transport.Record | lib/destinations/slack_dest.py:65 | a sleep or log line is appended and nothing else changes |
| Base.MissingAttribute | lib/destinations/base.py:14-27 | reading any attribute that is not one of the event's nine fields raises AttributeError |
| Render.DisplayName | lib/destinations/slack_dest.py:23 | `resource_display or 'Unknown'` is never empty and is the display name when one is set |
| Render.BuildLines | lib/destinations/slack_dest.py:23-35 | the line-building loop yields the head lines, the lines of each group in order, and the link line |
| Render.AppendGroups | lib/destinations/slack_dest.py:29-33 | the loop over the groups appends exactly the lines of every group, in order, after the head lines |
| Render.AppendGroup | lib/destinations/slack_dest.py:30-33 | one pass appends the role line, the members line and, only for a truthy condition, the condition line |
| Render.GroupRendered | lib/destinations/email_dest.py:23-33 | group k is rendered as its role line, its members line, and a condition line exactly when the condition is truthy, after the header, Asset Type and Asset Name lines |
| Render.LineCount | lib/destinations/email_dest.py:23-35 | the message opens with the header, the Asset Type line (the resource type) and the Asset Name line (the resource name), has two or three lines per group, and the link line last exactly when a link is set |
| Render.Lines | lib/destinations/slack_dest.py:23-35 | the reference for the line-building loop: head lines, each group's lines, then the link line; `BuildLines` is proved equal to it |
| Slack.NewSlack | lib/destinations/slack_dest.py:11-20 | construction succeeds iff a webhook, or both a token and a channel, is set, and otherwise raises DestinationConfigError |
| Slack.RequestFor | lib/destinations/slack_dest.py:51-59 | with a webhook the POST goes there without authorization; otherwise it goes to the chat.postMessage API with the bearer token; `RequestPayload` states the body |
| Slack.RequestPayload | lib/destinations/slack_dest.py:39-46 | the posted body carries the rendered text under `text`; the webhook body holds nothing else, and the API body also carries the configured channel (`None` when unset) |
| Slack.Succeeded | lib/destinations/slack_dest.py:69 | only a 200 can succeed, and with a webhook every 200 does; `SucceededWithToken` states the token case |
| Slack.SucceededWithToken | lib/destinations/slack_dest.py:69 | with a token, a 200 succeeds iff the body is a JSON dict whose `ok` (default `False`) is truthy; a non-JSON body raises JSONDecodeError and a non-dict body AttributeError |
| Slack.RetryHint | lib/destinations/slack_dest.py:72 | a missing `Retry-After` reads as 0, and a present one is `int()` of its text, ValueError included |
| Slack.Send | lib/destinations/slack_dest.py:22-80 | the retry loop's result and effects are those of the attempts specification, and it dispatches nothing |
| Slack.AttemptsBounded | lib/destinations/slack_dest.py:49-80 | a send makes one to three POSTs, all to the same URL, with only sleeps of at least one second between them, and keeps what was logged before |
| Slack.DeliveredMeansAccepted | lib/destinations/slack_dest.py:69-70 | a send reports delivery only right after a POST answered 200 that counts as success |
| Slack.GivesUpAfterThreeNetworkErrors | lib/destinations/slack_dest.py:60-66 | three network errors give three POSTs with sleeps of 1 and 2 seconds, and then the send gives up without raising |
| Slack.DeliversAfterOneRateLimit | lib/destinations/slack_dest.py:71-76 | a 429 then a success gives two POSTs with one sleep of `max(Retry-After, 1)` |
| Slack.StopsOnPermanentFailure | lib/destinations/slack_dest.py:78-80 | an answer that is neither a success nor retryable ends the send after that one POST |
| Slack.Attempts | lib/destinations/slack_dest.py:49-80 | the reference for the retry loop: attempt by attempt, the POST, the answer's handling and the sleep; `Send` is proved equal to it and the lemmas beside it state its outcomes |
| Slack.RetriesAfterHint | lib/destinations/slack_dest.py:71-76 | on any of the three attempts, a retryable status with hint h gives one POST, a sleep of `max(h, 2 ** attempt)` and the next attempt |
| Slack.ExhaustedAfterThreeRetryables | lib/destinations/slack_dest.py:49-76 | three retryable answers give three POSTs, each followed by a sleep of `max(h_i, 2 ** i)`, the third too, and the send ends silently |
| Slack.BadRetryHintRaises | lib/destinations/slack_dest.py:71-72 | a retryable status with a `Retry-After` that `int()` rejects raises ValueError right after that POST |
| Email.NewEmail | lib/destinations/email_dest.py:9-15 | construction succeeds iff `SMTP_PORT` (default 25) parses as an integer, which becomes the port, and otherwise raises ValueError |
| Email.UnsetEnvironment | lib/destinations/email_dest.py:9-15 | with nothing set the sink targets localhost:25 with no credentials or addresses |
| Email.Subject | lib/destinations/email_dest.py:19 | the subject is the fixed prefix followed by the display name, with no fallback |
| Email.SubjectHasNoFallback | lib/destinations/email_dest.py:19-23 | with an empty display name the subject ends in the prefix, while the body says `Unknown` |
| Email.Body | lib/destinations/email_dest.py:23-37 | the body is the rendered lines joined by `<br>`; `Render.LineCount` and `Render.GroupRendered` state what those lines are |
| Email.MailFor | lib/destinations/email_dest.py:18-40 | the plain and HTML parts are the same body, and sender and recipient come from the configuration |
| Email.Login | lib/destinations/email_dest.py:42-44 | STARTTLS and login happen iff both user and password are truthy, using them |
| Email.Delivery | lib/destinations/email_dest.py:41-45 | sending is one SMTP session with this mail; it succeeds iff the server accepts, and otherwise raises the server's error |
| Email.Send | lib/destinations/email_dest.py:17-45 | the method's result and effects are those of `Delivery`, and it dispatches nothing |
| Sinks.ClassName | lib/destinations/composite.py:18-19 | the class name reported is `_FilterWrapper` exactly for a wrapped sink |
| Sinks.FilterGate | lib/destinations/factory.py:50-57 | the wrapper raises iff an event-type or role list is set (an event has neither attribute), and otherwise forwards iff there is no resource-type list or the event's type is in it |
| Sinks.SinkSpec | lib/destinations/factory.py:50-57 | a wrapper that raises or drops leaves the world unchanged |
| Sinks.ChannelSend | lib/destinations/factory.py:57 | a channel's send has the effects of the chat or mail send, and it dispatches nothing |
| Sinks.SinkSend | lib/destinations/factory.py:50-57 | a sink's send has the effects of its gate followed by its channel, and it dispatches nothing |
| Sinks.AttributeFiltersAlwaysRaise | lib/destinations/factory.py:51-54 | an event-type or role filter raises AttributeError on every event and sends nothing |
| Sinks.ResourceFilterSelects | lib/destinations/factory.py:55-57 | a resource-type-only filter behaves as its channel on listed types and does nothing on others |
| Composite.FanOut | lib/destinations/composite.py:13-19 | the fan-out has one outcome per sink |
| Composite.Errors | lib/destinations/composite.py:19-21 | there are no failure lines iff every sink succeeded |
| Composite.Send | lib/destinations/composite.py:11-23 | the loop calls every sink in order, never raises, and logs one summary iff some sink failed |
| Composite.FanOutAppend | lib/destinations/composite.py:13-19 | fanning out to two lists of sinks is fanning out to the first and then to the second |
| Composite.EverySinkCalled | lib/destinations/composite.py:13-15 | the k-th outcome is what sink k does in the world the earlier sinks left |
| Composite.ErrorsNameFailures | lib/destinations/composite.py:19 | every failing sink appears as `ClassName: message` among the failure lines |
| Composite.EmptyCompositeIsSilent | lib/destinations/composite.py:11-23 | a composite with no sinks changes nothing |
| Composite.SendSpec | lib/destinations/composite.py:11-23 | the reference for the composite's send: the fan-out, then the summary line iff a sink failed; `Composite.Send` is proved equal to it |
| Factory.Items | lib/destinations/factory.py:17 | the list comprehension keeps at most as many items as there are pieces |
| Factory.ItemsNormal | lib/destinations/factory.py:17 | each item `_csv` keeps is non-empty, comma-free, stripped and lower-case |
| Factory.Csv | lib/destinations/factory.py:15-17 | every item `_csv` yields is non-empty, comma-free, stripped and lower-case |
| Factory.CsvRoundTrip | lib/destinations/factory.py:15-17 | joining such items with commas and reading them back gives them back |
| Factory.CsvIdempotent | lib/destinations/factory.py:15-17 | reading back what `_csv` yielded changes nothing |
| Factory.ParseFilters | lib/destinations/factory.py:20-29 | the event-type, role and resource-type lists are read with `_csv`, so every item of each is normal |
| Factory.NewChannel | lib/destinations/factory.py:9-12 | a kind other than `slack` or `email` raises KeyError, and a built channel has the kind asked for |
| Factory.MakeSingle | lib/destinations/factory.py:32-40 | the sink holds the channel asked for, wrapped iff some filter list for its kind is set; a construction error propagates |
| Factory.MakeAll | lib/destinations/factory.py:66 | one sink is built per kind, in order; the first failing kind's error is raised |
| Factory.MakeAllKinds | lib/destinations/factory.py:66 | the k-th sink built is a sink of the k-th kind asked for |
| Factory.FromKinds | lib/destinations/factory.py:60-67 | exactly one kind gives that sink bare; any other number gives a composite of one sink per kind |
| Factory.Kinds | lib/destinations/factory.py:62 | the kinds are `_csv` of `DEST_TYPES` with `DEST_TYPE` or `slack` as default, each normal |
| Factory.MakeDestination | lib/destinations/factory.py:60-67 | a single kind gives a bare sink and any other count a fan-out with one sink per kind; an error is some kind's construction error |
| Factory.DefaultKindIsSlack | lib/destinations/factory.py:62 | with neither `DEST_TYPES` nor `DEST_TYPE` set, the one kind is `slack` |
| Factory.DefaultIsSlack | lib/destinations/factory.py:60-64 | an unconfigured deployment is a bare chat sink, built iff the chat settings are present |
| Factory.WrapperListsNormal | lib/destinations/factory.py:37-39 | every resource type a wrapper holds is lower-case and stripped |
| Factory.CapitalisedResourceTypeDropped | lib/destinations/factory.py:55 | an event whose resource type has a capital letter never passes a resource-type filter built from the environment |
| Factory.BucketEventsNeverPassResourceFilter | lib/destinations/factory.py:55 | so a bucket event from the audit path never passes such a filter |
| Factory.EventTypeListAlwaysRaises | lib/destinations/factory.py:51-52 | setting an event-type list for a kind makes every send through that sink raise AttributeError and send nothing |
| Factory.RoleListAlwaysRaises | lib/destinations/factory.py:53-54 | likewise any role list |
| Factory.Send | lib/destinations/factory.py:60-67 | `send` on the made destination has the effects of its single sink or of its composite |
| Factory.Deliver | handlers/asset.py:156-157 | making the destination then sending: a failure to make it raises with nothing sent; otherwise the event is dispatched once and sent |
| Factory.DispatchesAtMostOnce | handlers/audit.py:60-73 | a handler dispatches at most one event, exactly the one it built, and only if the destination can be made; otherwise the world is untouched |
| Factory.HandleSpec | handlers/asset.py:144-157 | the reference for the handlers' hand-over: an error is raised, no event does nothing, and an event is delivered; `DispatchesAtMostOnce` states its dispatch |
| LogsUrl.Pct | lib/logs_url.py:5 | a byte is encoded as `%` followed by two hex digits |
| LogsUrl.PctInjective | lib/logs_url.py:5 | distinct bytes get distinct codes |
| LogsUrl.Utf8 | lib/logs_url.py:5 | one to four bytes per character; one byte iff ASCII, and non-ASCII bytes are all high |
| LogsUrl.Quote | lib/logs_url.py:5 | `quote(safe='')` yields only unreserved characters and `%`, and is at least as long as its input |
| LogsUrl.BuildLogUrl | lib/logs_url.py:4-10 | the link is the console URL with the reference-encoded query, the time, a two-minute window and the scope parameter |
| LogsUrl.ProtectedIsEncoded | lib/logs_url.py:5-7 | `quote(safe='')` followed by the two replacements equals the reference encoding, where parentheses become `%2528`/`%2529` |
| LogsUrl.EncodedQueryHasNoParens | lib/logs_url.py:5-7 | the encoded query holds no `(`, `)`, `%28` or `%29` |
| LogsUrl.UnreservedUnchanged | lib/logs_url.py:5-7 | a query made only of unreserved characters is passed through unchanged |
| LogsUrl.LogsQueryActivity | lib/logs_url.py:13-18 | with single-line names, the activity query consists of its three lines |
| LogsUrl.LogsQueryBucketAdds | lib/logs_url.py:21-28 | with a single-line bucket name, the bucket query consists of its five lines, the fourth naming the bucket |
| AssetDiff.CondKeyOf | handlers/asset.py:13-18 | a falsy condition is the unconditional key, a truthy one must be a dict, and it then gives a conditional key |
| AssetDiff.CondKeyIsStructural | handlers/asset.py:13-18 | two non-empty conditions share a key iff their expression, title and description agree |
| AssetDiff.MembersOf | handlers/asset.py:48 | `set(members or [])` is empty for a falsy value; for a list it succeeds iff all items are strings and holds exactly them |
| AssetDiff.StringsOf | handlers/asset.py:48 | the set succeeds iff all items are strings and holds exactly them |
| AssetDiff.ReadBinding | handlers/asset.py:31-35 | a binding is read only from a dict, and is kept only with a truthy role |
| AssetDiff.HashKey | handlers/asset.py:52 | the (role, condition key) tuple can index a dict iff each part is hashable |
| AssetDiff.IndexOf | handlers/asset.py:29-36 | the reference for the indexing loop: each old binding with a truthy role maps its key to its members; `BuildIndex` is proved equal to it and `IndexKeepsLast` states that later ones replace earlier ones |
| AssetDiff.IndexKeepsLast | handlers/asset.py:36 | a prior binding followed by no binding with the same (role, condition) leaves exactly its own members under that key, not a union with earlier ones |
| AssetDiff.DeltaFor | handlers/asset.py:52-71 | the reference for one binding's comparison; `DeltaIsAddedMembers` states what it reports |
| AssetDiff.DeltaIsAddedMembers | handlers/asset.py:52-71 | for non-empty members, the two emitting branches together report exactly the sorted members not in the prior binding, and nothing when there are none |
| AssetDiff.IndexErrorSticks | handlers/asset.py:30-36 | an error raised while indexing the old bindings ends the indexing |
| AssetDiff.DeltasErrorSticks | handlers/asset.py:41-71 | an error raised while comparing ends the comparison |
| AssetDiff.BuildIndex | handlers/asset.py:29-36 | the indexing loop yields the index of the old bindings, later ones replacing earlier ones |
| AssetDiff.Compare | handlers/asset.py:52-71 | one binding's comparison yields its specified delta |
| AssetDiff.CollectDeltas | handlers/asset.py:38-73 | the comparison loop yields the deltas of the new bindings, in order |
| AssetDiff.DeltasWellFormed | handlers/asset.py:38-73 | there are at most as many deltas as new bindings, and each reports a non-empty, strictly sorted member list |
| AssetDiff.DeltasSpecWellFormed | handlers/asset.py:21-73 | every delta `_compute_deltas` returns has a non-empty, strictly sorted member list |
| AssetDiff.ComputeDeltas | handlers/asset.py:21-73 | `_compute_deltas` yields the specified deltas or the first error raised |
| AssetDiff.DeltasSpec | handlers/asset.py:21-73 | the reference for `_compute_deltas`; `DeltasSpecWellFormed` states its deltas' shape and `ComputeDeltas` is proved equal to it |
| AssetFeed.FirstAncestor | handlers/asset.py:91-92 | falsy ancestors give `""`, a list gives its first item, and only a truthy value that is neither a list nor a string raises |
| AssetFeed.LevelScope | handlers/asset.py:103-112 | a folder or organization scope has an id without `/` and a display ending in the level suffix |
| AssetFeed.Resolve | handlers/asset.py:95-119 | the scope is a project, folder or organization; folder and organization scopes come from records whose ancestor has the matching prefix; a non-string ancestor or a failed lookup falls back to the raw ancestor with display `Unknown` |
| AssetFeed.ResolveAncestor | handlers/asset.py:95-119 | the try/except resolution yields the specified scope |
| AssetFeed.ServiceName | handlers/asset.py:121 | the substitution succeeds iff the asset type is a string, and otherwise raises TypeError |
| AssetFeed.ServiceOfAssetType | handlers/asset.py:121 | leading slashes, a service, `/` and a single-line rest give back the service |
| AssetFeed.ServiceWithoutSlash | handlers/asset.py:121 | a type without `/` is left as it is |
| AssetFeed.ResourceName | handlers/asset.py:122 | a resource-manager name gives the resolved id, and any other string name gives its last path segment |
| AssetFeed.Kept | handlers/asset.py:130-133 | the filter keeps exactly the members that hold none of the three basic-role markers |
| AssetFeed.KeptSorted | handlers/asset.py:130-133 | filtering keeps the members sorted |
| AssetFeed.Basic | handlers/asset.py:132 | a member is basic iff it contains `projectEditor`, `projectOwner` or `projectViewer`; `Kept` drops exactly those |
| AssetFeed.BuildGroups | handlers/asset.py:127-142 | the grouping loop yields one group per delta that keeps a member |
| AssetFeed.GroupsWellFormed | handlers/asset.py:127-142 | every group is `binding_added` with non-empty, sorted members none of which is basic |
| AssetFeed.NoGroupsIffAllBasic | handlers/asset.py:129-144 | no event is built iff every added member is basic |
| AssetFeed.EventFrom | handlers/asset.py:90-155 | a built event's changes are the delta groups and are never empty |
| AssetFeed.BuildEvent | handlers/asset.py:76-155 | `process_feeds` up to the hand-over yields the specified event, `None` or error |
| AssetFeed.ProcessFeeds | handlers/asset.py:76-157 | the handler's result, effects and dispatch are building then delivering |
| AssetFeed.BucketsAreSkipped | handlers/asset.py:82-84 | a bucket asset never yields an event |
| AssetFeed.EventShape | handlers/asset.py:90-155 | an asset event has source `asset-feed`, no actor, the message as raw, a link, at least one group of added non-basic members, the asset's `assetType` (never the ignored one) as its type, `str` of its `name` (default "unknown") as its name and of its `updateTime` (default "") as its timestamp |
| AssetFeed.FeedEvent | handlers/asset.py:76-155 | the reference for `process_feeds` up to the hand-over; `EventShape`, `BucketsAreSkipped` and `NoGroupsIffAllBasic` state its outcomes |
| Audit.Adds | handlers/audit.py:27 | the filter succeeds iff every delta is a dict, and keeps exactly the deltas whose action is `ADD`; `AddsKeepCounts` and `AddsAppend` state multiplicity and order |
| Audit.AddsKeepCounts | handlers/audit.py:27 | each ADD delta is kept as many times as it occurs, and no other delta is kept |
| Audit.AddsAppend | handlers/audit.py:27 | the filter works delta by delta: on a concatenation it keeps each part's ADD deltas in order, and raises at the first non-dict |
| Audit.AddsOf | handlers/audit.py:26-27 | every kept delta is a dict |
| Audit.BucketInName | handlers/audit.py:35-36 | the `/buckets/([^/]+)$` search finds b iff the name ends with `/buckets/` followed by b, for any non-empty b without `/` |
| Audit.BucketName | handlers/audit.py:32-36 | a truthy `bucket_name` label wins; otherwise the resource name must be a string, and its bucket segment, the name itself, or `unknown-bucket` follows |
| Audit.FirstSeenKeys | handlers/audit.py:46-52 | the grouping keys are exactly those of the adds, each once, in first-seen order |
| Audit.GroupOf | handlers/audit.py:52-58 | each group is `binding_added`, with the key's condition text and one member per add |
| Audit.GroupsFor | handlers/audit.py:52-58 | one group per key, with that key's members |
| Audit.Collect | handlers/audit.py:44-50 | the defaultdict loop tracks the keys in first-seen order and each key's members, or raises for an unhashable role |
| Audit.Emit | handlers/audit.py:52-58 | emitting yields one group per key in order |
| Audit.GroupAdds | handlers/audit.py:43-58 | the grouping yields the specified groups |
| Audit.GroupingStep | handlers/audit.py:46-50 | one more add either opens a new key at the end or appends its member to its key |
| Audit.TotalIsEntries | handlers/audit.py:46-50 | the members over all keys number exactly the adds |
| Audit.GroupedCount | handlers/audit.py:43-58 | the groups hold exactly one member per add, and there are no more groups than adds |
| Audit.GroupedShape | handlers/audit.py:43-58 | adds give at least one group, each `binding_added` with a string condition |
| Audit.BuildAuditEvent | handlers/audit.py:11-71 | `process_audit_logs` up to the hand-over yields the specified event, `None` or error |
| Audit.Assemble | handlers/audit.py:32-71 | the event assembly yields the specified event |
| Audit.ProcessAuditLogs | handlers/audit.py:11-73 | the handler's result, effects and dispatch are building then delivering |
| Audit.EventIffAdds | handlers/audit.py:17-30 | when nothing raises, an event is built iff the storage permission-set signature matches and there is at least one ADD delta |
| Audit.AuditEventShape | handlers/audit.py:32-71 | an audit event is a bucket event from `audit-logs`, with the message as raw, a link and at least one `binding_added` group with a string condition; its name is the bucket, its display the `project_id` label (default "unknown-project"), its actor `principalEmail` (default "unknown") and its timestamp the entry's (`""` when falsy) |
| Audit.Signature | handlers/audit.py:17-21 | the guard holds iff service, method and resource type are exactly the three strings; `EventIffAdds` shows no event without it |
| Audit.AuditEvent | handlers/audit.py:11-71 | the reference for `process_audit_logs` up to the hand-over; `EventIffAdds` and `AuditEventShape` state its outcomes |
| Router.IsAsset | main.py:17-18 | the check succeeds iff the message is a dict, and holds iff it has an `asset` entry that is a dict |
| Router.IsGcsIamAudit | main.py:21-28 | the check holds iff both payload and resource are dicts matching method, service and type; it raises iff the payload is not a dict, or method and service match and the resource is not a dict |
| Router.Classify | main.py:42-49 | asset first: a dict `asset` routes to the asset engine; otherwise the audit check routes to the audit engine or to the warning; an error of either check is raised |
| Router.HelloPubsub | main.py:32-53 | the entry point's result, effects and dispatch are as specified |
| Router.Handle | main.py:41-49 | the try body runs the handler the route selects, or logs the unrecognized-format warning |
| Router.AssetFirst | main.py:42-47 | a message with a dict `asset` always goes to the asset engine, and a message routed to audit has none |
| Router.RoutedAuditPassesGuard | main.py:45-46 | a message routed to the audit engine passes that engine's own signature check |
| Router.AtMostOneEvent | main.py:41-53 | a message dispatches at most one event, built by the engine it was routed to |
| Router.Outcomes | main.py:33-53 | non-JSON and unrecognized messages are acked with a warning, a base64 error is raised unlogged, and any other error is logged and raised |
| Router.MalformedIsRaised | main.py:41-53 | JSON that is not an object, or a non-dict `protoPayload` without an asset, is logged and raised with nothing dispatched |

## Left out

- The `Destination` base class and its subclasses become datatypes (`Channel`, `Sink`, `Factory.Destination`) with a dispatching `Send`. A composite never holds a composite, as `make_destination` never builds one.
- Decoding is abstract: `base64.b64decode` and `json.loads` are a `Payload` of an error raised outside the handler's `except`, not JSON, or decoded value. The first covers a base64 error and the UnicodeDecodeError `json.loads` raises on bytes that are not UTF-8, which `except json.JSONDecodeError` does not catch. The warning omits the `Payload=%r` excerpt of the raw bytes.
- JSON numbers are integers; floats, and the equality of `1`, `1.0` and `True` as dict keys, are not modelled.
- `repr()` quotes strings with single quotes and does not escape them.
- Text.Lower: `str.lower` is ASCII-only; other capital letters are left as they are.
- Text.Upper: `str.upper` is ASCII-only; other small letters are left as they are.
- Py.IntOf: `int()` (`Text.ParseInt`) reads ASCII digits only. Python's `int()` also reads every other Unicode decimal digit (Arabic-Indic, Devanagari, fullwidth and so on), in `SMTP_PORT` and in `Retry-After` alike; the model raises ValueError on such text.
- LogsUrl.Quote: a Dafny `char` cannot be a lone surrogate, so decoded strings never hold one. `json.loads` yields one from an escape such as `\ud800` (in `resourceName`, say), and `urllib.parse.quote` then raises UnicodeEncodeError, which the handler passes on and the router logs and raises. The model never reaches that error.
- AssetDiff.MembersOf: a binding's member that is a hashable non-string (a number, a boolean, `null`) raises TypeError as soon as either binding is read, prior or current. Python's `set()` keeps it. Python raises only when it ends up in a reported delta: in `sorted()` (handlers/asset.py:53 or 59) when it meets a value it cannot be compared with, and otherwise in the basic-role test (handlers/asset.py:132), after the resource lookup. A non-string member of the prior binding only, or of both bindings of an existing (role, condition), never raises in Python, and the other members are reported.
- AssetDiff.StringsOf: the same gap, for the set of one binding: it raises at the first hashable non-string item.
- Values the code passes through without `str()` are kept as their `str()`: the asset `name`, role and `updateTime`, and the audit bucket (a truthy non-string `bucket_name` label), timestamp, role, members, project id and actor. A non-string there would be carried as is in Python.
- Resource Manager replies are maps from string to string. The CRM client construction and the warning logged on a failed lookup are not modelled.
- Logging: the model keeps the router's warnings and error, the composite's `destination_failed` and summary lines, the chat sink's sleeps and the mail sessions. It does not keep debug, info and the chat sink's own warning and error lines.
- Email.Delivery: email headers set to `None`, and `EmailMessage` formatting, are not modelled; the mail is its subject, addresses and body. Setting a Subject whose display name holds a line break (any `str.splitlines` boundary) raises ValueError in `EmailMessage` before any SMTP session; the model opens the session and sends.
- `config.py`, `lib/gcp.py` and the `__main__` block of `main.py` are not part of this model.
- The asset path's in-place update of `b["members"]` is modelled as the filtered list it leaves.
- Py.Iterate: an object with a repeated key keeps every entry. `Lookup` yields the last value, as `json.loads` does, but iterating such an object, or its `repr`, lists the key once per entry where Python's dict holds it once.

=== FILE: asset_diff.dfy ===
/** The asset-feed diff: prior bindings indexed by role and condition key,
    and for each current binding the members it adds over the prior
    binding with the same key, sorted. */
module AssetDiff {

  import opened Wrappers
  import opened Py
  import opened Order

  /** `_cond_key`: the unconditional sentinel, or the condition's
      expression, title and description (any other field is ignored). */
  datatype CondKey = Unconditional | Cond(expression: Json, title: Json, description: Json)

  function CondKeyOf(cond: Json): (r: Result<CondKey, PyError>)
    ensures !Truthy(cond) ==> r == Ok(Unconditional)
    ensures Truthy(cond) ==> (r.Ok? <==> cond.Obj?)
    ensures r.Ok? && Truthy(cond) ==> r.value.Cond?
  {
    if !Truthy(cond) then Ok(Unconditional)
    else if !cond.Obj? then Err(AttributeError(cond, "get"))
    else
      var f := cond.fields;
      Ok(Cond(Field(f, "expression", Null), Field(f, "title", Null), Field(f, "description", Null)))
  }

  /** Two non-empty condition dicts get the same key exactly when they
      agree on expression, title and description. */
  lemma CondKeyIsStructural(a: seq<(string, Json)>, b: seq<(string, Json)>)
    requires a != [] && b != []
    ensures CondKeyOf(Obj(a)).Ok? && CondKeyOf(Obj(b)).Ok?
    ensures CondKeyOf(Obj(a)) == CondKeyOf(Obj(b)) <==>
              Field(a, "expression", Null) == Field(b, "expression", Null)
              && Field(a, "title", Null) == Field(b, "title", Null)
              && Field(a, "description", Null) == Field(b, "description", Null)
  {
  }

  /** One binding as the diff reads it. */
  datatype Binding = Binding(role: Json, key: CondKey, condition: Json, members: set<string>)

  type Key = (Json, CondKey)

  /** `set(b.get("members", []) or [])`. A list must hold strings; a
      non-empty string gives its characters and a dict its keys. */
  function MembersOf(j: Json): (r: Result<set<string>, PyError>)
    ensures !Truthy(j) ==> r == Ok({})
    ensures j.Arr? && r.Ok? ==> forall x :: x in r.value <==> Str(x) in j.items
    ensures j.Arr? ==> (r.Ok? <==> forall k :: 0 <= k < |j.items| ==> j.items[k].Str?)
  {
    match j
    case Arr(items) => StringsOf(items)
    case Str(s) =>
      var chars := set k | 0 <= k < |s| :: [s[k]];
      assert s == "" ==> chars == {};
      Ok(chars)
    case Obj(fields) =>
      var keys := set k | 0 <= k < |fields| :: fields[k].0;
      assert fields == [] ==> keys == {};
      Ok(keys)
    case _ => if Truthy(j) then Err(NotIterable(j)) else Ok({})
  }

  function StringsOf(items: seq<Json>): (r: Result<set<string>, PyError>)
    ensures r.Ok? <==> forall k :: 0 <= k < |items| ==> items[k].Str?
    ensures r.Ok? ==> forall x :: x in r.value <==> Str(x) in items
  {
    if items == [] then Ok({})
    else
      var rest := StringsOf(items[1..]);
      assert forall k :: 1 <= k < |items| ==> items[k] == items[1..][k - 1];
      if !items[0].Str? then Err(if Hashable(items[0]) then NotText(items[0]) else Unhashable(items[0]))
      else if rest.Err? then rest
      else
        assert forall x :: Str(x) in items <==> Str(x) == items[0] || Str(x) in items[1..];
        Ok({items[0].s} + rest.value)
  }

  /** Reading one binding: `None` when its role is falsy. */
  function ReadBinding(b: Json): (r: Result<Option<Binding>, PyError>)
    ensures r.Ok? ==> b.Obj?
    ensures r.Ok? && r.value.Some? ==> Truthy(r.value.value.role)
  {
    if !b.Obj? then Err(AttributeError(b, "get"))
    else
      var role := Field(b.fields, "role", Null);
      if !Truthy(role) then Ok(None)
      else
        var cond := Field(b.fields, "condition", Null);
        var key :- CondKeyOf(cond);
        var members :- MembersOf(Or(Field(b.fields, "members", Arr([])), Arr([])));
        Ok(Some(Binding(role, key, cond, members)))
  }

  /** Hashing `(role, key)`: the first list or dict in it raises. */
  function HashKey(role: Json, key: CondKey): (r: Result<Key, PyError>)
    ensures r.Ok? <==> Hashable(role) && (key.Cond? ==> Hashable(key.expression) && Hashable(key.title)
                                                         && Hashable(key.description))
    ensures r.Ok? ==> r.value == (role, key)
  {
    if !Hashable(role) then Err(Unhashable(role))
    else if key.Unconditional? then Ok((role, key))
    else if !Hashable(key.expression) then Err(Unhashable(key.expression))
    else if !Hashable(key.title) then Err(Unhashable(key.title))
    else if !Hashable(key.description) then Err(Unhashable(key.description))
    else Ok((role, key))
  }

  /** `(x.get("iamPolicy", {}) or {}).get("bindings", []) or []`. */
  function BindingsField(x: Json): (r: Result<Json, PyError>)
  {
    var policy :- Get(x, "iamPolicy", Obj([]));
    var bindings :- Get(Or(policy, Obj([])), "bindings", Arr([]));
    Ok(Or(bindings, Arr([])))
  }

  /** The prior index: later bindings with the same key replace earlier ones. */
  function IndexOf(olds: seq<Json>): (r: Result<map<Key, set<string>>, PyError>)
    decreases |olds|
  {
    if olds == [] then Ok(map[])
    else
      var index :- IndexOf(olds[..|olds| - 1]);
      var b :- ReadBinding(olds[|olds| - 1]);
      match b
      case None => Ok(index)
      case Some(x) =>
        var k :- HashKey(x.role, x.key);
        Ok(index[k := x.members])
  }

  /** The binding is read without error, has a truthy role and indexes
      under `k`. */
  predicate ReadsKey(b: Json, k: Key)
  {
    ReadBinding(b).Ok? && ReadBinding(b).value.Some?
    && (ReadBinding(b).value.value.role, ReadBinding(b).value.value.key) == k
  }

  /** A later prior binding with the same (role, key) replaces an earlier
      one: the index holds the members of the last binding under a key,
      not a union. */
  lemma {:induction false} IndexKeepsLast(pre: seq<Json>, b: Json, post: seq<Json>, k: Key)
    requires IndexOf(pre + [b] + post).Ok?
    requires ReadsKey(b, k)
    requires forall j :: 0 <= j < |post| ==> !ReadsKey(post[j], k)
    ensures k in IndexOf(pre + [b] + post).value
    ensures IndexOf(pre + [b] + post).value[k] == ReadBinding(b).value.value.members
    decreases |post|
  {
    if post == [] {
      assert pre + [b] + post == pre + [b];
      IndexStep(pre, b, k);
    } else {
      var front := post[..|post| - 1];
      var c := post[|post| - 1];
      assert pre + [b] + post == (pre + [b] + front) + [c];
      assert forall j :: 0 <= j < |front| ==> front[j] == post[j];
      assert !ReadsKey(c, k);
      IndexStep(pre + [b] + front, c, k);
      IndexKeepsLast(pre, b, front, k);
    }
  }

  /** One more prior binding sets its own key and leaves every other key
      as it was. */
  lemma IndexStep(olds: seq<Json>, c: Json, k: Key)
    requires IndexOf(olds + [c]).Ok?
    ensures IndexOf(olds).Ok? && ReadBinding(c).Ok?
    ensures ReadsKey(c, k) ==>
              k in IndexOf(olds + [c]).value && IndexOf(olds + [c]).value[k] == ReadBinding(c).value.value.members
    ensures !ReadsKey(c, k) ==>
              (k in IndexOf(olds + [c]).value <==> k in IndexOf(olds).value)
              && (k in IndexOf(olds).value ==> IndexOf(olds + [c]).value[k] == IndexOf(olds).value[k])
  {
    assert (olds + [c])[..|olds|] == olds;
  }

  /** What was granted under a key before: its indexed set, or nothing. */
  function Prior(index: map<Key, set<string>>, k: Key): set<string>
  {
    if k in index then index[k] else {}
  }

  /** The members one change reports. */
  datatype Delta = Delta(role: Json, members: seq<string>, condition: Json)

  /** The two emitting branches: the whole binding when its key is new,
      else the added members when there are any. */
  ghost function DeltaFor(x: Binding, index: map<Key, set<string>>): Option<Delta>
  {
    var k := (x.role, x.key);
    var added := SortSet(x.members - Prior(index, k));
    if k !in index then Some(Delta(x.role, SortSet(x.members), x.condition))
    else if added != [] then Some(Delta(x.role, added, x.condition))
    else None
  }

  /** Both branches report exactly `sorted(current - prior)`, and report
      iff that difference is non-empty. */
  lemma DeltaIsAddedMembers(x: Binding, index: map<Key, set<string>>)
    requires x.members != {}
    ensures var added := x.members - Prior(index, (x.role, x.key));
      DeltaFor(x, index) == if added == {} then None else Some(Delta(x.role, SortSet(added), x.condition))
  {
    var k := (x.role, x.key);
    if k !in index {
      assert x.members - Prior(index, k) == x.members;
    } else {
      var added := x.members - index[k];
      assert |SortSet(added)| == |added|;
      if added != {} {
        assert SortSet(added) != [];
      }
    }
  }

  /** The deltas for the current bindings, in their order. */
  ghost function DeltasOf(news: seq<Json>, index: map<Key, set<string>>): (r: Result<seq<Delta>, PyError>)
    decreases |news|
  {
    if news == [] then Ok([])
    else
      var deltas :- DeltasOf(news[..|news| - 1], index);
      DeltaStep(deltas, news[|news| - 1], index)
  }

  /** One turn of the second loop: skip a binding without role or members,
      else hash its key and report what it adds. */
  ghost function DeltaStep(deltas: seq<Delta>, nb: Json, index: map<Key, set<string>>): Result<seq<Delta>, PyError>
  {
    var b :- ReadBinding(nb);
    if b.None? || b.value.members == {} then Ok(deltas)
    else
      var x := b.value;
      var _ :- HashKey(x.role, x.key);
      match DeltaFor(x, index)
      case None => Ok(deltas)
      case Some(d) => Ok(deltas + [d])
  }

  /** `_compute_deltas(msg)`, in the order the source evaluates it. */
  ghost function DeltasSpec(msg: Json): Result<seq<Delta>, PyError>
  {
    if !msg.Obj? then Err(AttributeError(msg, "get"))
    else
      var asset := Field(msg.fields, "asset", Null);
      var prior := Field(msg.fields, "priorAsset", Null);
      var newField :- BindingsField(Or(asset, Obj([])));
      var oldField :- BindingsField(Or(prior, Obj([])));
      var olds :- Iterate(oldField);
      var index :- IndexOf(olds);
      var news :- Iterate(newField);
      DeltasOf(news, index)
  }

  /** Once a prefix of the prior bindings raises, the whole index raises
      the same error. */
  lemma {:induction false} IndexErrorSticks(olds: seq<Json>, i: nat)
    requires i <= |olds| && IndexOf(olds[..i]).Err?
    ensures IndexOf(olds) == IndexOf(olds[..i])
    decreases |olds|
  {
    if i < |olds| {
      var front := olds[..|olds| - 1];
      assert front[..i] == olds[..i];
      IndexErrorSticks(front, i);
    } else {
      assert olds[..i] == olds;
    }
  }

  lemma {:induction false} DeltasErrorSticks(news: seq<Json>, i: nat, index: map<Key, set<string>>)
    requires i <= |news| && DeltasOf(news[..i], index).Err?
    ensures DeltasOf(news, index) == DeltasOf(news[..i], index)
    decreases |news|
  {
    if i < |news| {
      var front := news[..|news| - 1];
      assert front[..i] == news[..i];
      DeltasErrorSticks(front, i, index);
    } else {
      assert news[..i] == news;
    }
  }

  /** The first loop of `_compute_deltas`: index the prior bindings. */
  method BuildIndex(olds: seq<Json>) returns (r: Result<map<Key, set<string>>, PyError>)
    ensures r == IndexOf(olds)
  {
    var index: map<Key, set<string>> := map[];
    var i := 0;
    while i < |olds|
      invariant i <= |olds|
      invariant IndexOf(olds[..i]) == Ok(index)
    {
      assert olds[..i + 1][..i] == olds[..i] && olds[..i + 1][i] == olds[i];
      var b := ReadBinding(olds[i]);
      if b.Err? {
        IndexErrorSticks(olds, i + 1);
        return Err(b.error);
      }
      if b.value.Some? {
        var x := b.value.value;
        var k := HashKey(x.role, x.key);
        if k.Err? {
          IndexErrorSticks(olds, i + 1);
          return Err(k.error);
        }
        index := index[k.value := x.members];
      }
      i := i + 1;
    }
    assert olds[..i] == olds;
    return Ok(index);
  }

  /** One current binding against the index. */
  method Compare(x: Binding, index: map<Key, set<string>>) returns (d: Option<Delta>)
    ensures d == DeltaFor(x, index)
  {
    var previous := if (x.role, x.key) in index then index[(x.role, x.key)] else {};
    var added := SortMembers(x.members - previous);
    if (x.role, x.key) !in index {
      var all := SortMembers(x.members);
      d := Some(Delta(x.role, all, x.condition));
    } else if added != [] {
      d := Some(Delta(x.role, added, x.condition));
    } else {
      d := None;
    }
  }

  /** The second loop: what each current binding adds over the index. */
  method CollectDeltas(news: seq<Json>, index: map<Key, set<string>>) returns (r: Result<seq<Delta>, PyError>)
    ensures r == DeltasOf(news, index)
  {
    var deltas: seq<Delta> := [];
    var i := 0;
    while i < |news|
      invariant i <= |news|
      invariant DeltasOf(news[..i], index) == Ok(deltas)
    {
      assert news[..i + 1][..i] == news[..i] && news[..i + 1][i] == news[i];
      assert DeltasOf(news[..i + 1], index) == DeltaStep(deltas, news[i], index);
      var b := ReadBinding(news[i]);
      if b.Err? {
        DeltasErrorSticks(news, i + 1, index);
        return Err(b.error);
      }
      if b.value.Some? && b.value.value.members != {} {
        var x := b.value.value;
        var k := HashKey(x.role, x.key);
        if k.Err? {
          DeltasErrorSticks(news, i + 1, index);
          return Err(k.error);
        }
        var d := Compare(x, index);
        if d.Some? {
          deltas := deltas + [d.value];
        }
      }
      i := i + 1;
    }
    assert news[..i] == news;
    return Ok(deltas);
  }

  /** Every reported change names at least one member, sorted without
      repeats, and no current binding yields more than one change. */
  lemma {:induction false} DeltasWellFormed(news: seq<Json>, index: map<Key, set<string>>)
    requires DeltasOf(news, index).Ok?
    ensures |DeltasOf(news, index).value| <= |news|
    ensures forall d :: d in DeltasOf(news, index).value ==> d.members != [] && StrictlySorted(d.members)
    decreases |news|
  {
    if news != [] {
      var front := news[..|news| - 1];
      DeltasWellFormed(front, index);
      StepWellFormed(DeltasOf(front, index).value, news[|news| - 1], index);
    }
  }

  lemma StepWellFormed(deltas: seq<Delta>, nb: Json, index: map<Key, set<string>>)
    requires DeltaStep(deltas, nb, index).Ok?
    ensures var r := DeltaStep(deltas, nb, index).value;
      r == deltas || exists d :: r == deltas + [d] && d.members != [] && StrictlySorted(d.members)
  {
    var b := ReadBinding(nb).value;
    if b.Some? && b.value.members != {} {
      var x := b.value;
      var k := (x.role, x.key);
      assert |SortSet(x.members)| == |x.members|;
      assert |SortSet(x.members - Prior(index, k))| == |x.members - Prior(index, k)|;
    }
  }

  /** Every change `_compute_deltas` reports names at least one member,
      sorted without repeats. */
  lemma DeltasSpecWellFormed(msg: Json)
    requires DeltasSpec(msg).Ok?
    ensures forall d :: d in DeltasSpec(msg).value ==> d.members != [] && StrictlySorted(d.members)
  {
    var asset := Field(msg.fields, "asset", Null);
    var prior := Field(msg.fields, "priorAsset", Null);
    var newField := BindingsField(Or(asset, Obj([]))).value;
    var oldField := BindingsField(Or(prior, Obj([]))).value;
    var index := IndexOf(Iterate(oldField).value).value;
    DeltasWellFormed(Iterate(newField).value, index);
  }

  /** `_compute_deltas`, in the source's order of evaluation. */
  method ComputeDeltas(msg: Json) returns (r: Result<seq<Delta>, PyError>)
    ensures r == DeltasSpec(msg)
  {
    if !msg.Obj? {
      return Err(AttributeError(msg, "get"));
    }
    var asset := Field(msg.fields, "asset", Null);
    var prior := Field(msg.fields, "priorAsset", Null);
    var newField :- BindingsField(Or(asset, Obj([])));
    var oldField :- BindingsField(Or(prior, Obj([])));
    var olds :- Iterate(oldField);
    var index :- BuildIndex(olds);
    var news :- Iterate(newField);
    r := CollectDeltas(news, index);
  }
}

=== FILE: asset_feed.dfy ===
/** The asset-feed handler: from a Cloud Asset Inventory change message to
    one change event, and its hand-off to the configured destination. */
module AssetFeed {

  import opened Wrappers
  import opened Py
  import opened Text
  import opened Order
  import opened Base
  import opened Io
  import opened LogsUrl
  import opened AssetDiff
  import Factory

  /** Bucket policy changes are reported by the audit-log handler instead. */
  const IgnoredAssetType := "storage.googleapis.com/Bucket"

  /** An asset name containing this belongs to a project, folder or
      organization, and is reported by its resolved id. */
  const CrmHost := "cloudresourcemanager.googleapis.com"

  // ---------------------------------------------------------------------
  // The first ancestor

  /** `ancestors[0] if ancestors else ""` for an `ancestors` value that is
      already `or []`-defaulted. */
  function FirstAncestor(ancestors: Json): (r: Result<Json, PyError>)
    ensures !Truthy(ancestors) ==> r == Ok(Str(""))
    ensures ancestors.Arr? && ancestors.items != [] ==> r == Ok(ancestors.items[0])
    ensures r.Err? <==> Truthy(ancestors) && !ancestors.Arr? && !ancestors.Str?
  {
    if !Truthy(ancestors) then Ok(Str(""))
    else
      match ancestors
      case Arr(items) => Ok(items[0])
      case Str(s) => Ok(Str([s[0]]))
      case Obj(_) => Err(PyError("KeyError", "0"))
      case _ => Err(PyError("TypeError", "'" + TypeName(ancestors) + "' object is not subscriptable"))
  }

  // ---------------------------------------------------------------------
  // Resolving the ancestor through Cloud Resource Manager

  /** What one Resource Manager `get(name=...).execute()` does: raise, or
      return the resource's string fields. */
  datatype CrmReply = Raised(error: PyError) | Record(fields: map<string, string>)

  /** The resource the change is attributed to: its type, its id (the
      logs link's scope value) and the name shown to people. */
  datatype Scope = Scope(kind: string, id: string, display: string)

  const FolderSuffix := " (*folder-level*)"
  const OrganizationSuffix := " (*organization-level*)"

  /** `record.get(key, default)`. */
  function FieldOr(fields: map<string, string>, key: string, default: string): string
  {
    if key in fields then fields[key] else default
  }

  /** A folder or organization record: the last segment of its name, and
      its display name marked with the level. */
  function LevelScope(ancestor: string, fields: map<string, string>, kind: string, suffix: string): (s: Scope)
    ensures s.kind == kind && '/' !in s.id && EndsWith(s.display, suffix)
  {
    var display := FieldOr(fields, "displayName", ancestor) + suffix;
    assert display[|display| - |suffix|..] == suffix;
    Scope(kind, LastSegment(FieldOr(fields, "name", ancestor), '/'), display)
  }

  /** The scope the handler settles on. Any failure inside the lookup,
      a non-string ancestor included, falls back to the raw ancestor. */
  function Resolve(ancestor: Json, crm: string -> CrmReply): (s: Scope)
    ensures s.kind == "project" || s.kind == "folder" || s.kind == "organization"
    ensures s.kind == "folder" ==>
              ancestor.Str? && StartsWith(ancestor.s, "folders/") && crm(ancestor.s).Record?
              && '/' !in s.id && EndsWith(s.display, FolderSuffix)
    ensures s.kind == "organization" ==>
              ancestor.Str? && StartsWith(ancestor.s, "organizations/") && crm(ancestor.s).Record?
              && '/' !in s.id && EndsWith(s.display, OrganizationSuffix)
    ensures !ancestor.Str? || crm(ancestor.s).Raised? ==> s == Scope("project", StrOf(ancestor), "Unknown")
    ensures s.kind == "project" && s.display != "Unknown" ==>
              ancestor.Str? && StartsWith(ancestor.s, "projects/") && crm(ancestor.s).Record?
              && "projectId" in crm(ancestor.s).fields && s.id == s.display == crm(ancestor.s).fields["projectId"]
  {
    var fallback := Scope("project", StrOf(ancestor), "Unknown");
    if !ancestor.Str? then fallback
    else
      var a := ancestor.s;
      match crm(a)
      case Raised(_) => fallback
      case Record(fields) =>
        if StartsWith(a, "projects/") then
          if "projectId" in fields then Scope("project", fields["projectId"], fields["projectId"]) else fallback
        else if StartsWith(a, "folders/") then LevelScope(a, fields, "folder", FolderSuffix)
        else if StartsWith(a, "organizations/") then LevelScope(a, fields, "organization", OrganizationSuffix)
        else fallback
  }

  /** The lookup as the handler runs it: defaults first, each branch
      overwriting them, and the `except` restoring the raw ancestor. */
  method ResolveAncestor(ancestor: Json, crm: string -> CrmReply) returns (s: Scope)
    ensures s == Resolve(ancestor, crm)
  {
    var kind, id, display := "project", "", "Unknown";
    var failed := false;
    if !ancestor.Str? {
      failed := true;
    } else {
      var a := ancestor.s;
      var reply := crm(a);
      if StartsWith(a, "projects/") {
        if reply.Raised? || "projectId" !in reply.fields {
          failed := true;
        } else {
          kind := "project";
          id := reply.fields["projectId"];
          display := reply.fields["projectId"];
        }
      } else if StartsWith(a, "folders/") {
        if reply.Raised? {
          failed := true;
        } else {
          kind := "folder";
          id := LastSegment(FieldOr(reply.fields, "name", a), '/');
          display := FieldOr(reply.fields, "displayName", a) + FolderSuffix;
        }
      } else if StartsWith(a, "organizations/") {
        if reply.Raised? {
          failed := true;
        } else {
          kind := "organization";
          id := LastSegment(FieldOr(reply.fields, "name", a), '/');
          display := FieldOr(reply.fields, "displayName", a) + OrganizationSuffix;
        }
      } else {
        id := a;
        display := "Unknown";
      }
    }
    if failed {
      id := StrOf(ancestor);
      display := "Unknown";
    }
    s := Scope(kind, id, display);
  }

  /** The logs link's scope parameter name. */
  function ScopeKey(kind: string): string
  {
    if kind == "organization" then "organizationId" else kind
  }

  // ---------------------------------------------------------------------
  // Service name and resource name

  /** The service name cut from the asset type with `re.sub`: leading
      slashes, a segment, a slash and the rest of the line are replaced
      by the segment. A non-string asset type makes `re.sub` raise. */
  function ServiceName(assetType: Json): (r: Result<string, PyError>)
    ensures r.Ok? <==> assetType.Str?
    ensures r.Ok? ==> r.value == ServicePrefix(assetType.s)
    ensures r.Err? ==> r.error.cls == "TypeError"
  {
    if assetType.Str? then Ok(ServicePrefix(assetType.s))
    else Err(NotTextError(assetType))
  }

  /** `s` without its leading slashes. */
  function DropSlashes(s: string): (r: string)
    ensures r == [] || r[0] != '/'
    ensures |r| <= |s| && r == s[|s| - |r|..]
    ensures forall k :: 0 <= k < |s| - |r| ==> s[k] == '/'
  {
    if s != [] && s[0] == '/' then DropSlashes(s[1..]) else s
  }

  /** The longest prefix of `s` without a slash. */
  function Segment(s: string): (r: string)
    ensures '/' !in r && |r| <= |s| && r == s[..|r|]
    ensures |r| < |s| ==> s[|r|] == '/'
  {
    if s == [] || s[0] == '/' then [] else [s[0]] + Segment(s[1..])
  }

  /** What `.*` leaves unmatched: `s` from its first line break on. */
  function FromNewline(s: string): (r: string)
    ensures |r| <= |s| && r == s[|s| - |r|..]
    ensures r == [] || r[0] == '\n'
    ensures '\n' !in s ==> r == []
  {
    if s == [] || s[0] == '\n' then s else FromNewline(s[1..])
  }

  /** The substitution on a string: when the text after the leading
      slashes starts with a non-empty segment followed by a slash, that
      segment replaces the match (which stops at the first line break);
      otherwise nothing matches and the text is returned unchanged. */
  function ServicePrefix(s: string): string
  {
    var rest := DropSlashes(s);
    var segment := Segment(rest);
    if segment != [] && |segment| < |rest| then segment + FromNewline(rest[|segment| + 1..]) else s
  }

  /** An asset type `service/Kind` names its service. */
  lemma ServiceOfAssetType(slashes: nat, service: string, kind: string)
    requires service != [] && '/' !in service && '\n' !in kind
    ensures ServicePrefix(seq(slashes, _ => '/') + service + "/" + kind) == service
  {
    var s := seq(slashes, _ => '/') + service + "/" + kind;
    var rest := service + "/" + kind;
    assert s == seq(slashes, _ => '/') + rest;
    StripLeadingSlashes(slashes, rest);
    SegmentOf(service, kind);
    assert rest[|service| + 1..] == kind;
  }

  lemma {:induction false} StripLeadingSlashes(n: nat, rest: string)
    requires rest != [] && rest[0] != '/'
    ensures DropSlashes(seq(n, _ => '/') + rest) == rest
  {
    if n > 0 {
      var s := seq(n, _ => '/') + rest;
      assert s[1..] == seq(n - 1, _ => '/') + rest;
      StripLeadingSlashes(n - 1, rest);
    }
  }

  lemma {:induction false} SegmentOf(service: string, kind: string)
    requires '/' !in service
    ensures Segment(service + "/" + kind) == service
  {
    if service != [] {
      assert (service + "/" + kind)[1..] == service[1..] + "/" + kind;
      SegmentOf(service[1..], kind);
    }
  }

  /** A type without any slash is its own service name. */
  lemma ServiceWithoutSlash(s: string)
    requires '/' !in s
    ensures ServicePrefix(s) == s
  {
    var rest := DropSlashes(s);
    assert s != [] ==> s[0] != '/';
    assert rest == s;
  }

  /** The query's resource name: the resolved id for Resource Manager
      assets, else the asset name's last path segment. A non-string name
      only gets through when it holds the Resource Manager host itself. */
  function ResourceName(name: Json, resourceId: string): (r: Result<string, PyError>)
    ensures name.Str? ==> r.Ok?
    ensures name.Str? && Contains(name.s, CrmHost) ==> r.value == resourceId
    ensures name.Str? && !Contains(name.s, CrmHost) ==> '/' !in r.value && EndsWith(name.s, r.value)
    ensures r.Ok? && !name.Str? ==> r.value == resourceId
  {
    match name
    case Str(s) =>
      if Contains(s, CrmHost) then Ok(resourceId)
      else
        var last := LastSegment(s, '/');
        Ok(last)
    case Arr(items) => if Str(CrmHost) in items then Ok(resourceId) else Err(AttributeError(name, "split"))
    case Obj(fields) =>
      if Lookup(fields, CrmHost).Some? then Ok(resourceId) else Err(AttributeError(name, "split"))
    case _ => Err(PyError("TypeError", "argument of type '" + TypeName(name) + "' is not iterable"))
  }

  // ---------------------------------------------------------------------
  // Change groups

  /** A member naming one of the basic project roles is never reported. */
  predicate Basic(member: string)
  {
    Contains(member, "projectEditor") || Contains(member, "projectOwner") || Contains(member, "projectViewer")
  }

  /** The list comprehension that drops basic-role members, in order. */
  function Kept(members: seq<string>): (r: seq<string>)
    ensures |r| <= |members|
    ensures forall x :: x in r <==> x in members && !Basic(x)
  {
    if members == [] then []
    else (if Basic(members[0]) then [] else [members[0]]) + Kept(members[1..])
  }

  lemma {:induction false} KeptSorted(members: seq<string>)
    requires StrictlySorted(members)
    ensures StrictlySorted(Kept(members))
  {
    if members != [] {
      KeptSorted(members[1..]);
      var rest := Kept(members[1..]);
      forall x | x in rest ensures Below(members[0], x) {
        var k :| 0 <= k < |members[1..]| && members[1..][k] == x;
        assert members[k + 1] == x;
      }
    }
  }

  /** The groups of the event: one per delta that keeps a member. */
  function GroupsOf(deltas: seq<Delta>): seq<ChangeGroup>
  {
    if deltas == [] then []
    else GroupsOf(deltas[..|deltas| - 1]) + GroupFor(deltas[|deltas| - 1])
  }

  function GroupFor(d: Delta): seq<ChangeGroup>
  {
    var kept := Kept(d.members);
    if kept == [] then [] else [ChangeGroup(BindingAdded, Some(StrOf(d.role)), d.condition, kept)]
  }

  /** The loop over the deltas that filters members and appends groups. */
  method BuildGroups(deltas: seq<Delta>) returns (groups: seq<ChangeGroup>)
    ensures groups == GroupsOf(deltas)
  {
    groups := [];
    var i := 0;
    while i < |deltas|
      invariant i <= |deltas|
      invariant groups == GroupsOf(deltas[..i])
    {
      assert deltas[..i + 1][..i] == deltas[..i];
      var members := Kept(deltas[i].members);
      if members != [] {
        groups := groups + [ChangeGroup(BindingAdded, Some(StrOf(deltas[i].role)), deltas[i].condition, members)];
      }
      i := i + 1;
    }
    assert deltas[..i] == deltas;
  }

  /** Every group reports additions, names at least one member and no
      basic-role member, keeps its delta's order, and no delta yields
      more than one group. */
  lemma {:induction false} GroupsWellFormed(deltas: seq<Delta>)
    requires forall d :: d in deltas ==> StrictlySorted(d.members)
    ensures |GroupsOf(deltas)| <= |deltas|
    ensures forall g :: g in GroupsOf(deltas) ==>
              g.eventType == BindingAdded && g.members != [] && StrictlySorted(g.members)
              && forall m :: m in g.members ==> !Basic(m)
  {
    if deltas != [] {
      var front := deltas[..|deltas| - 1];
      var last := deltas[|deltas| - 1];
      assert forall d :: d in front ==> d in deltas;
      GroupsWellFormed(front);
      KeptSorted(last.members);
    }
  }

  /** No event is built exactly when every member of every delta holds a
      basic role. */
  lemma {:induction false} NoGroupsIffAllBasic(deltas: seq<Delta>)
    ensures GroupsOf(deltas) == [] <==> forall d, m :: d in deltas && m in d.members ==> Basic(m)
  {
    if deltas != [] {
      var front := deltas[..|deltas| - 1];
      var last := deltas[|deltas| - 1];
      NoGroupsIffAllBasic(front);
      assert deltas == front + [last];
      if GroupsOf(deltas) == [] {
        forall d, m | d in deltas && m in d.members ensures Basic(m) {
          if d == last {
            assert Kept(last.members) == [];
          } else {
            assert d in front;
          }
        }
      } else if GroupsOf(front) == [] {
        var m := Kept(last.members)[0];
        assert m in last.members && !Basic(m);
      }
    }
  }

  // ---------------------------------------------------------------------
  // The handler

  /** The event `process_feeds` builds from a message, `None` when it
      skips the message, or the error it raises first. */
  ghost function FeedEvent(msg: Json, crm: string -> CrmReply): Result<Option<IamChangeEvent>, PyError>
  {
    if !msg.Obj? then Err(AttributeError(msg, "get"))
    else
      var asset := Or(Field(msg.fields, "asset", Null), Obj([]));
      var assetType :- Get(asset, "assetType", Null);
      if !Truthy(asset) || !Truthy(assetType) then Ok(None)
      else if !Hashable(assetType) then Err(Unhashable(assetType))
      else if assetType == Str(IgnoredAssetType) then Ok(None)
      else
        var deltas :- DeltasSpec(msg);
        if deltas == [] then Ok(None)
        else EventFrom(msg, asset.fields, assetType, deltas, crm)
  }

  /** The second half of `process_feeds`, once there are deltas: the
      context lookups, the logs link and the groups. */
  function EventFrom(msg: Json, asset: seq<(string, Json)>, assetType: Json, deltas: seq<Delta>,
                     crm: string -> CrmReply): (r: Result<Option<IamChangeEvent>, PyError>)
    ensures r.Ok? && r.value.Some? ==> r.value.value.changes == GroupsOf(deltas) != []
    ensures r.Ok? ==> assetType.Str?
  {
    var ancestor :- FirstAncestor(Or(Field(asset, "ancestors", Arr([])), Arr([])));
    EventIn(msg, asset, assetType, deltas, Resolve(ancestor, crm))
  }

  /** The event once the resource it belongs to is known. */
  function EventIn(msg: Json, asset: seq<(string, Json)>, assetType: Json, deltas: seq<Delta>, scope: Scope)
    : (r: Result<Option<IamChangeEvent>, PyError>)
    ensures r.Ok? && r.value.Some? ==> r.value.value.changes == GroupsOf(deltas) != []
    ensures r.Ok? ==> assetType.Str?
  {
    var name := Field(asset, "name", Str("unknown"));
    var updateTime := Field(asset, "updateTime", Str(""));
    var service :- ServiceName(assetType);
    var resourceName :- ResourceName(name, scope.id);
    var url := LinkFor(service, resourceName, StrOf(updateTime), scope);
    var groups := GroupsOf(deltas);
    if groups == [] then Ok(None)
    else Ok(Some(IamChangeEvent(assetType.s, StrOf(name), scope.display, None, "asset-feed", StrOf(updateTime),
                                Some(url), msg, groups)))
  }

  /** The Logs Explorer link: the activity query for the service and
      resource, around the update time, scoped to the resolved resource. */
  function LinkFor(service: string, resourceName: string, updateTime: string, scope: Scope): string
  {
    BuildLogUrl(LogsQueryActivity(service, resourceName), updateTime, ScopeKey(scope.kind), scope.id)
  }

  /** `process_feeds` up to the point where it hands the event over. */
  method BuildEvent(msg: Json, crm: string -> CrmReply) returns (r: Result<Option<IamChangeEvent>, PyError>)
    ensures r == FeedEvent(msg, crm)
  {
    if !msg.Obj? {
      return Err(AttributeError(msg, "get"));
    }
    var asset := Or(Field(msg.fields, "asset", Null), Obj([]));
    var assetType :- Get(asset, "assetType", Null);
    if !Truthy(asset) || !Truthy(assetType) {
      return Ok(None);
    }
    if !Hashable(assetType) {
      return Err(Unhashable(assetType));
    }
    if assetType == Str(IgnoredAssetType) {
      return Ok(None);
    }
    var deltas :- ComputeDeltas(msg);
    if deltas == [] {
      return Ok(None);
    }
    r := Describe(msg, asset.fields, assetType, deltas, crm);
  }

  method Describe(msg: Json, asset: seq<(string, Json)>, assetType: Json, deltas: seq<Delta>,
                  crm: string -> CrmReply) returns (r: Result<Option<IamChangeEvent>, PyError>)
    ensures r == EventFrom(msg, asset, assetType, deltas, crm)
  {
    var ancestor :- FirstAncestor(Or(Field(asset, "ancestors", Arr([])), Arr([])));
    var scope := ResolveAncestor(ancestor, crm);
    r := Place(msg, asset, assetType, deltas, scope);
  }

  method Place(msg: Json, asset: seq<(string, Json)>, assetType: Json, deltas: seq<Delta>, scope: Scope)
    returns (r: Result<Option<IamChangeEvent>, PyError>)
    ensures r == EventIn(msg, asset, assetType, deltas, scope)
  {
    var name := Field(asset, "name", Str("unknown"));
    var updateTime := Field(asset, "updateTime", Str(""));
    var service :- ServiceName(assetType);
    var resourceName :- ResourceName(name, scope.id);
    var url := LinkFor(service, resourceName, StrOf(updateTime), scope);
    var groups := BuildGroups(deltas);
    if groups == [] {
      return Ok(None);
    }
    var event := IamChangeEvent(assetType.s, StrOf(name), scope.display, None, "asset-feed", StrOf(updateTime),
                                Some(url), msg, groups);
    return Ok(Some(event));
  }

  /** `process_feeds`: build the event, then deliver it. */
  method ProcessFeeds(msg: Json, env: Env, crm: string -> CrmReply, net: Transport) returns (r: Result<(), PyError>)
    modifies net
    ensures (r, net.State(), net.dispatched)
            == Factory.HandleSpec(FeedEvent(msg, crm), env, net.reply, net.smtp, old(net.State()), old(net.dispatched))
  {
    var event :- BuildEvent(msg, crm);
    if event.None? {
      return Ok(());
    }
    r := Factory.Deliver(env, event.value, net);
  }

  /** Bucket assets are left to the audit-log handler: such a message is
      skipped, whatever its bindings. */
  lemma BucketsAreSkipped(msg: Json, crm: string -> CrmReply)
    requires msg.Obj? && Field(msg.fields, "asset", Null).Obj?
    requires Field(Field(msg.fields, "asset", Null).fields, "assetType", Null) == Str(IgnoredAssetType)
    ensures FeedEvent(msg, crm) == Ok(None)
  {
    var asset := Field(msg.fields, "asset", Null);
    assert Lookup(asset.fields, "assetType").Some?;
  }

  /** What every event of the asset-feed handler looks like: attributed to
      the feed with no actor, carrying the message, a logs link and at
      least one group of added, sorted, non-basic members. */
  lemma EventShape(msg: Json, crm: string -> CrmReply, e: IamChangeEvent)
    requires FeedEvent(msg, crm) == Ok(Some(e))
    ensures e.source == "asset-feed" && e.actor == None && e.raw == msg && e.logsUrl.Some?
    ensures e.resourceType != IgnoredAssetType
    ensures msg.Obj? && Or(Field(msg.fields, "asset", Null), Obj([])).Obj?
    ensures var asset := Or(Field(msg.fields, "asset", Null), Obj([])).fields;
      Field(asset, "assetType", Null) == Str(e.resourceType)
      && e.resourceName == StrOf(Field(asset, "name", Str("unknown")))
      && e.timestamp == StrOf(Field(asset, "updateTime", Str("")))
    ensures e.changes != []
    ensures forall g :: g in e.changes ==>
              g.eventType == BindingAdded && g.members != [] && StrictlySorted(g.members)
              && forall m :: m in g.members ==> !Basic(m)
  {
    var asset := Or(Field(msg.fields, "asset", Null), Obj([]));
    var assetType := Get(asset, "assetType", Null).value;
    var deltas := DeltasSpec(msg).value;
    var ancestor := FirstAncestor(Or(Field(asset.fields, "ancestors", Arr([])), Arr([]))).value;
    var scope := Resolve(ancestor, crm);
    assert assetType != Str(IgnoredAssetType);
    assert FeedEvent(msg, crm) == EventIn(msg, asset.fields, assetType, deltas, scope);
    EventInShape(msg, asset.fields, assetType, deltas, scope, e);
    DeltasSpecWellFormed(msg);
    GroupsWellFormed(deltas);
  }

  lemma EventInShape(msg: Json, asset: seq<(string, Json)>, assetType: Json, deltas: seq<Delta>, scope: Scope,
                     e: IamChangeEvent)
    requires EventIn(msg, asset, assetType, deltas, scope) == Ok(Some(e))
    ensures e.source == "asset-feed" && e.actor == None && e.raw == msg && e.logsUrl.Some?
    ensures assetType.Str? && e.resourceType == assetType.s
    ensures e.resourceName == StrOf(Field(asset, "name", Str("unknown")))
    ensures e.timestamp == StrOf(Field(asset, "updateTime", Str("")))
  {
    var name := Field(asset, "name", Str("unknown"));
    assert ServiceName(assetType).Ok? && ResourceName(name, scope.id).Ok?;
  }
}

=== FILE: audit.dfy ===
/** The audit-log handler: a Cloud Storage `setIamPermissions` admin
    activity entry becomes one change event for the bucket, with the added
    members grouped by role and condition. */
module Audit {

  import opened Wrappers
  import opened Py
  import opened Text
  import opened Base
  import opened Io
  import LogsUrl
  import Factory

  const BucketType := "storage.googleapis.com/Bucket"

  // ---------------------------------------------------------------------
  // The signature guard and the ADD filter

  /** A Cloud Storage bucket permission change. */
  predicate Signature(service: Json, methodName: Json, resourceType: Json)
  {
    service == Str("storage.googleapis.com") && methodName == Str("storage.setIamPermissions")
    && resourceType == Str("gcs_bucket")
  }

  /** The deltas whose action is exactly "ADD", in order. Each delta must
      be a dict, since its action is read with `.get`. */
  function Adds(deltas: seq<Json>): (r: Result<seq<Json>, PyError>)
    ensures r.Ok? <==> forall k :: 0 <= k < |deltas| ==> deltas[k].Obj?
    ensures r.Ok? ==> |r.value| <= |deltas|
    ensures r.Ok? ==> forall d :: d in r.value <==> d in deltas && d.Obj? && Field(d.fields, "action", Null) == Str("ADD")
  {
    if deltas == [] then Ok([])
    else if !deltas[0].Obj? then Err(AttributeError(deltas[0], "get"))
    else
      var rest := Adds(deltas[1..]);
      assert forall k :: 1 <= k < |deltas| ==> deltas[k] == deltas[1..][k - 1];
      assert forall d :: d in deltas <==> d == deltas[0] || d in deltas[1..];
      if rest.Err? then rest
      else Ok((if Field(deltas[0].fields, "action", Null) == Str("ADD") then [deltas[0]] else []) + rest.value)
  }

  /** The filter keeps every ADD delta as many times as it occurs, and
      nothing else. */
  lemma {:induction false} AddsKeepCounts(deltas: seq<Json>)
    requires Adds(deltas).Ok?
    ensures forall d :: multiset(Adds(deltas).value)[d]
                        == (if d.Obj? && Field(d.fields, "action", Null) == Str("ADD") then multiset(deltas)[d] else 0)
  {
    if deltas != [] {
      AddsKeepCounts(deltas[1..]);
      assert deltas == [deltas[0]] + deltas[1..];
      assert multiset(deltas) == multiset{deltas[0]} + multiset(deltas[1..]);
    }
  }

  /** The filter works delta by delta: the ADD deltas of a concatenation
      are those of each part, in order, and the first non-dict raises. */
  lemma {:induction false} AddsAppend(a: seq<Json>, b: seq<Json>)
    ensures Adds(a + b) ==
              if Adds(a).Err? then Adds(a)
              else if Adds(b).Err? then Adds(b)
              else Ok(Adds(a).value + Adds(b).value)
  {
    if a != [] {
      var ab := a + b;
      assert ab[0] == a[0] && ab[1..] == a[1..] + b;
      if a[0].Obj? {
        AddsAppend(a[1..], b);
        var head := if Field(a[0].fields, "action", Null) == Str("ADD") then [a[0]] else [];
        if Adds(a[1..]).Ok? && Adds(b).Ok? {
          assert head + (Adds(a[1..]).value + Adds(b).value) == (head + Adds(a[1..]).value) + Adds(b).value;
        }
      }
    } else {
      assert a + b == b;
      assert Adds(b).Ok? ==> [] + Adds(b).value == Adds(b).value;
    }
  }

  /** `pp.get("serviceData", {}).get("policyDelta", {}).get("bindingDeltas", []) or []`,
      iterated, and its ADD deltas. */
  function AddsOf(pp: seq<(string, Json)>): (r: Result<seq<Json>, PyError>)
    ensures r.Ok? ==> forall d :: d in r.value ==> d.Obj?
  {
    var policyDelta :- Get(Field(pp, "serviceData", Obj([])), "policyDelta", Obj([]));
    var bindingDeltas :- Get(policyDelta, "bindingDeltas", Arr([]));
    var deltas :- Iterate(Or(bindingDeltas, Arr([])));
    Adds(deltas)
  }

  // ---------------------------------------------------------------------
  // The bucket name

  /** The group of `re.search(r"/buckets/([^/]+)$", name)`: the last path
      segment, when it is non-empty and preceded by `/buckets/`. */
  function BucketInName(name: string): (r: Option<string>)
    ensures r.Some? ==> r.value != "" && '/' !in r.value
    ensures forall b :: b != "" && '/' !in b ==> (EndsWith(name, "/buckets/" + b) <==> r == Some(b))
  {
    var last := LastSegment(name, '/');
    forall b | b != "" && '/' !in b && EndsWith(name, "/buckets/" + b) ensures b == last {
      OnlyLastSegment(name, b);
    }
    if last != "" && EndsWith(name, "/buckets/" + last) then Some(last) else None
  }

  /** A slash-free suffix that follows a slash is the last segment. */
  lemma OnlyLastSegment(name: string, b: string)
    requires '/' !in b && EndsWith(name, "/buckets/" + b)
    ensures LastSegment(name, '/') == b
  {
    var n := |name|;
    assert name[n - |b| - 1] == '/' by {
      assert name[n - |b| - 9..] == "/buckets/" + b;
    }
    assert name[n - |b|..] == b;
  }

  /** The bucket name's four-level fallback: a truthy `bucket_name`
      label, else the bucket segment of `resourceName`, else
      `resourceName` itself when it is non-empty, else "unknown-bucket". */
  function BucketName(labels: Json, pp: seq<(string, Json)>): (r: Result<string, PyError>)
    ensures r.Ok? ==> labels.Obj?
    ensures labels.Obj? && Truthy(Field(labels.fields, "bucket_name", Null)) ==>
              r == Ok(StrOf(Field(labels.fields, "bucket_name", Null)))
    ensures labels.Obj? && !Truthy(Field(labels.fields, "bucket_name", Null)) ==>
              var name := Field(pp, "resourceName", Str(""));
              (r.Ok? <==> name.Str?)
              && (name.Str? ==> forall b :: b != "" && '/' !in b && EndsWith(name.s, "/buckets/" + b) ==> r == Ok(b))
              && (name.Str? && name.s != "" && BucketInName(name.s).None? ==> r == Ok(name.s))
              && (name == Str("") ==> r == Ok("unknown-bucket"))
  {
    var given :- Get(labels, "bucket_name", Null);
    if Truthy(given) then Ok(StrOf(given))
    else
      var name := Field(pp, "resourceName", Str(""));
      if !name.Str? then Err(NotTextError(name))
      else
        match BucketInName(name.s)
        case Some(b) => Ok(b)
        case None => Ok(if name.s != "" then name.s else "unknown-bucket")
  }

  // ---------------------------------------------------------------------
  // Grouping by role and condition

  /** What the grouping loop reads from one ADD delta. */
  datatype Entry = Entry(role: Json, condition: string, member: Json)

  type Key = (Json, string)

  function EntryOf(d: seq<(string, Json)>): Entry
  {
    Entry(Field(d, "role", Str("unknown-role")), StrOf(Field(d, "condition", Null)),
          Field(d, "member", Str("unknown-member")))
  }

  function KeyOf(e: Entry): Key
  {
    (e.role, e.condition)
  }

  function EntriesOf(adds: seq<Json>): (es: seq<Entry>)
    requires forall d :: d in adds ==> d.Obj?
    ensures |es| == |adds|
    decreases |adds|
  {
    if adds == [] then []
    else
      assert forall d :: d in adds[..|adds| - 1] ==> d in adds;
      EntriesOf(adds[..|adds| - 1]) + [EntryOf(adds[|adds| - 1].fields)]
  }

  /** The first entry whose role cannot be a dict key raises. */
  function Hashes(es: seq<Entry>): Result<(), PyError>
    decreases |es|
  {
    if es == [] then Ok(())
    else
      var _ :- Hashes(es[..|es| - 1]);
      if Hashable(es[|es| - 1].role) then Ok(()) else Err(Unhashable(es[|es| - 1].role))
  }

  /** The keys in the order they are first seen. */
  function FirstSeen(es: seq<Entry>): (ks: seq<Key>)
    ensures |ks| <= |es|
    decreases |es|
  {
    if es == [] then []
    else
      var front := FirstSeen(es[..|es| - 1]);
      var k := KeyOf(es[|es| - 1]);
      if k in front then front else front + [k]
  }

  /** The keys listed are exactly the keys of the entries, each once. */
  lemma {:induction false} FirstSeenKeys(es: seq<Entry>)
    ensures forall k :: k in FirstSeen(es) <==> exists j :: 0 <= j < |es| && KeyOf(es[j]) == k
    ensures forall i, j :: 0 <= i < j < |FirstSeen(es)| ==> FirstSeen(es)[i] != FirstSeen(es)[j]
    decreases |es|
  {
    if es != [] {
      var front := es[..|es| - 1];
      FirstSeenKeys(front);
      assert forall j :: 0 <= j < |front| ==> front[j] == es[j];
    }
  }

  /** The members of the entries with key `k`, in entry order. */
  function MembersFor(es: seq<Entry>, k: Key): (ms: seq<Json>)
    ensures |ms| <= |es|
    decreases |es|
  {
    if es == [] then []
    else MembersFor(es[..|es| - 1], k) + (if KeyOf(es[|es| - 1]) == k then [es[|es| - 1].member] else [])
  }

  /** A value read as `None` stays `None`; anything else is kept as its
      text. */
  function TextOrNone(j: Json): Option<string>
  {
    if j == Null then None else Some(StrOf(j))
  }

  function GroupOf(k: Key, members: seq<Json>): (g: ChangeGroup)
    ensures g.eventType == BindingAdded && g.condition == Str(k.1) && |g.members| == |members|
  {
    ChangeGroup(BindingAdded, TextOrNone(k.0), Str(k.1), Texts(members))
  }

  /** Each member as its text. */
  function Texts(members: seq<Json>): (r: seq<string>)
    ensures |r| == |members|
  {
    if members == [] then [] else [StrOf(members[0])] + Texts(members[1..])
  }

  /** The reference grouping: one group per key in `ks`, holding that
      key's members in entry order, duplicates kept. */
  function GroupsFor(ks: seq<Key>, es: seq<Entry>): (gs: seq<ChangeGroup>)
    ensures |gs| == |ks|
    ensures forall n :: 0 <= n < |ks| ==> gs[n] == GroupOf(ks[n], MembersFor(es, ks[n]))
  {
    if ks == [] then []
    else GroupsFor(ks[..|ks| - 1], es) + [GroupOf(ks[|ks| - 1], MembersFor(es, ks[|ks| - 1]))]
  }

  /** The groups of the event, in first-seen key order, or the error the
      grouping loop raises. */
  function AuditGroups(adds: seq<Json>): (r: Result<seq<ChangeGroup>, PyError>)
    requires forall d :: d in adds ==> d.Obj?
  {
    var es := EntriesOf(adds);
    var _ :- Hashes(es);
    Ok(GroupsFor(FirstSeen(es), es))
  }

  /** The dict `role_members` as insertion-ordered keys and a map: its
      keys are exactly the ones listed, each holding its members so far. */
  ghost predicate Tracks(order: seq<Key>, members: map<Key, seq<Json>>, es: seq<Entry>)
  {
    (forall k :: k in members <==> k in order)
    && forall k :: k in members ==> members[k] == MembersFor(es, k)
  }

  /** `role_members[(role, condition)].append(member)` on a defaultdict. */
  method Append(order: seq<Key>, members: map<Key, seq<Json>>, e: Entry, ghost es: seq<Entry>)
    returns (order': seq<Key>, members': map<Key, seq<Json>>)
    requires order == FirstSeen(es) && Tracks(order, members, es)
    ensures order' == FirstSeen(es + [e]) && Tracks(order', members', es + [e])
  {
    GroupingStep(es, e);
    var k := (e.role, e.condition);
    if k in members {
      order', members' := order, members[k := members[k] + [e.member]];
    } else {
      UnseenHasNoMembers(es, k);
      order', members' := order + [k], members[k := [e.member]];
    }
  }

  /** The first loop: fill the dict, raising at the first role that
      cannot be hashed. */
  method Collect(adds: seq<Json>) returns (r: Result<(seq<Key>, map<Key, seq<Json>>), PyError>)
    requires forall d :: d in adds ==> d.Obj?
    ensures r.Err? <==> Hashes(EntriesOf(adds)).Err?
    ensures r.Err? ==> r.error == Hashes(EntriesOf(adds)).error
    ensures r.Ok? ==> r.value.0 == FirstSeen(EntriesOf(adds)) && Tracks(r.value.0, r.value.1, EntriesOf(adds))
  {
    ghost var es := EntriesOf(adds);
    var order: seq<Key> := [];
    var members: map<Key, seq<Json>> := map[];
    var i := 0;
    while i < |adds|
      invariant i <= |adds|
      invariant Hashes(es[..i]).Ok?
      invariant order == FirstSeen(es[..i]) && Tracks(order, members, es[..i])
    {
      var e := EntryOf(adds[i].fields);
      EntryAt(adds, i);
      PrefixStep(es, i);
      HashesStep(es[..i], e);
      if !Hashable(e.role) {
        HashesSticks(es, i + 1);
        return Err(Unhashable(e.role));
      }
      order, members := Append(order, members, e, es[..i]);
      i := i + 1;
    }
    assert es[..i] == es;
    return Ok((order, members));
  }

  lemma {:induction false} EntryAt(adds: seq<Json>, i: nat)
    requires forall d :: d in adds ==> d.Obj?
    requires i < |adds|
    ensures EntriesOf(adds)[i] == EntryOf(adds[i].fields)
    decreases |adds|
  {
    if i < |adds| - 1 {
      var front := adds[..|adds| - 1];
      assert forall d :: d in front ==> d in adds;
      EntryAt(front, i);
    }
  }

  /** The second loop: one group per dict entry, in insertion order. */
  method Emit(order: seq<Key>, members: map<Key, seq<Json>>) returns (groups: seq<ChangeGroup>)
    requires forall k :: k in order ==> k in members
    ensures |groups| == |order|
    ensures forall n :: 0 <= n < |order| ==> groups[n] == GroupOf(order[n], members[order[n]])
  {
    groups := [];
    var j := 0;
    while j < |order|
      invariant j <= |order|
      invariant |groups| == j
      invariant forall n :: 0 <= n < j ==> groups[n] == GroupOf(order[n], members[order[n]])
    {
      groups := groups + [GroupOf(order[j], members[order[j]])];
      j := j + 1;
    }
  }

  /** The grouping part of `process_audit_logs`. */
  method GroupAdds(adds: seq<Json>) returns (r: Result<seq<ChangeGroup>, PyError>)
    requires forall d :: d in adds ==> d.Obj?
    ensures r == AuditGroups(adds)
  {
    var collected :- Collect(adds);
    var (order, members) := collected;
    var groups := Emit(order, members);
    assert groups == GroupsFor(order, EntriesOf(adds));
    return Ok(groups);
  }

  /** How one more entry changes the key order and the members per key. */
  lemma GroupingStep(es: seq<Entry>, e: Entry)
    ensures FirstSeen(es + [e]) == FirstSeen(es) + (if KeyOf(e) in FirstSeen(es) then [] else [KeyOf(e)])
    ensures forall k :: MembersFor(es + [e], k) == MembersFor(es, k) + (if KeyOf(e) == k then [e.member] else [])
  {
    assert (es + [e])[..|es|] == es;
  }

  /** How one more entry changes the hashing outcome. */
  lemma HashesStep(es: seq<Entry>, e: Entry)
    ensures Hashes(es + [e]) == if Hashes(es).Err? then Hashes(es) else if Hashable(e.role) then Ok(()) else Err(Unhashable(e.role))
  {
    assert (es + [e])[..|es|] == es;
  }


  /** A key never seen has no members. */
  lemma {:induction false} UnseenHasNoMembers(es: seq<Entry>, k: Key)
    requires k !in FirstSeen(es)
    ensures MembersFor(es, k) == []
    decreases |es|
  {
    if es != [] {
      var front := es[..|es| - 1];
      assert forall j :: 0 <= j < |front| ==> front[j] == es[j];
      UnseenHasNoMembers(front, k);
    }
  }

  lemma {:induction false} HashesSticks(es: seq<Entry>, i: nat)
    requires i <= |es| && Hashes(es[..i]).Err?
    ensures Hashes(es) == Hashes(es[..i])
    decreases |es|
  {
    if i < |es| {
      var front := es[..|es| - 1];
      assert front[..i] == es[..i];
      HashesSticks(front, i);
    } else {
      assert es[..i] == es;
    }
  }

  // ---------------------------------------------------------------------
  // Counting members

  /** The members of the groups for keys `ks`, counted. */
  function Total(ks: seq<Key>, es: seq<Entry>): nat
  {
    if ks == [] then 0 else Total(ks[..|ks| - 1], es) + |MembersFor(es, ks[|ks| - 1])|
  }

  /** The members the groups hold, counted. */
  function MemberCount(gs: seq<ChangeGroup>): nat
  {
    if gs == [] then 0 else MemberCount(gs[..|gs| - 1]) + |gs[|gs| - 1].members|
  }

  lemma {:induction false} CountIsTotal(ks: seq<Key>, es: seq<Entry>)
    ensures MemberCount(GroupsFor(ks, es)) == Total(ks, es)
  {
    if ks != [] {
      var front := ks[..|ks| - 1];
      CountIsTotal(front, es);
      assert GroupsFor(ks, es)[..|ks| - 1] == GroupsFor(front, es);
    }
  }

  /** One more entry adds one member to its key's group, if that key is listed. */
  lemma {:induction false} TotalStep(ks: seq<Key>, es: seq<Entry>, e: Entry)
    requires forall i, j :: 0 <= i < j < |ks| ==> ks[i] != ks[j]
    ensures Total(ks, es + [e]) == Total(ks, es) + (if KeyOf(e) in ks then 1 else 0)
  {
    GroupingStep(es, e);
    if ks != [] {
      var front := ks[..|ks| - 1];
      TotalStep(front, es, e);
      assert KeyOf(e) in ks <==> KeyOf(e) in front || KeyOf(e) == ks[|ks| - 1];
      if KeyOf(e) == ks[|ks| - 1] {
        assert KeyOf(e) !in front;
      }
    }
  }

  /** Every entry lands in exactly one group. */
  lemma {:induction false} TotalIsEntries(es: seq<Entry>)
    ensures Total(FirstSeen(es), es) == |es|
  {
    if es != [] {
      var front := es[..|es| - 1];
      var e := es[|es| - 1];
      assert es == front + [e];
      TotalIsEntries(front);
      FirstSeenKeys(front);
      GroupingStep(front, e);
      TotalStep(FirstSeen(front), front, e);
      if KeyOf(e) !in FirstSeen(front) {
        UnseenHasNoMembers(front, KeyOf(e));
        var ks := FirstSeen(front) + [KeyOf(e)];
        assert ks[..|ks| - 1] == FirstSeen(front);
      }
    }
  }

  /** The grouping keeps every ADD delta: as many members as deltas, and
      never more groups than deltas. */
  lemma GroupedCount(adds: seq<Json>)
    requires forall d :: d in adds ==> d.Obj?
    requires AuditGroups(adds).Ok?
    ensures MemberCount(AuditGroups(adds).value) == |adds|
    ensures |AuditGroups(adds).value| <= |adds|
  {
    var es := EntriesOf(adds);
    CountIsTotal(FirstSeen(es), es);
    TotalIsEntries(es);
  }

  /** Some ADD delta means some group, and every group is an addition
      whose condition is a string. */
  lemma GroupedShape(adds: seq<Json>)
    requires forall d :: d in adds ==> d.Obj?
    requires AuditGroups(adds).Ok?
    ensures adds != [] ==> AuditGroups(adds).value != []
    ensures forall g :: g in AuditGroups(adds).value ==> g.eventType == BindingAdded && g.condition.Str?
  {
    var es := EntriesOf(adds);
    if adds != [] {
      FirstSeenKeys(es);
      assert KeyOf(es[0]) in FirstSeen(es);
    }
  }

  // ---------------------------------------------------------------------
  // The handler

  /** `msg.get("protoPayload", {}) or {}`. */
  function Payload(msg: seq<(string, Json)>): Json
  {
    Or(Field(msg, "protoPayload", Obj([])), Obj([]))
  }

  /** `msg.get("resource", {}) or {}`. */
  function Resource(msg: seq<(string, Json)>): Json
  {
    Or(Field(msg, "resource", Obj([])), Obj([]))
  }

  /** The event `process_audit_logs` builds, `None` when it returns early,
      or the first error it raises. */
  function AuditEvent(msg: Json): Result<Option<IamChangeEvent>, PyError>
  {
    if !msg.Obj? then Err(AttributeError(msg, "get"))
    else
      var pp := Payload(msg.fields);
      var res := Resource(msg.fields);
      var labels :- Get(res, "labels", Obj([]));
      var service :- Get(pp, "serviceName", Null);
      if !Signature(service, Field(pp.fields, "methodName", Null), Field(res.fields, "type", Null)) then Ok(None)
      else
        var adds :- AddsOf(pp.fields);
        if adds == [] then Ok(None)
        else EventFor(msg.fields, pp.fields, Or(labels, Obj([])), adds)
  }

  /** The event once there are ADD deltas: bucket, project, actor,
      timestamp, logs link and groups. */
  function EventFor(msg: seq<(string, Json)>, pp: seq<(string, Json)>, labels: Json, adds: seq<Json>)
    : (r: Result<Option<IamChangeEvent>, PyError>)
    requires forall d :: d in adds ==> d.Obj?
  {
    var bucket :- BucketName(labels, pp);
    var projectId := Field(labels.fields, "project_id", Str("unknown-project"));
    var actor :- Get(Field(pp, "authenticationInfo", Obj([])), "principalEmail", Str("unknown"));
    var timestamp := Or(Field(msg, "timestamp", Null), Str(""));
    var url := LogsUrl.BuildLogUrl(LogsUrl.LogsQueryBucketAdds(bucket), StrOf(timestamp), "project", StrOf(projectId));
    var groups :- AuditGroups(adds);
    if groups == [] then Ok(None)
    else Ok(Some(IamChangeEvent(BucketType, bucket, StrOf(projectId), TextOrNone(actor), "audit-logs",
                                StrOf(timestamp), Some(url), Obj(msg), groups)))
  }

  /** `process_audit_logs` up to the point where it hands the event over. */
  method BuildAuditEvent(msg: Json) returns (r: Result<Option<IamChangeEvent>, PyError>)
    ensures r == AuditEvent(msg)
  {
    if !msg.Obj? {
      return Err(AttributeError(msg, "get"));
    }
    var pp := Payload(msg.fields);
    var res := Resource(msg.fields);
    var labels :- Get(res, "labels", Obj([]));
    var service :- Get(pp, "serviceName", Null);
    if !Signature(service, Field(pp.fields, "methodName", Null), Field(res.fields, "type", Null)) {
      return Ok(None);
    }
    var adds :- AddsOf(pp.fields);
    if adds == [] {
      return Ok(None);
    }
    r := Assemble(msg.fields, pp.fields, Or(labels, Obj([])), adds);
  }

  method Assemble(msg: seq<(string, Json)>, pp: seq<(string, Json)>, labels: Json, adds: seq<Json>)
    returns (r: Result<Option<IamChangeEvent>, PyError>)
    requires forall d :: d in adds ==> d.Obj?
    ensures r == EventFor(msg, pp, labels, adds)
  {
    var bucket :- BucketName(labels, pp);
    var projectId := Field(labels.fields, "project_id", Str("unknown-project"));
    var actor :- Get(Field(pp, "authenticationInfo", Obj([])), "principalEmail", Str("unknown"));
    var timestamp := Or(Field(msg, "timestamp", Null), Str(""));
    var url := LogsUrl.BuildLogUrl(LogsUrl.LogsQueryBucketAdds(bucket), StrOf(timestamp), "project", StrOf(projectId));
    var groups :- GroupAdds(adds);
    if groups == [] {
      return Ok(None);
    }
    return Ok(Some(IamChangeEvent(BucketType, bucket, StrOf(projectId), TextOrNone(actor), "audit-logs",
                                  StrOf(timestamp), Some(url), Obj(msg), groups)));
  }

  /** `process_audit_logs`: build the event, then deliver it. */
  method ProcessAuditLogs(msg: Json, env: Env, net: Transport) returns (r: Result<(), PyError>)
    modifies net
    ensures (r, net.State(), net.dispatched)
            == Factory.HandleSpec(AuditEvent(msg), env, net.reply, net.smtp, old(net.State()), old(net.dispatched))
  {
    var event :- BuildAuditEvent(msg);
    if event.None? {
      return Ok(());
    }
    r := Factory.Deliver(env, event.value, net);
  }

  /** An event is built exactly for a storage permission change with at
      least one ADD delta (when nothing raises). */
  lemma EventIffAdds(msg: Json)
    requires AuditEvent(msg).Ok?
    ensures msg.Obj? && Payload(msg.fields).Obj? && Resource(msg.fields).Obj?
    ensures var pp := Payload(msg.fields).fields;
      AuditEvent(msg).value.Some? <==>
        Signature(Field(pp, "serviceName", Null), Field(pp, "methodName", Null),
                  Field(Resource(msg.fields).fields, "type", Null))
        && AddsOf(pp).Ok? && AddsOf(pp).value != []
  {
    var pp := Payload(msg.fields);
    var res := Resource(msg.fields);
    if Signature(Field(pp.fields, "serviceName", Null), Field(pp.fields, "methodName", Null), Field(res.fields, "type", Null)) {
      var adds := AddsOf(pp.fields).value;
      if adds != [] {
        GroupedShape(adds);
      }
    }
  }

  /** What every audit-log event looks like: a bucket event from the audit
      logs with a logs link, carrying the message and at least one group,
      each an addition with a string condition. Its name is the bucket,
      its display the `project_id` label ("unknown-project" when absent),
      its actor the caller's `principalEmail` ("unknown" when absent) and
      its timestamp the entry's (`""` when falsy). */
  lemma AuditEventShape(msg: Json, e: IamChangeEvent)
    requires AuditEvent(msg) == Ok(Some(e))
    ensures e.resourceType == BucketType && e.source == "audit-logs" && e.raw == msg && e.logsUrl.Some?
    ensures e.changes != []
    ensures forall g :: g in e.changes ==> g.eventType == BindingAdded && g.condition.Str?
    ensures msg.Obj? && Payload(msg.fields).Obj? && Resource(msg.fields).Obj?
    ensures var pp := Payload(msg.fields).fields;
      var labels := Or(Get(Resource(msg.fields), "labels", Obj([])).value, Obj([]));
      BucketName(labels, pp) == Ok(e.resourceName)
      && labels.Obj? && e.resourceDisplay == StrOf(Field(labels.fields, "project_id", Str("unknown-project")))
      && e.actor == TextOrNone(Get(Field(pp, "authenticationInfo", Obj([])), "principalEmail", Str("unknown")).value)
      && e.timestamp == StrOf(Or(Field(msg.fields, "timestamp", Null), Str("")))
  {
    var pp := Payload(msg.fields);
    var res := Resource(msg.fields);
    var labels := Get(res, "labels", Obj([])).value;
    var adds := AddsOf(pp.fields).value;
    assert AuditEvent(msg) == EventFor(msg.fields, pp.fields, Or(labels, Obj([])), adds);
    EventForShape(msg.fields, pp.fields, Or(labels, Obj([])), adds, e);
    GroupedShape(adds);
  }

  lemma EventForShape(msg: seq<(string, Json)>, pp: seq<(string, Json)>, labels: Json, adds: seq<Json>,
                      e: IamChangeEvent)
    requires forall d :: d in adds ==> d.Obj?
    requires EventFor(msg, pp, labels, adds) == Ok(Some(e))
    ensures e.resourceType == BucketType && e.source == "audit-logs" && e.raw == Obj(msg) && e.logsUrl.Some?
    ensures AuditGroups(adds).Ok? && e.changes == AuditGroups(adds).value
    ensures BucketName(labels, pp) == Ok(e.resourceName)
    ensures labels.Obj? && e.resourceDisplay == StrOf(Field(labels.fields, "project_id", Str("unknown-project")))
    ensures e.actor == TextOrNone(Get(Field(pp, "authenticationInfo", Obj([])), "principalEmail", Str("unknown")).value)
    ensures e.timestamp == StrOf(Or(Field(msg, "timestamp", Null), Str("")))
  {
    var bucket := BucketName(labels, pp);
    var actor := Get(Field(pp, "authenticationInfo", Obj([])), "principalEmail", Str("unknown"));
    var groups := AuditGroups(adds);
    assert bucket.Ok? && actor.Ok? && groups.Ok? && groups.value != [];
  }
}

=== FILE: base.dfy ===
/** The normalised shapes every component exchanges: one notifiable group of
    grants and one change event carrying them. */
module Base {

  import opened Wrappers
  import opened Py

  /** One unit of notifiable change. The asset-feed path stores the raw
      condition object here and the audit-log path its `str()`, so the
      condition is kept as a JSON value. */
  datatype ChangeGroup = ChangeGroup(
    eventType: string,          // "binding_added" or "binding_removed"
    role: Option<string>,
    condition: Json,
    members: seq<string>)

  /** One notifiable occurrence: nine fields, none called `event_type` or
      `role`. */
  datatype IamChangeEvent = IamChangeEvent(
    resourceType: string,
    resourceName: string,
    resourceDisplay: string,
    actor: Option<string>,      // who made the change (audit logs only)
    source: string,             // "asset-feed" or "audit-logs"
    timestamp: string,
    logsUrl: Option<string>,
    raw: Json,
    changes: seq<ChangeGroup>)

  const BindingAdded := "binding_added"
  const BindingRemoved := "binding_removed"

  /** The attribute names an `IamChangeEvent` has: its nine fields. */
  const EventFields: seq<string> := ["resource_type", "resource_name", "resource_display", "actor",
                                     "source", "timestamp", "logs_url", "raw", "changes"]

  /** What reading any other attribute of an event raises. */
  function MissingAttribute(name: string): (err: PyError)
    requires name !in EventFields
    ensures err.cls == "AttributeError"
  {
    PyError("AttributeError", "'IamChangeEvent' object has no attribute '" + name + "'")
  }
}

=== FILE: composite.dfy ===
/** The fan-out sink: every configured sink gets the event, in order, one
    sink's failure never stops the next, and the send itself never raises;
    failures are logged one by one and then once in summary. */
module Composite {

  import opened Wrappers
  import opened Py
  import opened Base
  import opened Io
  import opened Sinks

  datatype CompositeDestination = CompositeDestination(destinations: seq<Sink>)

  /** The outcome of each sink in `ds`, run one after the other from world
      `w`, and the world they leave; each failure also logs
      `destination_failed` with the sink's class name. */
  ghost function FanOut(ds: seq<Sink>, e: IamChangeEvent, reply: nat -> HttpReply, smtp: nat -> SmtpReply,
                        w: World): (o: (seq<Result<(), PyError>>, World))
    ensures |o.0| == |ds|
  {
    if ds == [] then ([], w)
    else
      var (outs, w1) := FanOut(ds[..|ds| - 1], e, reply, smtp, w);
      var last := ds[|ds| - 1];
      var (r, w2) := SinkSpec(last, e, reply, smtp, w1);
      (outs + [r], if r.Err? then AfterLog(w2, LogError("destination_failed", [ClassName(last)])) else w2)
  }

  /** `f"{d.__class__.__name__}: {e}"` for every sink that raised, in order. */
  function Errors(ds: seq<Sink>, outs: seq<Result<(), PyError>>): (errs: seq<string>)
    requires |outs| == |ds|
    ensures |errs| <= |ds|
    ensures errs == [] <==> forall k :: 0 <= k < |outs| ==> outs[k].Ok?
  {
    if ds == [] then []
    else
      var n := |ds| - 1;
      Errors(ds[..n], outs[..n])
        + (if outs[n].Err? then [ClassName(ds[n]) + ": " + outs[n].error.msg] else [])
  }

  /** The whole `send`: the fan-out, then one summary line when anything failed. */
  ghost function SendSpec(c: CompositeDestination, e: IamChangeEvent, reply: nat -> HttpReply,
                          smtp: nat -> SmtpReply, w: World): World
  {
    var (outs, w1) := FanOut(c.destinations, e, reply, smtp, w);
    var errs := Errors(c.destinations, outs);
    if errs != [] then AfterLog(w1, LogError("one_or_more_destinations_failed", errs)) else w1
  }

  /** `CompositeDestination.send`. It has no error result: it never raises. */
  method Send(c: CompositeDestination, e: IamChangeEvent, net: Transport)
    modifies net
    ensures net.State() == SendSpec(c, e, net.reply, net.smtp, old(net.State()))
    ensures net.dispatched == old(net.dispatched)
  {
    ghost var start := net.State();
    var errors: seq<string> := [];
    ghost var outs: seq<Result<(), PyError>> := [];
    var i := 0;
    while i < |c.destinations|
      invariant 0 <= i <= |c.destinations|
      invariant (outs, net.State()) == FanOut(c.destinations[..i], e, net.reply, net.smtp, start)
      invariant errors == Errors(c.destinations[..i], outs)
      invariant net.dispatched == old(net.dispatched)
    {
      var d := c.destinations[i];
      ghost var before := outs;
      var r := SinkSend(d, e, net);
      if r.Err? {
        net.Record(LogError("destination_failed", [ClassName(d)]));
        errors := errors + [ClassName(d) + ": " + r.error.msg];
      }
      outs := outs + [r];
      assert c.destinations[..i + 1][..i] == c.destinations[..i];
      assert outs[..i] == before;
      i := i + 1;
    }
    assert c.destinations[..i] == c.destinations;
    if errors != [] {
      net.Record(LogError("one_or_more_destinations_failed", errors));
    }
  }

  /** Fanning out to `ds1 + ds2` is fanning out to `ds1` and then, from
      the world that leaves, to `ds2`, whatever `ds1`'s sinks did. */
  lemma {:induction false} FanOutAppend(ds1: seq<Sink>, ds2: seq<Sink>, e: IamChangeEvent,
                                        reply: nat -> HttpReply, smtp: nat -> SmtpReply, w: World)
    ensures var (outs1, w1) := FanOut(ds1, e, reply, smtp, w);
            var (outs2, w2) := FanOut(ds2, e, reply, smtp, w1);
            FanOut(ds1 + ds2, e, reply, smtp, w) == (outs1 + outs2, w2)
    decreases |ds2|
  {
    if ds2 == [] {
      assert ds1 + ds2 == ds1;
      var outs1 := FanOut(ds1, e, reply, smtp, w).0;
      assert outs1 + [] == outs1;
    } else {
      var n := |ds2| - 1;
      FanOutAppend(ds1, ds2[..n], e, reply, smtp, w);
      assert (ds1 + ds2)[..|ds1 + ds2| - 1] == ds1 + ds2[..n];
      var outs1 := FanOut(ds1, e, reply, smtp, w).0;
      var w1 := FanOut(ds1, e, reply, smtp, w).1;
      var outs2 := FanOut(ds2, e, reply, smtp, w1).0;
      var outsPre := FanOut(ds2[..n], e, reply, smtp, w1).0;
      assert outs2 == outsPre + [outs2[n]];
      assert outs1 + outs2 == (outs1 + outsPre) + [outs2[n]];
    }
  }

  /** Every sink is called: the `k`-th outcome is what sink `k` does in
      the world the sinks before it left, failures included. */
  lemma EverySinkCalled(ds: seq<Sink>, k: nat, e: IamChangeEvent,
                        reply: nat -> HttpReply, smtp: nat -> SmtpReply, w: World)
    requires k < |ds|
    ensures FanOut(ds, e, reply, smtp, w).0[k]
            == SinkSpec(ds[k], e, reply, smtp, FanOut(ds[..k], e, reply, smtp, w).1).0
  {
    var front := ds[..k + 1];
    FanOutAppend(front, ds[k + 1..], e, reply, smtp, w);
    assert front + ds[k + 1..] == ds;
    var outsFront := FanOut(front, e, reply, smtp, w).0;
    var outsRest := FanOut(ds[k + 1..], e, reply, smtp, FanOut(front, e, reply, smtp, w).1).0;
    assert FanOut(ds, e, reply, smtp, w).0 == outsFront + outsRest;
    assert (outsFront + outsRest)[k] == outsFront[k];
    assert front[..k] == ds[..k] && front[k] == ds[k];
  }

  /** Failure messages follow the sinks' order and name each failing sink. */
  lemma {:induction false} ErrorsNameFailures(ds: seq<Sink>, outs: seq<Result<(), PyError>>, k: nat)
    requires |outs| == |ds| && k < |ds| && outs[k].Err?
    ensures ClassName(ds[k]) + ": " + outs[k].error.msg in Errors(ds, outs)
    decreases |ds|
  {
    var n := |ds| - 1;
    if k < n {
      ErrorsNameFailures(ds[..n], outs[..n], k);
    }
  }

  /** A composite with no sinks does nothing. */
  lemma EmptyCompositeIsSilent(e: IamChangeEvent, reply: nat -> HttpReply, smtp: nat -> SmtpReply, w: World)
    ensures SendSpec(CompositeDestination([]), e, reply, smtp, w) == w
  {
  }
}

=== FILE: email.dfy ===
/** The mail sink: SMTP settings read at construction (only the port can
    make construction fail), one message per event whose plain and HTML
    parts are the same text, sent in one SMTP session that logs in only
    when both a user and a password are set. */
module Email {

  import opened Wrappers
  import opened Py
  import opened Text
  import opened Base
  import opened Io
  import opened Render

  datatype EmailDestination = EmailDestination(
    host: string,
    port: int,
    user: Option<string>,
    password: Option<string>,
    sender: Option<string>,
    recipient: Option<string>)

  /** Construction: host and port default to `localhost` and `25`; a port
      that is not a decimal numeral raises ValueError. */
  function NewEmail(env: Env): (r: Result<EmailDestination, PyError>)
    ensures r.Ok? <==> ParseInt(GetEnvOr(env, "SMTP_PORT", "25")).Some?
    ensures r.Err? ==> r.error.cls == "ValueError"
    ensures r.Ok? ==> r.value.port == ParseInt(GetEnvOr(env, "SMTP_PORT", "25")).value
  {
    var host := GetEnvOr(env, "SMTP_HOST", "localhost");
    var port :- IntOf(GetEnvOr(env, "SMTP_PORT", "25"));
    Ok(EmailDestination(host, port, GetEnv(env, "SMTP_USER"), GetEnv(env, "SMTP_PASS"),
                        GetEnv(env, "SMTP_EMAIL_FROM"), GetEnv(env, "SMTP_EMAIL_TO")))
  }

  /** With nothing set, the sink talks to `localhost:25` without logging in. */
  lemma UnsetEnvironment()
    ensures NewEmail(map[]) == Ok(EmailDestination("localhost", 25, None, None, None, None))
  {
    DefaultPort();
  }

  lemma DefaultPort()
    ensures IntOf("25") == Ok(25)
  {
    assert NatToString(25) == "25";
    IntRoundTrip(25);
  }

  /** The subject names the resource's display name with no fallback. */
  function Subject(e: IamChangeEvent): (r: string)
    ensures StartsWith(r, "[GCP IAM] New Role Grant in ")
    ensures r[|"[GCP IAM] New Role Grant in "|..] == e.resourceDisplay
  {
    "[GCP IAM] New Role Grant in " + e.resourceDisplay
  }

  /** The body: the rendered lines joined by `<br>`. */
  function Body(e: IamChangeEvent): string
  {
    Join("<br>", Lines(e, EmailMarkup))
  }

  /** The message one event becomes; its plain and HTML parts are the same body. */
  function MailFor(d: EmailDestination, e: IamChangeEvent): (m: Mail)
    ensures m.plain == m.html
    ensures m.sender == d.sender && m.recipient == d.recipient
  {
    var body := Body(e);
    Mail(Subject(e), d.sender, d.recipient, body, body)
  }

  /** STARTTLS and login happen only when both user and password are truthy. */
  function Login(d: EmailDestination): (r: Option<(string, string)>)
    ensures r.Some? <==> Given(d.user) && Given(d.password)
    ensures r.Some? ==> r.value == (d.user.value, d.password.value)
  {
    if Given(d.user) && Given(d.password) then Some((d.user.value, d.password.value)) else None
  }

  /** What sending one event does, given the mail server's answers: one
      session carrying `MailFor(d, e)`, and the error it raised if any. */
  function Delivery(d: EmailDestination, e: IamChangeEvent, smtp: nat -> SmtpReply, w: World): (o: (Result<(), PyError>, World))
    ensures o.1.sessions == w.sessions + 1 && o.1.posts == w.posts
    ensures o.1.effects == w.effects + [SmtpSession(d.host, d.port, Login(d), MailFor(d, e))]
    ensures o.0.Ok? <==> smtp(w.sessions).Accepted?
    ensures o.0.Err? ==> o.0.error == smtp(w.sessions).error
  {
    var w' := AfterSmtp(w, d.host, d.port, Login(d), MailFor(d, e));
    match smtp(w.sessions)
    case Accepted => (Ok(()), w')
    case Refused(err) => (Err(err), w')
  }

  /** `EmailDestination.send`: one SMTP session; an error inside it propagates. */
  method Send(d: EmailDestination, e: IamChangeEvent, net: Transport) returns (r: Result<(), PyError>)
    modifies net
    ensures (r, net.State()) == Delivery(d, e, net.smtp, old(net.State()))
    ensures net.dispatched == old(net.dispatched)
  {
    var lines := BuildLines(e, EmailMarkup);
    var body := Join("<br>", lines);
    var mail := Mail(Subject(e), d.sender, d.recipient, body, body);
    var login := if Given(d.user) && Given(d.password) then Some((d.user.value, d.password.value)) else None;
    var reply := net.Smtp(d.host, d.port, login, mail);
    if reply.Refused? {
      return Err(reply.error);
    }
    return Ok(());
  }

  /** The body falls back to `Unknown` for an event with no display name,
      while the subject keeps the empty name. */
  lemma SubjectHasNoFallback(e: IamChangeEvent)
    requires e.resourceDisplay == ""
    ensures Subject(e) == "[GCP IAM] New Role Grant in "
    ensures StartsWith(Body(e), "New Role Grant in Unknown")
  {
    var ls := Lines(e, EmailMarkup);
    assert ls[0] == "New Role Grant in Unknown";
    JoinStartsWithFirst("<br>", ls);
  }

  /** A join starts with its first part. */
  lemma JoinStartsWithFirst(sep: string, parts: seq<string>)
    requires |parts| > 0
    ensures StartsWith(Join(sep, parts), parts[0])
  {
  }
}

=== FILE: factory.dfy ===
/** Building the destination from the environment: a comma-separated list
    of sink kinds, each optionally behind a filter wrapper configured by
    its own comma-separated lists, and one sink or a fan-out over all of
    them. */
module Factory {

  import opened Wrappers
  import opened Py
  import opened Text
  import opened Base
  import opened Io
  import opened Slack
  import opened Email
  import opened Sinks
  import opened Composite

  /** A list item `_csv` can yield: non-empty, comma-free, without
      surrounding white space and without capitals. */
  predicate Normal(x: string)
  {
    && x != ""
    && ',' !in x
    && !IsSpace(x[0]) && !IsSpace(x[|x| - 1])
    && forall k :: 0 <= k < |x| ==> !('A' <= x[k] <= 'Z')
  }

  /** The stripped, lower-cased, non-blank pieces, in order. */
  function Items(pieces: seq<string>): (r: seq<string>)
    ensures |r| <= |pieces|
  {
    if pieces == [] then []
    else
      var t := Strip(pieces[0]);
      (if t != "" then [Lower(t)] else []) + Items(pieces[1..])
  }

  /** `_csv(name, default)`: every item it yields is normal. */
  function Csv(env: Env, name: string, default: string): (r: seq<string>)
    ensures forall k :: 0 <= k < |r| ==> Normal(r[k])
  {
    var pieces := Split(GetEnvOr(env, name, default), ',');
    ItemsNormal(pieces);
    Items(pieces)
  }

  /** One comma-free piece, stripped and lower-cased, is normal unless blank. */
  lemma PieceNormal(p: string)
    requires ',' !in p && Strip(p) != ""
    ensures Normal(Lower(Strip(p)))
  {
    StripInside(p);
    LowerKeeps(Strip(p));
  }

  lemma {:induction false} ItemsNormal(pieces: seq<string>)
    requires forall k :: 0 <= k < |pieces| ==> ',' !in pieces[k]
    ensures forall k :: 0 <= k < |Items(pieces)| ==> Normal(Items(pieces)[k])
  {
    if pieces != [] {
      ItemsNormal(pieces[1..]);
      if Strip(pieces[0]) != "" {
        PieceNormal(pieces[0]);
      }
    }
  }

  /** Writing normal items with commas and reading them back gives them back. */
  lemma CsvRoundTrip(xs: seq<string>)
    requires forall k :: 0 <= k < |xs| ==> Normal(xs[k])
    ensures Items(Split(Join(",", xs), ',')) == xs
  {
    if xs == [] {
      assert Split("", ',') == [""];
    } else {
      SplitJoin(xs, ',');
      ItemsOfNormal(xs);
    }
  }

  lemma {:induction false} ItemsOfNormal(xs: seq<string>)
    requires forall k :: 0 <= k < |xs| ==> Normal(xs[k])
    ensures Items(xs) == xs
  {
    if xs != [] {
      StripNoop(xs[0]);
      LowerKeeps(xs[0]);
      ItemsOfNormal(xs[1..]);
      assert [xs[0]] + xs[1..] == xs;
    }
  }

  /** What `_csv` yields is a fixed point: reading it again changes nothing. */
  lemma CsvIdempotent(env: Env, name: string, default: string)
    ensures var xs := Csv(env, name, default); Items(Split(Join(",", xs), ',')) == xs
  {
    CsvRoundTrip(Csv(env, name, default));
  }

  datatype Filters = Filters(eventTypes: seq<string>, roles: seq<string>, resourceTypes: seq<string>)

  /** `parse_filters(prefix)`. */
  function ParseFilters(env: Env, prefix: string): (r: Filters)
    ensures forall k :: 0 <= k < |r.eventTypes| ==> Normal(r.eventTypes[k])
    ensures forall k :: 0 <= k < |r.roles| ==> Normal(r.roles[k])
    ensures forall k :: 0 <= k < |r.resourceTypes| ==> Normal(r.resourceTypes[k])
  {
    Filters(Csv(env, prefix + "_EVENT_TYPES", ""), Csv(env, prefix + "_ROLES", ""),
            Csv(env, prefix + "_RESOURCE_TYPES", ""))
  }

  function KindOf(c: Channel): string
  {
    match c
    case SlackSink(_) => "slack"
    case EmailSink(_) => "email"
  }

  function ChannelOf(s: Sink): Channel
  {
    match s
    case Plain(c) => c
    case Filtered(c, _, _, _) => c
  }

  /** `REGISTRY[kind]()`: an unknown kind raises KeyError. */
  function NewChannel(env: Env, kind: string): (r: Result<Channel, PyError>)
    ensures kind != "slack" && kind != "email" ==> r == Err(PyError("KeyError", "'" + kind + "'"))
    ensures r.Ok? ==> KindOf(r.value) == kind
  {
    if kind == "slack" then
      match NewSlack(env)
      case Ok(d) => Ok(SlackSink(d))
      case Err(err) => Err(err)
    else if kind == "email" then
      match NewEmail(env)
      case Ok(d) => Ok(EmailSink(d))
      case Err(err) => Err(err)
    else Err(PyError("KeyError", "'" + kind + "'"))
  }

  /** `make_single_destination(kind)`: the channel, wrapped in a filter
      exactly when one of its three lists is non-empty. */
  function MakeSingle(env: Env, kind: string): (r: Result<Sink, PyError>)
    ensures r.Ok? <==> NewChannel(env, kind).Ok?
    ensures r.Err? ==> r.error == NewChannel(env, kind).error
    ensures r.Ok? ==> ChannelOf(r.value) == NewChannel(env, kind).value
    ensures r.Ok? ==> var f := ParseFilters(env, "DEST_" + Upper(kind));
      (r.value.Filtered? <==> f.eventTypes != [] || f.roles != [] || f.resourceTypes != [])
  {
    match NewChannel(env, kind)
    case Err(err) => Err(err)
    case Ok(c) =>
      var f := ParseFilters(env, "DEST_" + Upper(kind));
      if f.eventTypes != [] || f.roles != [] || f.resourceTypes != [] then
        Ok(Filtered(c, set x | x in f.eventTypes, set x | x in f.roles, set x | x in f.resourceTypes))
      else Ok(Plain(c))
  }

  /** `[make_single_destination(t) for t in types]`: the first failure wins. */
  function MakeAll(env: Env, kinds: seq<string>): (r: Result<seq<Sink>, PyError>)
    ensures r.Ok? ==> |r.value| == |kinds|
    ensures r.Ok? ==> forall k :: 0 <= k < |kinds| ==> MakeSingle(env, kinds[k]) == Ok(r.value[k])
    ensures r.Err? ==> exists k :: 0 <= k < |kinds| && MakeSingle(env, kinds[k]) == Err(r.error)
                                   && forall j :: 0 <= j < k ==> MakeSingle(env, kinds[j]).Ok?
  {
    if kinds == [] then Ok([])
    else
      match MakeSingle(env, kinds[0])
      case Err(err) => Err(err)
      case Ok(s) =>
        match MakeAll(env, kinds[1..])
        case Err(err) =>
          MakeAllErrStep(kinds, kind => MakeSingle(env, kind), err);
          Err(err)
        case Ok(rest) =>
          MakeAllOkStep(kinds, kind => MakeSingle(env, kind), s, rest);
          Ok([s] + rest)
  }

  /** Building `kinds[0]` gave `s` and building the rest gave `rest`, item by item. */
  lemma MakeAllOkStep(kinds: seq<string>, make: string -> Result<Sink, PyError>, s: Sink, rest: seq<Sink>)
    requires kinds != [] && make(kinds[0]) == Ok(s) && |rest| == |kinds| - 1
    requires forall k :: 0 <= k < |kinds| - 1 ==> make(kinds[1..][k]) == Ok(rest[k])
    ensures forall k :: 0 <= k < |kinds| ==> make(kinds[k]) == Ok(([s] + rest)[k])
  {
    forall k | 0 <= k < |kinds| ensures make(kinds[k]) == Ok(([s] + rest)[k]) {
      if k > 0 {
        assert kinds[1..][k - 1] == kinds[k];
        assert ([s] + rest)[k] == rest[k - 1];
      }
    }
  }

  /** A failure in the rest is a failure of `kinds` after successes. */
  lemma MakeAllErrStep(kinds: seq<string>, make: string -> Result<Sink, PyError>, err: PyError)
    requires kinds != [] && make(kinds[0]).Ok?
    requires exists k :: 0 <= k < |kinds| - 1 && make(kinds[1..][k]) == Err(err)
                         && forall j :: 0 <= j < k ==> make(kinds[1..][j]).Ok?
    ensures exists k :: 0 <= k < |kinds| && make(kinds[k]) == Err(err)
                        && forall j :: 0 <= j < k ==> make(kinds[j]).Ok?
  {
    var k :| 0 <= k < |kinds| - 1 && make(kinds[1..][k]) == Err(err)
             && forall j :: 0 <= j < k ==> make(kinds[1..][j]).Ok?;
    assert make(kinds[k + 1]) == Err(err);
    forall j | 0 <= j < k + 1 ensures make(kinds[j]).Ok? {
      if j > 0 { assert kinds[j] == kinds[1..][j - 1]; }
    }
  }

  /** Each built sink is of the kind asked for, in order. */
  lemma MakeAllKinds(env: Env, kinds: seq<string>)
    requires MakeAll(env, kinds).Ok?
    ensures forall k :: 0 <= k < |kinds| ==> KindOf(ChannelOf(MakeAll(env, kinds).value[k])) == kinds[k]
  {
    var sinks := MakeAll(env, kinds).value;
    forall k | 0 <= k < |kinds| ensures KindOf(ChannelOf(sinks[k])) == kinds[k] {
      assert MakeSingle(env, kinds[k]) == Ok(sinks[k]);
    }
  }

  /** What the handlers send to. */
  datatype Destination = Single(sink: Sink) | Fanout(composite: CompositeDestination)

  /** The kinds `make_destination` builds: `DEST_TYPES`, else `DEST_TYPE`, else `slack`. */
  function Kinds(env: Env): (r: seq<string>)
    ensures forall k :: 0 <= k < |r| ==> Normal(r[k])
  {
    Csv(env, "DEST_TYPES", GetEnvOr(env, "DEST_TYPE", "slack"))
  }

  /** `make_destination()` once the kinds are read: exactly one kind gives
      that sink alone; any other number (none, or several, duplicates
      kept) gives a fan-out over them in order. */
  function FromKinds(env: Env, kinds: seq<string>): (r: Result<Destination, PyError>)
    ensures |kinds| == 1 ==> (r.Ok? <==> MakeSingle(env, kinds[0]).Ok?)
    ensures r.Ok? && |kinds| == 1 ==> r.value == Single(MakeSingle(env, kinds[0]).value)
    ensures r.Ok? && |kinds| != 1 ==> r.value.Fanout? && |r.value.composite.destinations| == |kinds|
    ensures r.Ok? && |kinds| != 1 ==> forall k :: 0 <= k < |kinds| ==>
              KindOf(ChannelOf(r.value.composite.destinations[k])) == kinds[k]
    ensures r.Err? ==> exists k :: 0 <= k < |kinds| && MakeSingle(env, kinds[k]) == Err(r.error)
  {
    if |kinds| == 1 then
      match MakeSingle(env, kinds[0])
      case Err(err) => Err(err)
      case Ok(s) => Ok(Single(s))
    else
      match MakeAll(env, kinds)
      case Err(err) => Err(err)
      case Ok(sinks) =>
        MakeAllKinds(env, kinds);
        Ok(Fanout(CompositeDestination(sinks)))
  }

  /** `make_destination()`: a bare sink for exactly one kind, a fan-out
      otherwise, and the first construction error raised. */
  function MakeDestination(env: Env): (r: Result<Destination, PyError>)
    ensures r.Ok? ==> (r.value.Single? <==> |Kinds(env)| == 1)
    ensures r.Ok? && r.value.Fanout? ==> |r.value.composite.destinations| == |Kinds(env)|
    ensures r.Err? ==> exists k :: 0 <= k < |Kinds(env)| && MakeSingle(env, Kinds(env)[k]) == Err(r.error)
  {
    FromKinds(env, Kinds(env))
  }

  /** With neither `DEST_TYPES` nor `DEST_TYPE` set, the one kind is `slack`. */
  lemma DefaultKindIsSlack(env: Env)
    requires "DEST_TYPES" !in env && "DEST_TYPE" !in env
    ensures Kinds(env) == ["slack"]
  {
    var raw := GetEnvOr(env, "DEST_TYPES", GetEnvOr(env, "DEST_TYPE", "slack"));
    assert raw == "slack";
    SingleItem(raw);
  }

  /** A lower-case word without commas or surrounding spaces is one item. */
  lemma SingleItem(w: string)
    requires w != [] && ',' !in w && !IsSpace(w[0]) && !IsSpace(w[|w| - 1])
    requires forall k :: 0 <= k < |w| ==> !('A' <= w[k] <= 'Z')
    ensures Items(Split(w, ',')) == [w]
  {
    SplitSingle(w, ',');
    StripNoop(w);
    LowerKeeps(w);
    var pieces := Split(w, ',');
    assert pieces[1..] == [];
  }

  /** So an unconfigured deployment is a bare chat sink, built or refused
      as the chat sink's own construction decides. */
  lemma DefaultIsSlack(env: Env)
    requires "DEST_TYPES" !in env && "DEST_TYPE" !in env
    ensures MakeDestination(env).Ok? <==> NewSlack(env).Ok?
    ensures MakeDestination(env).Ok? ==> MakeDestination(env).value.Single?
  {
    DefaultKindIsSlack(env);
    assert MakeDestination(env) == FromKinds(env, ["slack"]);
  }

  /** Every resource type a wrapper built from the environment lists is normal. */
  lemma WrapperListsNormal(env: Env, kind: string)
    requires MakeSingle(env, kind).Ok? && MakeSingle(env, kind).value.Filtered?
    ensures forall x :: x in MakeSingle(env, kind).value.resourceTypes ==> Normal(x)
  {
    var f := ParseFilters(env, "DEST_" + Upper(kind));
    assert MakeSingle(env, kind).value.resourceTypes == set x | x in f.resourceTypes;
  }

  /** A wrapper with a resource-type list and no other list. */
  predicate ResourceListOnly(s: Sink)
  {
    s.Filtered? && s.eventTypes == {} && s.roles == {} && s.resourceTypes != {}
  }

  /** The resource-type filter lower-cases what it is given but compares
      it with the event's resource type as is, so an event whose resource
      type has a capital letter is dropped by any wrapper with a resource
      type list and no other list. */
  lemma CapitalisedResourceTypeDropped(env: Env, kind: string, e: IamChangeEvent, i: nat,
                                       reply: nat -> HttpReply, smtp: nat -> SmtpReply, w: World)
    requires MakeSingle(env, kind).Ok?
    requires ResourceListOnly(MakeSingle(env, kind).value)
    requires i < |e.resourceType| && 'A' <= e.resourceType[i] <= 'Z'
    ensures SinkSpec(MakeSingle(env, kind).value, e, reply, smtp, w) == (Ok(()), w)
  {
    WrapperListsNormal(env, kind);
    var s := MakeSingle(env, kind).value;
    assert e.resourceType !in s.resourceTypes;
  }

  /** So the bucket resource type the audit path produces never passes a
      resource-type filter. */
  lemma BucketEventsNeverPassResourceFilter(env: Env, kind: string, e: IamChangeEvent,
                                            reply: nat -> HttpReply, smtp: nat -> SmtpReply, w: World)
    requires MakeSingle(env, kind).Ok?
    requires ResourceListOnly(MakeSingle(env, kind).value)
    requires e.resourceType == "storage.googleapis.com/Bucket"
    ensures SinkSpec(MakeSingle(env, kind).value, e, reply, smtp, w) == (Ok(()), w)
  {
    BucketTypeCapital();
    CapitalisedResourceTypeDropped(env, kind, e, 23, reply, smtp, w);
  }

  lemma BucketTypeCapital()
    ensures |"storage.googleapis.com/Bucket"| > 23 && "storage.googleapis.com/Bucket"[23] == 'B'
  {
  }

  /** Setting any event-type list for a kind makes every send through
      that sink raise AttributeError, with nothing sent. */
  lemma EventTypeListAlwaysRaises(env: Env, kind: string, e: IamChangeEvent,
                                  reply: nat -> HttpReply, smtp: nat -> SmtpReply, w: World)
    requires MakeSingle(env, kind).Ok?
    requires Csv(env, "DEST_" + Upper(kind) + "_EVENT_TYPES", "") != []
    ensures SinkSpec(MakeSingle(env, kind).value, e, reply, smtp, w).0.Err?
    ensures SinkSpec(MakeSingle(env, kind).value, e, reply, smtp, w).0.error.cls == "AttributeError"
    ensures SinkSpec(MakeSingle(env, kind).value, e, reply, smtp, w).1 == w
  {
    var f := ParseFilters(env, "DEST_" + Upper(kind));
    var s := MakeSingle(env, kind).value;
    assert f.eventTypes[0] in s.eventTypes;
    AttributeFiltersAlwaysRaise(s, e, reply, smtp, w);
  }

  /** Likewise any role list. */
  lemma RoleListAlwaysRaises(env: Env, kind: string, e: IamChangeEvent,
                             reply: nat -> HttpReply, smtp: nat -> SmtpReply, w: World)
    requires MakeSingle(env, kind).Ok?
    requires Csv(env, "DEST_" + Upper(kind) + "_ROLES", "") != []
    ensures SinkSpec(MakeSingle(env, kind).value, e, reply, smtp, w).0.Err?
    ensures SinkSpec(MakeSingle(env, kind).value, e, reply, smtp, w).0.error.cls == "AttributeError"
    ensures SinkSpec(MakeSingle(env, kind).value, e, reply, smtp, w).1 == w
  {
    var f := ParseFilters(env, "DEST_" + Upper(kind));
    var s := MakeSingle(env, kind).value;
    assert f.roles[0] in s.roles;
    AttributeFiltersAlwaysRaise(s, e, reply, smtp, w);
  }

  ghost function DestinationSpec(d: Destination, e: IamChangeEvent, reply: nat -> HttpReply,
                                 smtp: nat -> SmtpReply, w: World): (Result<(), PyError>, World)
  {
    match d
    case Single(s) => SinkSpec(s, e, reply, smtp, w)
    case Fanout(c) => (Ok(()), Composite.SendSpec(c, e, reply, smtp, w))
  }

  /** `destination.send(event)` as the handlers call it. */
  method Send(d: Destination, e: IamChangeEvent, net: Transport) returns (r: Result<(), PyError>)
    modifies net
    ensures (r, net.State()) == DestinationSpec(d, e, net.reply, net.smtp, old(net.State()))
    ensures net.dispatched == old(net.dispatched)
  {
    match d
    case Single(s) =>
      r := SinkSend(s, e, net);
    case Fanout(c) =>
      Composite.Send(c, e, net);
      r := Ok(());
  }

  /** Handing a built event over: `make_destination()` from the
      environment, then `send`. The event counts as dispatched once the
      destination exists, whatever `send` then does. */
  ghost function DeliverSpec(env: Env, e: IamChangeEvent, reply: nat -> HttpReply, smtp: nat -> SmtpReply,
                             w: World, sent: seq<IamChangeEvent>): (Result<(), PyError>, World, seq<IamChangeEvent>)
  {
    match MakeDestination(env)
    case Err(err) => (Err(err), w, sent)
    case Ok(d) =>
      var (r, w') := DestinationSpec(d, e, reply, smtp, w);
      (r, w', sent + [e])
  }

  method Deliver(env: Env, e: IamChangeEvent, net: Transport) returns (r: Result<(), PyError>)
    modifies net
    ensures (r, net.State(), net.dispatched)
            == DeliverSpec(env, e, net.reply, net.smtp, old(net.State()), old(net.dispatched))
  {
    var d :- MakeDestination(env);
    net.dispatched := net.dispatched + [e];
    r := Send(d, e, net);
  }

  /** The tail every handler shares: raise what building raised, return
      quietly when there is no event, deliver the event otherwise. */
  ghost function HandleSpec(built: Result<Option<IamChangeEvent>, PyError>, env: Env, reply: nat -> HttpReply,
                            smtp: nat -> SmtpReply, w: World, sent: seq<IamChangeEvent>)
    : (Result<(), PyError>, World, seq<IamChangeEvent>)
  {
    match built
    case Err(e) => (Err(e), w, sent)
    case Ok(None) => (Ok(()), w, sent)
    case Ok(Some(e)) => DeliverSpec(env, e, reply, smtp, w, sent)
  }

  /** A handler dispatches at most one event: exactly the one it built, and
      only when the destination can be made; otherwise the world is
      untouched. */
  lemma DispatchesAtMostOnce(built: Result<Option<IamChangeEvent>, PyError>, env: Env, reply: nat -> HttpReply,
                             smtp: nat -> SmtpReply, w: World, sent: seq<IamChangeEvent>)
    ensures var (_, w', sent') := HandleSpec(built, env, reply, smtp, w, sent);
      (sent' != sent <==> built.Ok? && built.value.Some? && MakeDestination(env).Ok?)
      && (sent' != sent ==> sent' == sent + [built.value.value])
      && (sent' == sent ==> w' == w)
  {
  }
}

=== FILE: io.dfy ===
/** The outside world the sinks talk to, as scripted oracles and a log:
    the process environment, HTTP POSTs, sleeps, SMTP sessions and the log
    lines the model keeps. */
module Io {

  import opened Wrappers
  import opened Py
  import opened Base

  /** The process environment read with `os.getenv`. */
  type Env = map<string, string>

  /** `os.getenv(name)`: `None` when unset. */
  function GetEnv(env: Env, name: string): (r: Option<string>)
    ensures r.Some? <==> name in env
  {
    if name in env then Some(env[name]) else None
  }

  /** `os.getenv(name, default)`. */
  function GetEnvOr(env: Env, name: string, default: string): (r: string)
    ensures name !in env ==> r == default
  {
    if name in env then env[name] else default
  }

  /** What `resp.json()` gives: a decoded body, or the JSONDecodeError it raises. */
  datatype Body = JsonBody(value: Json) | NotJson(reason: string)

  /** What one `requests.post` does: raise a `RequestException`, or answer. */
  datatype HttpReply =
    | Unreachable(reason: string)
    | Reply(status: int, retryAfter: Option<string>, body: Body)

  /** How one SMTP session ends: the message is accepted, or some step
      (connect, STARTTLS, login, submission) raises. */
  datatype SmtpReply = Accepted | Refused(error: PyError)

  datatype Mail = Mail(subject: string, sender: Option<string>, recipient: Option<string>,
                       plain: string, html: string)

  /** One observable action, in the order it happened. */
  datatype Effect =
    | Post(url: string, authorization: Option<string>, payload: Json)
    | Sleep(seconds: int)
    | SmtpSession(host: string, port: int, login: Option<(string, string)>, mail: Mail)
    | LogError(message: string, details: seq<string>)
    | LogWarning(message: string)

  /** The state the oracles are indexed by, and the log so far. */
  datatype World = World(posts: nat, sessions: nat, effects: seq<Effect>)

  function AfterPost(w: World, url: string, authorization: Option<string>, payload: Json): (w': World)
    ensures w'.posts == w.posts + 1 && w'.sessions == w.sessions
  {
    w.(posts := w.posts + 1, effects := w.effects + [Post(url, authorization, payload)])
  }

  function AfterSmtp(w: World, host: string, port: int, login: Option<(string, string)>, mail: Mail): (w': World)
    ensures w'.sessions == w.sessions + 1 && w'.posts == w.posts
  {
    w.(sessions := w.sessions + 1, effects := w.effects + [SmtpSession(host, port, login, mail)])
  }

  function AfterLog(w: World, e: Effect): (w': World)
    ensures w'.posts == w.posts && w'.sessions == w.sessions
  {
    w.(effects := w.effects + [e])
  }

  /** The network, the mail server and the log. `reply(n)` is the answer
      to the n-th POST of the run and `smtp(n)` the end of its n-th SMTP
      session. */
  class Transport {
    const reply: nat -> HttpReply
    const smtp: nat -> SmtpReply
    var posts: nat
    var sessions: nat
    var effects: seq<Effect>
    /** Every event a handler gave to its destination, in order. */
    ghost var dispatched: seq<IamChangeEvent>

    constructor (reply: nat -> HttpReply, smtp: nat -> SmtpReply)
      ensures this.reply == reply && this.smtp == smtp
      ensures posts == 0 && sessions == 0 && effects == [] && dispatched == []
    {
      this.reply := reply;
      this.smtp := smtp;
      posts, sessions, effects := 0, 0, [];
      dispatched := [];
    }

    function State(): World
      reads this
    {
      World(posts, sessions, effects)
    }

    method Post(url: string, authorization: Option<string>, payload: Json) returns (r: HttpReply)
      modifies this
      ensures r == reply(old(posts))
      ensures State() == AfterPost(old(State()), url, authorization, payload)
      ensures dispatched == old(dispatched)
    {
      r := reply(posts);
      posts := posts + 1;
      effects := effects + [Effect.Post(url, authorization, payload)];
    }

    method Smtp(host: string, port: int, login: Option<(string, string)>, mail: Mail) returns (r: SmtpReply)
      modifies this
      ensures r == smtp(old(sessions))
      ensures State() == AfterSmtp(old(State()), host, port, login, mail)
      ensures dispatched == old(dispatched)
    {
      r := smtp(sessions);
      sessions := sessions + 1;
      effects := effects + [SmtpSession(host, port, login, mail)];
    }

    /** `time.sleep`, and the log lines the model keeps. */
    method Record(e: Effect)
      modifies this
      ensures State() == AfterLog(old(State()), e)
      ensures dispatched == old(dispatched)
    {
      effects := effects + [e];
    }
  }
}

=== FILE: logs_url.dfy ===
/** The Logs Explorer deep link: a query percent-encoded with an empty
    safe set (only the unreserved characters of section 2.3 of RFC 3986
    pass, every other UTF-8 byte becomes `%XX` as in section 2.1), with the
    codes of both parentheses encoded a second time, and two fixed query
    templates. */
module LogsUrl {

  import opened Text

  /** Letters, digits and `_ . - ~`: what `quote(..., safe='')` keeps. */
  predicate Unreserved(c: char)
  {
    ('A' <= c <= 'Z') || ('a' <= c <= 'z') || ('0' <= c <= '9') || c == '_' || c == '.' || c == '-' || c == '~'
  }

  predicate IsHex(c: char)
  {
    ('0' <= c <= '9') || ('A' <= c <= 'F')
  }

  function HexDigit(d: nat): (c: char)
    requires d < 16
    ensures IsHex(c)
  {
    if d < 10 then ('0' as int + d) as char else ('A' as int + d - 10) as char
  }

  /** `%XX` for one byte, upper-case hex. */
  function Pct(b: nat): (r: string)
    requires b < 256
    ensures |r| == 3 && r[0] == '%' && IsHex(r[1]) && IsHex(r[2])
  {
    ['%', HexDigit(b / 16), HexDigit(b % 16)]
  }

  lemma PctInjective(a: nat, b: nat)
    requires a < 256 && b < 256 && Pct(a) == Pct(b)
    ensures a == b
  {
    assert HexDigit(a / 16) == HexDigit(b / 16) && HexDigit(a % 16) == HexDigit(b % 16);
    assert a / 16 == b / 16 && a % 16 == b % 16;
  }

  /** The UTF-8 encoding of one character. */
  function Utf8(c: char): (bs: seq<nat>)
    ensures 1 <= |bs| <= 4
    ensures forall k :: 0 <= k < |bs| ==> bs[k] < 256
    ensures c as int < 0x80 ==> bs == [c as int]
    ensures c as int >= 0x80 ==> forall k :: 0 <= k < |bs| ==> bs[k] >= 0x80
    ensures |bs| == 1 <==> c as int < 0x80
  {
    var n := c as int;
    if n < 0x80 then [n]
    else if n < 0x800 then [0xC0 + n / 64, 0x80 + n % 64]
    else if n < 0x10000 then [0xE0 + n / 4096, 0x80 + (n / 64) % 64, 0x80 + n % 64]
    else [0xF0 + n / 262144, 0x80 + (n / 4096) % 64, 0x80 + (n / 64) % 64, 0x80 + n % 64]
  }

  function PctAll(bs: seq<nat>): (r: string)
    requires forall k :: 0 <= k < |bs| ==> bs[k] < 256
    ensures |r| == 3 * |bs|
  {
    if bs == [] then "" else Pct(bs[0]) + PctAll(bs[1..])
  }

  function QuoteChar(c: char): string
  {
    if Unreserved(c) then [c] else PctAll(Utf8(c))
  }

  /** `urllib.parse.quote(query, safe='')`: the result holds only
      unreserved characters and `%`, and is at least as long as the text. */
  function Quote(s: string): (r: string)
    ensures |r| >= |s|
    ensures forall k :: 0 <= k < |r| ==> Unreserved(r[k]) || r[k] == '%'
  {
    if s == [] then ""
    else
      QuoteCharAlphabet(s[0]);
      QuoteChar(s[0]) + Quote(s[1..])
  }

  lemma QuoteCharAlphabet(c: char)
    ensures |QuoteChar(c)| >= 1
    ensures forall k :: 0 <= k < |QuoteChar(c)| ==> Unreserved(QuoteChar(c)[k]) || QuoteChar(c)[k] == '%'
  {
    if !Unreserved(c) {
      PctAllAlphabet(Utf8(c));
    }
  }

  lemma {:induction false} PctAllAlphabet(bs: seq<nat>)
    requires forall k :: 0 <= k < |bs| ==> bs[k] < 256
    ensures forall k :: 0 <= k < |PctAll(bs)| ==> Unreserved(PctAll(bs)[k]) || PctAll(bs)[k] == '%'
  {
    if bs != [] {
      PctAllAlphabet(bs[1..]);
      var p := Pct(bs[0]);
      var r := PctAll(bs[1..]);
      forall k | 0 <= k < |p + r| ensures Unreserved((p + r)[k]) || (p + r)[k] == '%' {
        if k >= 3 {
          assert (p + r)[k] == r[k - 3];
        }
      }
    }
  }

  /** The two `replace` calls that encode the parentheses' codes again. */
  function ProtectParens(q: string): string
  {
    ReplaceAll(ReplaceAll(q, "%28", "%2528"), "%29", "%2529")
  }

  /** The reference encoding, character by character: parentheses become
      `%2528` and `%2529`, everything else as `quote` encodes it. */
  function EncodedChar(c: char): string
  {
    if c == '(' then "%2528" else if c == ')' then "%2529" else QuoteChar(c)
  }

  function Encoded(s: string): string
  {
    if s == [] then "" else EncodedChar(s[0]) + Encoded(s[1..])
  }

  /** `build_log_url`: the console URL with the reference-encoded query,
      then the time, a two-minute window and the scope inserted verbatim. */
  function BuildLogUrl(query: string, updateTime: string, scopeKey: string, scopeValue: string): (r: string)
    ensures r == "https://console.cloud.google.com/logs/query;query=" + Encoded(query) + ";aroundTime="
                 + updateTime + ";duration=PT2M?" + scopeKey + "=" + scopeValue
  {
    ProtectedIsEncoded(query);
    var params := "query=" + ProtectParens(Quote(query)) + ";aroundTime=" + updateTime + ";duration=PT2M?"
                  + scopeKey + "=" + scopeValue;
    "https://console.cloud.google.com/logs/query;" + params
  }

  // ---- Replacing across tokens

  /** A character that cannot start the pattern is passed over. */
  lemma ReplaceSkip(c: char, r: string, pat: string, rep: string)
    requires |pat| > 0 && c != pat[0]
    ensures ReplaceAll([c] + r, pat, rep) == [c] + ReplaceAll(r, pat, rep)
  {
    var s := [c] + r;
    assert s[1..] == r;
    if |s| >= |pat| {
      assert s[..|pat|][0] == c;
    }
  }

  /** One `%XX` token is replaced whole or passed over whole. */
  lemma ReplacePct(b: nat, r: string, p: nat, rep: string)
    requires b < 256 && p < 256
    ensures ReplaceAll(Pct(b) + r, Pct(p), rep) == (if b == p then rep else Pct(b)) + ReplaceAll(r, Pct(p), rep)
  {
    var s := Pct(b) + r;
    assert s[..3] == Pct(b);
    assert s[3..] == r;
    if b != p {
      if Pct(b) == Pct(p) {
        PctInjective(b, p);
      }
      var t := Pct(b);
      assert s[1..] == [t[1]] + ([t[2]] + r);
      ReplaceSkip(t[1], [t[2]] + r, Pct(p), rep);
      ReplaceSkip(t[2], r, Pct(p), rep);
      assert [t[0]] + [t[1]] + [t[2]] == t;
    }
  }

  lemma {:induction false} ReplacePctAll(bs: seq<nat>, r: string, p: nat, rep: string)
    requires forall k :: 0 <= k < |bs| ==> bs[k] < 256 && bs[k] != p
    requires p < 256
    ensures ReplaceAll(PctAll(bs) + r, Pct(p), rep) == PctAll(bs) + ReplaceAll(r, Pct(p), rep)
  {
    if bs == [] {
      assert PctAll(bs) + r == r;
    } else {
      var head := Pct(bs[0]);
      var tail := PctAll(bs[1..]);
      var t := tail + r;
      assert PctAll(bs) == head + tail;
      assert PctAll(bs) + r == head + t;
      ReplacePct(bs[0], t, p, rep);
      assert forall k :: 0 <= k < |bs[1..]| ==> bs[1..][k] == bs[k + 1];
      ReplacePctAll(bs[1..], r, p, rep);
      assert head + (tail + ReplaceAll(r, Pct(p), rep)) == (head + tail) + ReplaceAll(r, Pct(p), rep);
    }
  }

  /** How one character's encoding fares under replacing `Pct(p)`, where
      `p` is the code of a parenthesis (so no other character's UTF-8
      bytes contain it). */
  lemma ReplaceQuoteChar(c: char, r: string, p: nat, rep: string)
    requires p == 0x28 || p == 0x29
    ensures ReplaceAll(QuoteChar(c) + r, Pct(p), rep)
            == (if c as int == p then rep else QuoteChar(c)) + ReplaceAll(r, Pct(p), rep)
  {
    if Unreserved(c) {
      ReplaceSkip(c, r, Pct(p), rep);
    } else if c as int < 0x80 {
      assert Utf8(c) == [c as int];
      assert PctAll([c as int]) == Pct(c as int);
      ReplacePct(c as int, r, p, rep);
    } else {
      ReplacePctAll(Utf8(c), r, p, rep);
    }
  }

  function Halfway(s: string): string
  {
    if s == [] then "" else (if s[0] == '(' then "%2528" else QuoteChar(s[0])) + Halfway(s[1..])
  }

  lemma {:induction false} FirstReplace(s: string)
    ensures ReplaceAll(Quote(s), "%28", "%2528") == Halfway(s)
  {
    assert Pct(0x28) == "%28";
    if s != [] {
      FirstReplace(s[1..]);
      ReplaceQuoteChar(s[0], Quote(s[1..]), 0x28, "%2528");
    }
  }

  /** The code `%25` that the first replacement put in front of `28` is
      passed over by the second. */
  lemma OpenCodeSkipped(r: string)
    ensures ReplaceAll("%2528" + r, "%29", "%2529") == "%2528" + ReplaceAll(r, "%29", "%2529")
  {
    var tail := ReplaceAll(r, "%29", "%2529");
    assert Pct(0x25) == "%25" && Pct(0x29) == "%29";
    assert "%2528" + r == Pct(0x25) + (['2'] + (['8'] + r));
    ReplacePct(0x25, ['2'] + (['8'] + r), 0x29, "%2529");
    ReplaceSkip('2', ['8'] + r, "%29", "%2529");
    ReplaceSkip('8', r, "%29", "%2529");
    assert Pct(0x25) + (['2'] + (['8'] + tail)) == "%2528" + tail;
  }

  lemma {:induction false} SecondReplace(s: string)
    ensures ReplaceAll(Halfway(s), "%29", "%2529") == Encoded(s)
  {
    if s != [] {
      var r := Halfway(s[1..]);
      SecondReplace(s[1..]);
      if s[0] == '(' {
        OpenCodeSkipped(r);
      } else {
        assert Pct(0x29) == "%29";
        ReplaceQuoteChar(s[0], r, 0x29, "%2529");
      }
    }
  }

  /** The two chained replacements give exactly the reference encoding. */
  lemma ProtectedIsEncoded(s: string)
    ensures ProtectParens(Quote(s)) == Encoded(s)
  {
    FirstReplace(s);
    SecondReplace(s);
  }

  // ---- What the encoded query can contain

  /** Text made of unreserved characters and `%XX` codes other than the
      parentheses' codes. */
  predicate Clean(q: string)
    decreases |q|
  {
    || q == []
    || (Unreserved(q[0]) && Clean(q[1..]))
    || (|q| >= 3 && q[0] == '%' && IsHex(q[1]) && IsHex(q[2]) && q[..3] != "%28" && q[..3] != "%29"
        && Clean(q[3..]))
  }

  lemma CleanChar(c: char, r: string)
    requires Unreserved(c) && Clean(r)
    ensures Clean([c] + r)
  {
    assert ([c] + r)[1..] == r;
  }

  lemma CleanPct(b: nat, r: string)
    requires b < 256 && b != 0x28 && b != 0x29 && Clean(r)
    ensures Clean(Pct(b) + r)
  {
    var q := Pct(b) + r;
    assert q[..3] == Pct(b) && q[3..] == r;
    assert Pct(0x28) == "%28" && Pct(0x29) == "%29";
    if Pct(b) == Pct(0x28) { PctInjective(b, 0x28); }
    if Pct(b) == Pct(0x29) { PctInjective(b, 0x29); }
  }

  lemma {:induction false} CleanPctAll(bs: seq<nat>, r: string)
    requires forall k :: 0 <= k < |bs| ==> bs[k] < 256 && bs[k] != 0x28 && bs[k] != 0x29
    requires Clean(r)
    ensures Clean(PctAll(bs) + r)
  {
    if bs == [] {
      assert PctAll(bs) + r == r;
    } else {
      CleanPctAll(bs[1..], r);
      CleanPct(bs[0], PctAll(bs[1..]) + r);
      assert PctAll(bs) + r == Pct(bs[0]) + (PctAll(bs[1..]) + r);
    }
  }

  lemma CleanEncodedChar(c: char, r: string)
    requires Clean(r)
    ensures Clean(EncodedChar(c) + r)
  {
    if c == '(' || c == ')' {
      var d := if c == '(' then '8' else '9';
      CleanChar(d, r);
      CleanChar('2', [d] + r);
      CleanPct(0x25, ['2'] + ([d] + r));
      assert Pct(0x25) == "%25";
      assert EncodedChar(c) + r == Pct(0x25) + (['2'] + ([d] + r));
    } else if Unreserved(c) {
      CleanChar(c, r);
    } else if c as int < 0x80 {
      assert Utf8(c) == [c as int];
      CleanPctAll(Utf8(c), r);
    } else {
      CleanPctAll(Utf8(c), r);
    }
  }

  lemma {:induction false} EncodedIsClean(s: string)
    ensures Clean(Encoded(s))
  {
    if s != [] {
      EncodedIsClean(s[1..]);
      CleanEncodedChar(s[0], Encoded(s[1..]));
    }
  }

  /** Clean text holds no parenthesis and no parenthesis code. */
  lemma {:induction false} CleanHasNoParens(q: string)
    requires Clean(q)
    ensures '(' !in q && ')' !in q
    ensures !Contains(q, "%28") && !Contains(q, "%29")
    decreases |q|
  {
    if q != [] {
      if Unreserved(q[0]) {
        CleanHasNoParens(q[1..]);
        assert q == [q[0]] + q[1..];
      } else {
        CleanHasNoParens(q[3..]);
        assert q == [q[0], q[1], q[2]] + q[3..];
        assert q[1..][1..] == q[2..] && q[2..][1..] == q[3..];
        assert q[1..][0] == q[1] && q[2..][0] == q[2];
        forall pat | pat == "%28" || pat == "%29"
          ensures !Contains(q, pat)
        {
          assert !StartsWith(q, pat) by { assert q[..3] != pat; }
          assert !StartsWith(q[1..], pat) by { assert q[1] != '%'; }
          assert !StartsWith(q[2..], pat) by { assert q[2] != '%'; }
          assert Contains(q[2..], pat) == Contains(q[3..], pat);
          assert Contains(q[1..], pat) == Contains(q[2..], pat);
        }
      }
    }
  }

  /** So the query part of every link holds no `(`, `)`, `%28` or `%29`. */
  lemma EncodedQueryHasNoParens(s: string)
    ensures var q := ProtectParens(Quote(s));
      '(' !in q && ')' !in q && !Contains(q, "%28") && !Contains(q, "%29")
  {
    ProtectedIsEncoded(s);
    EncodedIsClean(s);
    CleanHasNoParens(Encoded(s));
  }

  /** Unreserved text is left as it is. */
  lemma {:induction false} UnreservedUnchanged(s: string)
    requires forall k :: 0 <= k < |s| ==> Unreserved(s[k])
    ensures ProtectParens(Quote(s)) == s
  {
    ProtectedIsEncoded(s);
    EncodedUnreserved(s);
  }

  lemma {:induction false} EncodedUnreserved(s: string)
    requires forall k :: 0 <= k < |s| ==> Unreserved(s[k])
    ensures Encoded(s) == s
  {
    if s != [] {
      EncodedUnreserved(s[1..]);
      assert [s[0]] + s[1..] == s;
    }
  }

  // ---- Query templates

  const ActivityLog := "log_id(\"cloudaudit." + "googleapis.com/" + "activity\")"
  const StorageService := "protoPayload." + "serviceName=\"storage." + "googleapis.com\""
  const SetIamMethod := "protoPayload." + "methodName=\"storage." + "setIamPermissions\""
  const AddAction := "protoPayload.serviceData." + "policyDelta.bindingDeltas." + "action=\"ADD\""

  /** `logs_query_activity`: three lines naming the service and the
      resource; with single-line names the query reads back as them. */
  function LogsQueryActivity(serviceName: string, resourceName: string): (r: string)
    ensures '\n' !in serviceName && '\n' !in resourceName ==>
              Split(r, '\n') == ActivityLines(serviceName, resourceName)
  {
    ActivityLinesRead(serviceName, resourceName);
    Join("\n", ActivityLines(serviceName, resourceName))
  }

  function ActivityLines(serviceName: string, resourceName: string): seq<string>
  {
    [ActivityLog,
     "protoPayload.serviceName=\"" + serviceName + "\"",
     "protoPayload.resourceName:\"" + resourceName + "\""]
  }

  /** `logs_query_bucket_adds`: five fixed lines around the bucket's
      resource name; with a single-line bucket name the query reads back as
      them, the fourth naming `projects/_/buckets/<bucket>`. */
  function LogsQueryBucketAdds(bucketName: string): (r: string)
    ensures '\n' !in bucketName ==> Split(r, '\n') == BucketAddsLines(bucketName)
  {
    BucketLinesRead(bucketName);
    Join("\n", BucketAddsLines(bucketName))
  }

  function BucketAddsLines(bucketName: string): seq<string>
  {
    [ActivityLog,
     StorageService,
     SetIamMethod,
     "protoPayload.resourceName=\"projects/_/buckets/" + bucketName + "\"",
     AddAction]
  }

  lemma ActivityLinesRead(serviceName: string, resourceName: string)
    ensures '\n' !in serviceName && '\n' !in resourceName ==>
              Split(Join("\n", ActivityLines(serviceName, resourceName)), '\n') == ActivityLines(serviceName, resourceName)
  {
    if '\n' !in serviceName && '\n' !in resourceName {
      var ls := ActivityLines(serviceName, resourceName);
      FixedLinesAreSingle();
      NoNewline(ls[1], "protoPayload.serviceName=\"", serviceName, "\"");
      NoNewline(ls[2], "protoPayload.resourceName:\"", resourceName, "\"");
      SplitJoin(ls, '\n');
    }
  }

  lemma BucketLinesRead(bucketName: string)
    ensures '\n' !in bucketName ==> Split(Join("\n", BucketAddsLines(bucketName)), '\n') == BucketAddsLines(bucketName)
  {
    if '\n' !in bucketName {
      BucketLinesSplit(bucketName);
    }
  }

  lemma BucketLinesSplit(bucketName: string)
    requires '\n' !in bucketName
    ensures Split(Join("\n", BucketAddsLines(bucketName)), '\n') == BucketAddsLines(bucketName)
  {
    var ls := BucketAddsLines(bucketName);
    FixedLinesAreSingle();
    var a := "protoPayload.resourceName=\"projects/_/buckets/";
    assert a == "protoPayload.resourceName=\"" + "projects/_/buckets/";
    NoNewline(a, "protoPayload.resourceName=\"", "projects/_/buckets/", "");
    NoNewline(ls[3], a, bucketName, "\"");
    SplitJoin(ls, '\n');
  }

  lemma NoNewline(line: string, a: string, b: string, c: string)
    requires line == a + b + c && '\n' !in a && '\n' !in b && '\n' !in c
    ensures '\n' !in line
  {
  }

  lemma FixedLinesAreSingle()
    ensures '\n' !in ActivityLog && '\n' !in StorageService && '\n' !in SetIamMethod && '\n' !in AddAction
  {
    ActivityLogSingle();
    StorageServiceSingle();
    SetIamMethodSingle();
    AddActionSingle();
  }

  lemma ActivityLogSingle() ensures '\n' !in ActivityLog
  {
    NoNewline(ActivityLog, "log_id(\"cloudaudit.", "googleapis.com/", "activity\")");
  }

  lemma StorageServiceSingle() ensures '\n' !in StorageService
  {
    NoNewline(StorageService, "protoPayload.", "serviceName=\"storage.", "googleapis.com\"");
  }

  lemma SetIamMethodSingle() ensures '\n' !in SetIamMethod
  {
    NoNewline(SetIamMethod, "protoPayload.", "methodName=\"storage.", "setIamPermissions\"");
  }

  lemma AddActionSingle() ensures '\n' !in AddAction
  {
    NoNewline(AddAction, "protoPayload.serviceData.", "policyDelta.bindingDeltas.", "action=\"ADD\"");
  }
}

=== FILE: main.dfy ===
/** The Pub/Sub entry point: decode the message, decide which engine it
    belongs to, run that engine, and turn what happens into one of three
    outcomes: acknowledged and dropped, handled, or raised again so that
    Pub/Sub redelivers it. */
module Router {

  import opened Wrappers
  import opened Py
  import opened Base
  import opened Io
  import Factory
  import AssetFeed
  import Audit

  const NonJsonWarning := "Non-JSON Pub/Sub message received; ignoring."
  const UnrecognizedWarning := "Unrecognized message format; ignoring."
  const UnhandledError := "Unhandled error; will retry: "

  /** What decoding `message.data` gives: decoding raises outside the
      handler's `except` (base64 decoding fails, or `json.loads` meets bytes
      that are not UTF-8 and raises UnicodeDecodeError, which is not a
      JSONDecodeError), the text is not JSON, or a decoded value (which need
      not be an object). */
  datatype Payload = Undecodable(error: PyError) | NotJson | Decoded(msg: Json)

  /** Where a decoded message goes. */
  datatype Route = ToAssetFeed | ToAuditLogs | Unrecognized

  /** `_is_asset`: the `asset` field is a dict. Reading it from a value
      that is not a dict raises. */
  function IsAsset(msg: Json): (r: Result<bool, PyError>)
    ensures r.Ok? <==> msg.Obj?
    ensures r == Ok(true) <==> msg.Obj? && Lookup(msg.fields, "asset").Some? && Lookup(msg.fields, "asset").value.Obj?
  {
    if !msg.Obj? then Err(AttributeError(msg, "get"))
    else Ok(Field(msg.fields, "asset", Null).Obj?)
  }

  /** `_is_gcs_iam_audit`: method, then service, then resource type, each
      compared only when the previous ones matched. `protoPayload` and
      `resource` default to `{}` only when missing, so a present value that
      is not a dict raises as soon as it is read. */
  function IsGcsIamAudit(msg: Json): (r: Result<bool, PyError>)
    requires msg.Obj?
    ensures var pp := Field(msg.fields, "protoPayload", Obj([]));
            var res := Field(msg.fields, "resource", Obj([]));
      && (r == Ok(true) <==>
            pp.Obj? && res.Obj?
            && Audit.Signature(Field(pp.fields, "serviceName", Null), Field(pp.fields, "methodName", Null),
                               Field(res.fields, "type", Null)))
      && (r.Err? <==>
            !pp.Obj?
            || (Field(pp.fields, "methodName", Null) == Str("storage.setIamPermissions")
                && Field(pp.fields, "serviceName", Null) == Str("storage.googleapis.com") && !res.Obj?))
  {
    var pp := Field(msg.fields, "protoPayload", Obj([]));
    var res := Field(msg.fields, "resource", Obj([]));
    if !pp.Obj? then Err(AttributeError(pp, "get"))
    else if Field(pp.fields, "methodName", Null) != Str("storage.setIamPermissions") then Ok(false)
    else if Field(pp.fields, "serviceName", Null) != Str("storage.googleapis.com") then Ok(false)
    else if !res.Obj? then Err(AttributeError(res, "get"))
    else Ok(Field(res.fields, "type", Null) == Str("gcs_bucket"))
  }

  /** The ordered checks of `hello_pubsub`: asset first, audit second. */
  function Classify(msg: Json): (r: Result<Route, PyError>)
    ensures r == Ok(ToAssetFeed) <==> IsAsset(msg) == Ok(true)
    ensures r == Ok(ToAuditLogs) <==> IsAsset(msg) == Ok(false) && IsGcsIamAudit(msg) == Ok(true)
    ensures r == Ok(Unrecognized) <==> IsAsset(msg) == Ok(false) && IsGcsIamAudit(msg) == Ok(false)
    ensures r.Err? <==> IsAsset(msg).Err? || (IsAsset(msg) == Ok(false) && IsGcsIamAudit(msg).Err?)
  {
    var asset :- IsAsset(msg);
    if asset then Ok(ToAssetFeed)
    else
      var audit :- IsGcsIamAudit(msg);
      if audit then Ok(ToAuditLogs) else Ok(Unrecognized)
  }

  /** What the try block does with a classified message. */
  ghost function RouteSpec(route: Result<Route, PyError>, msg: Json, env: Env, crm: string -> AssetFeed.CrmReply,
                           reply: nat -> HttpReply, smtp: nat -> SmtpReply, w: World, sent: seq<IamChangeEvent>)
    : (Result<(), PyError>, World, seq<IamChangeEvent>)
  {
    match route
    case Err(e) => (Err(e), w, sent)
    case Ok(ToAssetFeed) => Factory.HandleSpec(AssetFeed.FeedEvent(msg, crm), env, reply, smtp, w, sent)
    case Ok(ToAuditLogs) => Factory.HandleSpec(Audit.AuditEvent(msg), env, reply, smtp, w, sent)
    case Ok(Unrecognized) => (Ok(()), AfterLog(w, LogWarning(UnrecognizedWarning)), sent)
  }

  /** `hello_pubsub` as a whole: the result (an error is raised to Pub/Sub),
      the world after it and the events handed to a destination. */
  ghost function PubSubSpec(p: Payload, env: Env, crm: string -> AssetFeed.CrmReply,
                            reply: nat -> HttpReply, smtp: nat -> SmtpReply, w: World, sent: seq<IamChangeEvent>)
    : (Result<(), PyError>, World, seq<IamChangeEvent>)
  {
    match p
    case Undecodable(e) => (Err(e), w, sent)
    case NotJson => (Ok(()), AfterLog(w, LogWarning(NonJsonWarning)), sent)
    case Decoded(msg) =>
      var (r, w', sent') := RouteSpec(Classify(msg), msg, env, crm, reply, smtp, w, sent);
      if r.Err? then (r, AfterLog(w', LogError(UnhandledError + r.error.msg, [r.error.cls])), sent')
      else (r, w', sent')
  }

  method HelloPubsub(p: Payload, env: Env, crm: string -> AssetFeed.CrmReply, net: Transport)
    returns (r: Result<(), PyError>)
    modifies net
    ensures (r, net.State(), net.dispatched)
            == PubSubSpec(p, env, crm, net.reply, net.smtp, old(net.State()), old(net.dispatched))
  {
    match p
    case Undecodable(e) =>
      return Err(e);
    case NotJson =>
      net.Record(LogWarning(NonJsonWarning));
      return Ok(());
    case Decoded(msg) =>
      r := Handle(msg, env, crm, net);
      if r.Err? {
        net.Record(LogError(UnhandledError + r.error.msg, [r.error.cls]));
      }
  }

  /** The body of the try block. */
  method Handle(msg: Json, env: Env, crm: string -> AssetFeed.CrmReply, net: Transport)
    returns (r: Result<(), PyError>)
    modifies net
    ensures (r, net.State(), net.dispatched)
            == RouteSpec(Classify(msg), msg, env, crm, net.reply, net.smtp, old(net.State()), old(net.dispatched))
  {
    var route :- Classify(msg);
    match route
    case ToAssetFeed =>
      r := AssetFeed.ProcessFeeds(msg, env, crm, net);
    case ToAuditLogs =>
      r := Audit.ProcessAuditLogs(msg, env, net);
    case Unrecognized =>
      net.Record(LogWarning(UnrecognizedWarning));
      r := Ok(());
  }

  /** The asset check comes first: a message with a dict `asset` goes to
      the asset feed engine even when it also carries the audit signature,
      and a message routed to the audit engine has no dict `asset`. */
  lemma AssetFirst(msg: Json)
    ensures msg.Obj? && Field(msg.fields, "asset", Null).Obj? ==> Classify(msg) == Ok(ToAssetFeed)
    ensures Classify(msg) == Ok(ToAuditLogs) ==>
      msg.Obj? && !Field(msg.fields, "asset", Null).Obj? && IsGcsIamAudit(msg) == Ok(true)
  {
  }

  /** A message the router sends to the audit engine passes that engine's
      own signature check, which reads `protoPayload` and `resource` with
      `or {}`. */
  lemma RoutedAuditPassesGuard(msg: Json)
    requires Classify(msg) == Ok(ToAuditLogs)
    ensures msg.Obj?
    ensures Audit.Signature(Field(Audit.Payload(msg.fields).fields, "serviceName", Null),
                            Field(Audit.Payload(msg.fields).fields, "methodName", Null),
                            Field(Audit.Resource(msg.fields).fields, "type", Null))
  {
    var pp := Field(msg.fields, "protoPayload", Obj([]));
    var res := Field(msg.fields, "resource", Obj([]));
    assert pp.Obj? && res.Obj?;
    assert Field(pp.fields, "methodName", Null) == Str("storage.setIamPermissions");
    assert pp.fields != [];
    assert Audit.Payload(msg.fields) == pp;
    assert Audit.Resource(msg.fields) == res;
  }

  /** At most one handler runs per message, and it dispatches at most one
      event: the one the engine the message was routed to built. */
  lemma AtMostOneEvent(p: Payload, env: Env, crm: string -> AssetFeed.CrmReply,
                       reply: nat -> HttpReply, smtp: nat -> SmtpReply, w: World, sent: seq<IamChangeEvent>)
    ensures var (_, _, sent') := PubSubSpec(p, env, crm, reply, smtp, w, sent);
      sent' == sent
      || (p.Decoded? && |sent'| == |sent| + 1 && sent'[..|sent|] == sent
          && ((Classify(p.msg) == Ok(ToAssetFeed) && AssetFeed.FeedEvent(p.msg, crm) == Ok(Some(sent'[|sent|])))
              || (Classify(p.msg) == Ok(ToAuditLogs) && Audit.AuditEvent(p.msg) == Ok(Some(sent'[|sent|])))))
  {
    if p.Decoded? {
      var msg := p.msg;
      var route := Classify(msg);
      assert PubSubSpec(p, env, crm, reply, smtp, w, sent).2
             == RouteSpec(route, msg, env, crm, reply, smtp, w, sent).2;
      match route
      case Ok(ToAssetFeed) =>
        HandledOnce(AssetFeed.FeedEvent(msg, crm), env, reply, smtp, w, sent);
      case Ok(ToAuditLogs) =>
        HandledOnce(Audit.AuditEvent(msg), env, reply, smtp, w, sent);
      case _ =>
    }
  }

  /** A handler leaves the events sent so far alone, or adds the one it built. */
  lemma HandledOnce(built: Result<Option<IamChangeEvent>, PyError>, env: Env,
                    reply: nat -> HttpReply, smtp: nat -> SmtpReply, w: World, sent: seq<IamChangeEvent>)
    ensures var sent' := Factory.HandleSpec(built, env, reply, smtp, w, sent).2;
      sent' == sent
      || (|sent'| == |sent| + 1 && sent'[..|sent|] == sent && built == Ok(Some(sent'[|sent|])))
  {
    Factory.DispatchesAtMostOnce(built, env, reply, smtp, w, sent);
    var sent' := Factory.HandleSpec(built, env, reply, smtp, w, sent).2;
    if sent' != sent {
      assert sent' == sent + [built.value.value];
    }
  }

  /** The three outcomes. A payload that is not JSON, and a JSON object of
      neither shape, are dropped with a warning and acknowledged; a base64
      error is raised without logging; every other error is logged and
      raised, and nothing is ever swallowed once a handler ran. */
  lemma Outcomes(p: Payload, env: Env, crm: string -> AssetFeed.CrmReply,
                 reply: nat -> HttpReply, smtp: nat -> SmtpReply, w: World, sent: seq<IamChangeEvent>)
    ensures var (r, w', sent') := PubSubSpec(p, env, crm, reply, smtp, w, sent);
      && (p.NotJson? ==> r == Ok(()) && sent' == sent && w' == AfterLog(w, LogWarning(NonJsonWarning)))
      && (p.Decoded? && Classify(p.msg) == Ok(Unrecognized) ==>
            r == Ok(()) && sent' == sent && w' == AfterLog(w, LogWarning(UnrecognizedWarning)))
      && (p.Undecodable? ==> r == Err(p.error) && w' == w && sent' == sent)
      && (p.Decoded? && r.Err? ==>
            |w'.effects| > 0 && w'.effects[|w'.effects| - 1] == LogError(UnhandledError + r.error.msg, [r.error.cls]))
  {
    if p.Decoded? {
      var route := Classify(p.msg);
      var (r, w', sent') := RouteSpec(route, p.msg, env, crm, reply, smtp, w, sent);
      if route == Ok(Unrecognized) {
        assert (r, w', sent') == (Ok(()), AfterLog(w, LogWarning(UnrecognizedWarning)), sent);
      }
    }
  }

  /** Decoded JSON that is not an object, and a message without a dict
      `asset` whose `protoPayload` is present but not a dict, are errors
      raised from inside the try: logged and raised, with no handler run. */
  lemma MalformedIsRaised(msg: Json, env: Env, crm: string -> AssetFeed.CrmReply,
                          reply: nat -> HttpReply, smtp: nat -> SmtpReply, w: World, sent: seq<IamChangeEvent>)
    requires !msg.Obj?
             || (!Field(msg.fields, "asset", Null).Obj? && !Field(msg.fields, "protoPayload", Obj([])).Obj?)
    ensures var (r, w', sent') := PubSubSpec(Decoded(msg), env, crm, reply, smtp, w, sent);
      r.Err? && r.error.cls == "AttributeError" && sent' == sent
      && w' == AfterLog(w, LogError(UnhandledError + r.error.msg, [r.error.cls]))
  {
  }
}

=== FILE: order.dfy ===
/** Python's ordering of strings (code point by code point, a proper prefix
    first) and `sorted(...)` of a set of strings. */
module Order {

  /** `a < b` on Python strings. */
  predicate Below(a: string, b: string)
    decreases |a|
  {
    |b| > 0 && (|a| == 0 || a[0] < b[0] || (a[0] == b[0] && Below(a[1..], b[1..])))
  }

  lemma {:induction false} BelowIrreflexive(a: string)
    ensures !Below(a, a)
    decreases |a|
  {
    if |a| > 0 { BelowIrreflexive(a[1..]); }
  }

  lemma {:induction false} BelowAsymmetric(a: string, b: string)
    ensures !(Below(a, b) && Below(b, a))
    decreases |a|
  {
    if |a| > 0 && |b| > 0 && a[0] == b[0] { BelowAsymmetric(a[1..], b[1..]); }
  }

  lemma {:induction false} BelowTransitive(a: string, b: string, c: string)
    requires Below(a, b) && Below(b, c)
    ensures Below(a, c)
    decreases |a|
  {
    if |a| > 0 && a[0] == b[0] && b[0] == c[0] { BelowTransitive(a[1..], b[1..], c[1..]); }
  }

  lemma {:induction false} BelowTotal(a: string, b: string)
    ensures a == b || Below(a, b) || Below(b, a)
    decreases |a|
  {
    if |a| > 0 && |b| > 0 && a[0] == b[0] {
      BelowTotal(a[1..], b[1..]);
      assert a == [a[0]] + a[1..] && b == [b[0]] + b[1..];
    }
  }

  predicate IsLeast(m: string, s: set<string>)
  {
    m in s && forall x :: x in s && x != m ==> Below(m, x)
  }

  lemma {:induction false} LeastExists(s: set<string>)
    requires s != {}
    ensures exists m :: IsLeast(m, s)
    decreases |s|
  {
    var x :| x in s;
    if s - {x} == {} {
      assert s == {x};
      assert IsLeast(x, s);
    } else {
      LeastExists(s - {x});
      var m :| IsLeast(m, s - {x});
      BelowTotal(m, x);
      if Below(m, x) {
        assert IsLeast(m, s);
      } else {
        forall y | y in s && y != x ensures Below(x, y) {
          if y != m { BelowTransitive(x, m, y); }
        }
        assert IsLeast(x, s);
      }
    }
  }

  lemma LeastUnique(m: string, n: string, s: set<string>)
    requires IsLeast(m, s) && IsLeast(n, s)
    ensures m == n
  {
    if m != n { BelowAsymmetric(m, n); }
  }

  /** Every earlier element is below every later one: sorted, no duplicates. */
  predicate StrictlySorted(xs: seq<string>)
  {
    forall i, j :: 0 <= i < j < |xs| ==> Below(xs[i], xs[j])
  }

  /** `sorted(s)` for a set of strings. */
  ghost function SortSet(s: set<string>): (r: seq<string>)
    ensures StrictlySorted(r)
    ensures |r| == |s|
    ensures forall x :: x in r <==> x in s
    decreases |s|
  {
    if s == {} then []
    else
      LeastExists(s);
      var m :| IsLeast(m, s);
      var rest := SortSet(s - {m});
      ConsSorted(m, rest, s);
      [m] + rest
  }

  /** The least member in front of the sorted rest keeps it sorted. */
  lemma ConsSorted(m: string, rest: seq<string>, s: set<string>)
    requires IsLeast(m, s) && StrictlySorted(rest)
    requires forall x :: x in rest <==> x in s - {m}
    ensures StrictlySorted([m] + rest)
    ensures forall x :: x in [m] + rest <==> x in s
  {
    var xs := [m] + rest;
    forall i, j | 0 <= i < j < |xs| ensures Below(xs[i], xs[j]) {
      assert xs[j] == rest[j - 1];
      if i > 0 {
        assert xs[i] == rest[i - 1];
      } else {
        assert rest[j - 1] in s - {m};
      }
    }
  }

  /** A strictly sorted sequence holding exactly `s` IS `sorted(s)`. */
  lemma {:induction false} SortSetUnique(xs: seq<string>, s: set<string>)
    requires StrictlySorted(xs)
    requires forall x :: x in xs <==> x in s
    ensures xs == SortSet(s)
    decreases |xs|
  {
    if xs == [] {
      assert s == {};
    } else {
      var m := xs[0];
      assert IsLeast(m, s) by {
        forall x | x in s && x != m ensures Below(m, x) {
          var j :| 0 <= j < |xs| && xs[j] == x;
        }
      }
      forall j | 1 <= j < |xs| ensures xs[j] != m {
        BelowIrreflexive(m);
      }
      assert forall x :: x in xs[1..] <==> x in s - {m} by {
        assert xs == [m] + xs[1..];
      }
      SortSetUnique(xs[1..], s - {m});
      SortSetHead(s, m);
    }
  }

  lemma SortSetHead(s: set<string>, m: string)
    requires IsLeast(m, s)
    ensures SortSet(s) == [m] + SortSet(s - {m})
  {
    var r := SortSet(s);
    assert r[0] in s;
    forall x | x in s && x != r[0] ensures Below(r[0], x) {
      var j :| 0 <= j < |r| && r[j] == x;
    }
    LeastUnique(r[0], m, s);
    SortSetTail(s);
  }

  lemma SortSetTail(s: set<string>)
    requires s != {}
    ensures SortSet(s) == [SortSet(s)[0]] + SortSet(s - {SortSet(s)[0]})
  {
  }

  /** Selection sort of a set: repeatedly take the least remaining member. */
  method SortMembers(s: set<string>) returns (r: seq<string>)
    ensures r == SortSet(s)
  {
    r := [];
    var rest := s;
    while rest != {}
      invariant r + SortSet(rest) == SortSet(s)
      decreases rest
    {
      var m := TakeLeast(rest);
      MoveHead(r, m, SortSet(rest - {m}));
      r, rest := r + [m], rest - {m};
    }
  }

  lemma MoveHead(r: seq<string>, m: string, t: seq<string>)
    ensures r + ([m] + t) == (r + [m]) + t
  {
  }

  /** One selection step: the least member and what sorting the rest gives. */
  method TakeLeast(rest: set<string>) returns (m: string)
    requires rest != {}
    ensures m in rest
    ensures SortSet(rest) == [m] + SortSet(rest - {m})
  {
    LeastExists(rest);
    m :| IsLeast(m, rest);
    SortSetHead(rest, m);
  }
}

=== FILE: py.dfy ===
/** The Python runtime notions the notifier leans on: decoded JSON values,
    truthiness, `dict.get`, `str()`/`repr()`, and raised exceptions. */
module Py {

  import opened Wrappers
  import opened Text

  /** A raised exception: its class name and its `str(e)` message. */
  datatype PyError = PyError(cls: string, msg: string)

  /** A value produced by `json.loads`. Objects keep their entries in
      document order, a repeated key included. */
  datatype Json =
    | Null
    | Bool(b: bool)
    | Num(n: int)
    | Str(s: string)
    | Arr(items: seq<Json>)
    | Obj(fields: seq<(string, Json)>)

  /** Python truthiness: `None`, `False`, `0`, `""`, `[]` and `{}` are false. */
  predicate Truthy(j: Json)
  {
    match j
    case Null => false
    case Bool(b) => b
    case Num(n) => n != 0
    case Str(s) => s != ""
    case Arr(items) => items != []
    case Obj(fields) => fields != []
  }

  /** Python truthiness of an `Optional[str]`. */
  predicate Given(v: Option<string>)
  {
    v.Some? && v.value != ""
  }

  /** An f-string's rendering of an `Optional[str]`. */
  function OptText(v: Option<string>): string
  {
    if v.Some? then v.value else "None"
  }

  /** The name `type(j).__name__` gives. */
  function TypeName(j: Json): string
  {
    match j
    case Null => "NoneType"
    case Bool(_) => "bool"
    case Num(_) => "int"
    case Str(_) => "str"
    case Arr(_) => "list"
    case Obj(_) => "dict"
  }

  /** What `re.search` and `re.sub` raise on a subject that is not text. */
  function NotTextError(j: Json): (err: PyError)
    requires !j.Str?
    ensures err.cls == "TypeError"
  {
    PyError("TypeError", "expected string or bytes-like object, got '" + TypeName(j) + "'")
  }

  /** Lists and dicts cannot be hashed, so they cannot be dict keys. */
  predicate Hashable(j: Json)
  {
    !j.Arr? && !j.Obj?
  }

  /** The value a decoded object holds for `key`: `json.loads` keeps the
      last of repeated keys. */
  function Lookup(fields: seq<(string, Json)>, key: string): (r: Option<Json>)
    ensures r.Some? <==> exists k :: 0 <= k < |fields| && fields[k].0 == key
    ensures r.Some? ==> exists k :: 0 <= k < |fields| && fields[k] == (key, r.value)
  {
    if |fields| == 0 then None
    else if fields[|fields| - 1].0 == key then Some(fields[|fields| - 1].1)
    else
      var r := Lookup(fields[..|fields| - 1], key);
      assert forall k :: 0 <= k < |fields| - 1 ==> fields[k] == fields[..|fields| - 1][k];
      r
  }

  /** A later entry for the same key hides the earlier ones. */
  lemma {:induction false} LookupLast(pre: seq<(string, Json)>, key: string, v: Json, post: seq<(string, Json)>)
    requires forall k :: 0 <= k < |post| ==> post[k].0 != key
    ensures Lookup(pre + [(key, v)] + post, key) == Some(v)
    decreases |post|
  {
    var fields := pre + [(key, v)] + post;
    if |post| > 0 {
      assert fields[..|fields| - 1] == pre + [(key, v)] + post[..|post| - 1];
      LookupLast(pre, key, v, post[..|post| - 1]);
    }
  }

  function AttributeError(j: Json, attr: string): PyError
  {
    PyError("AttributeError", "'" + TypeName(j) + "' object has no attribute '" + attr + "'")
  }

  function NotIterable(j: Json): PyError
  {
    PyError("TypeError", "'" + TypeName(j) + "' object is not iterable")
  }

  function Unhashable(j: Json): PyError
  {
    PyError("TypeError", "unhashable type: '" + TypeName(j) + "'")
  }

  /** The model's reading of a leaf the code uses as text when it is not a
      JSON string. */
  function NotText(j: Json): PyError
  {
    PyError("TypeError", "expected str, got '" + TypeName(j) + "'")
  }

  /** `j.get(key, default)`: only a dict has `.get`. */
  function Get(j: Json, key: string, default: Json): (r: Result<Json, PyError>)
    ensures r.Ok? <==> j.Obj?
    ensures j.Obj? && Lookup(j.fields, key).None? ==> r == Ok(default)
  {
    if !j.Obj? then Err(AttributeError(j, "get"))
    else
      match Lookup(j.fields, key)
      case Some(v) => Ok(v)
      case None => Ok(default)
  }

  /** `a or b`. */
  function Or(a: Json, b: Json): (r: Json)
    ensures Truthy(a) ==> r == a
    ensures !Truthy(a) ==> r == b
  {
    if Truthy(a) then a else b
  }

  /** `repr(j)`. Strings are quoted with single quotes and not escaped. */
  function Repr(j: Json): string
    decreases j
  {
    match j
    case Null => "None"
    case Bool(b) => if b then "True" else "False"
    case Num(n) => IntToString(n)
    case Str(s) => "'" + s + "'"
    case Arr(items) =>
      "[" + Join(", ", seq(|items|, k requires 0 <= k < |items| => Repr(items[k]))) + "]"
    case Obj(fields) =>
      "{" + Join(", ", seq(|fields|, k requires 0 <= k < |fields| =>
        "'" + fields[k].0 + "': " + Repr(fields[k].1))) + "}"
  }

  /** `str(j)`: a string is itself, anything else its `repr`. */
  function StrOf(j: Json): (r: string)
    ensures j.Str? ==> r == j.s
    ensures j == Null ==> r == "None"
  {
    if j.Str? then j.s else Repr(j)
  }

  /** `str()` of a list of strings, as an f-string renders `g.members`. */
  function ListRepr(xs: seq<string>): (r: string)
    ensures r == Repr(Arr(seq(|xs|, k requires 0 <= k < |xs| => Str(xs[k]))))
  {
    var items := seq(|xs|, k requires 0 <= k < |xs| => Str(xs[k]));
    var quoted := seq(|xs|, k requires 0 <= k < |xs| => "'" + xs[k] + "'");
    assert seq(|items|, k requires 0 <= k < |items| => Repr(items[k])) == quoted;
    "[" + Join(", ", quoted) + "]"
  }

  /** `int(text)`: the value of an optionally signed decimal numeral with
      white space around it and single underscores between digits allowed,
      or the ValueError `int()` raises. */
  function IntOf(text: string): (r: Result<int, PyError>)
    ensures r.Ok? <==> ParseInt(text).Some?
    ensures r.Ok? ==> r.value == ParseInt(text).value
    ensures r.Err? ==> r.error.cls == "ValueError"
  {
    match ParseInt(text)
    case Some(n) => Ok(n)
    case None => Err(PyError("ValueError", "invalid literal for int() with base 10: '" + text + "'"))
  }

  /** What a `for` loop over a value visits: a list's items, a string's
      characters, a dict's keys; anything else is not iterable. */
  function Iterate(j: Json): (r: Result<seq<Json>, PyError>)
    ensures j.Arr? ==> r == Ok(j.items)
  {
    match j
    case Arr(items) => Ok(items)
    case Str(s) => Ok(seq(|s|, k requires 0 <= k < |s| => Str([s[k]])))
    case Obj(fields) => Ok(seq(|fields|, k requires 0 <= k < |fields| => Str(fields[k].0)))
    case _ => Err(NotIterable(j))
  }

  /** `d.get(key, default)` on a dict. */
  function Field(fields: seq<(string, Json)>, key: string, default: Json): (r: Json)
    ensures r == Get(Obj(fields), key, default).value
  {
    match Lookup(fields, key)
    case Some(v) => v
    case None => default
  }
}

=== FILE: render.dfy ===
/** The message text both chat and mail sinks build from an event: a
    header, the asset type and name, a Role and a Granted line per group
    (plus a condition line when the group has one) and a link line when the
    event has a logs URL. The two sinks differ only in markup. */
module Render {

  import opened Wrappers
  import opened Py
  import opened Base

  /** The decorations one sink puts around each piece of text. */
  datatype Markup = Markup(
    header: string,
    assetType: string,
    assetName: string,
    role: string,
    granted: string,
    condition: string,
    linkOpen: string,
    linkClose: string)

  const SlackMarkup := Markup(
    ":information_source: New Role Grant in ", "*Asset Type:* ", "*Asset Name:* ",
    "*Role:* ", "*Granted to:* ", "*With condition:* ", "*<", "|Browse Audit Logs>*")

  const EmailMarkup := Markup(
    "New Role Grant in ", "<b>Asset Type:</b> ", "<b>Asset Name:</b> ",
    "<b>Role:</b> ", "<b>Granted to:</b> ", "<b>With condition:</b> ",
    "<b><a href=\"", "\">Browse Audit Logs</a></b>")

  /** `resource_display or 'Unknown'`. */
  function DisplayName(e: IamChangeEvent): (r: string)
    ensures r != ""
    ensures e.resourceDisplay != "" ==> r == e.resourceDisplay
  {
    if e.resourceDisplay != "" then e.resourceDisplay else "Unknown"
  }

  function HeadLines(e: IamChangeEvent, m: Markup): seq<string>
  {
    [m.header + DisplayName(e), m.assetType + e.resourceType, m.assetName + e.resourceName]
  }

  function GroupLines(g: ChangeGroup, m: Markup): seq<string>
  {
    [m.role + OptText(g.role), m.granted + ListRepr(g.members)]
      + (if Truthy(g.condition) then [m.condition + StrOf(g.condition)] else [])
  }

  function GroupsLines(gs: seq<ChangeGroup>, m: Markup): seq<string>
  {
    if gs == [] then [] else GroupsLines(gs[..|gs| - 1], m) + GroupLines(gs[|gs| - 1], m)
  }

  function LinkLines(e: IamChangeEvent, m: Markup): seq<string>
  {
    if Given(e.logsUrl) then [m.linkOpen + e.logsUrl.value + m.linkClose] else []
  }

  /** Every line of the message, in order. */
  function Lines(e: IamChangeEvent, m: Markup): seq<string>
  {
    HeadLines(e, m) + GroupsLines(e.changes, m) + LinkLines(e, m)
  }

  /** What both sinks run: three head lines, then the groups, then the link. */
  method BuildLines(e: IamChangeEvent, m: Markup) returns (lines: seq<string>)
    ensures lines == Lines(e, m)
  {
    lines := [m.header + DisplayName(e), m.assetType + e.resourceType, m.assetName + e.resourceName];
    lines := AppendGroups(lines, e.changes, m);
    if Given(e.logsUrl) {
      lines := lines + [m.linkOpen + e.logsUrl.value + m.linkClose];
    }
  }

  /** The loop over the event's groups. */
  method AppendGroups(head: seq<string>, gs: seq<ChangeGroup>, m: Markup) returns (lines: seq<string>)
    ensures lines == head + GroupsLines(gs, m)
  {
    lines := head;
    var i := 0;
    while i < |gs|
      invariant 0 <= i <= |gs|
      invariant lines == head + GroupsLines(gs[..i], m)
    {
      lines := AppendGroup(lines, gs[i], m);
      GroupsLinesStep(gs, i, m);
      AppendAssoc(head, GroupsLines(gs[..i], m), GroupLines(gs[i], m));
      i := i + 1;
    }
    assert gs[..i] == gs;
  }

  /** One pass of the loop: the group's Role and Granted lines, and its
      condition line when the condition is truthy. */
  method AppendGroup(lines: seq<string>, g: ChangeGroup, m: Markup) returns (lines': seq<string>)
    ensures lines' == lines + GroupLines(g, m)
  {
    lines' := lines + [m.role + OptText(g.role)];
    lines' := lines' + [m.granted + ListRepr(g.members)];
    if Truthy(g.condition) {
      lines' := lines' + [m.condition + StrOf(g.condition)];
    }
  }

  /** The lines of one more group follow those of the groups before it. */
  lemma GroupsLinesStep(gs: seq<ChangeGroup>, i: nat, m: Markup)
    requires i < |gs|
    ensures GroupsLines(gs[..i + 1], m) == GroupsLines(gs[..i], m) + GroupLines(gs[i], m)
  {
    assert gs[..i + 1][..i] == gs[..i];
  }

  /** Where group `k`'s lines start. */
  function GroupStart(e: IamChangeEvent, m: Markup, k: nat): nat
    requires k <= |e.changes|
  {
    3 + |GroupsLines(e.changes[..k], m)|
  }

  lemma {:induction false} GroupsLinesAppend(gs: seq<ChangeGroup>, hs: seq<ChangeGroup>, m: Markup)
    ensures GroupsLines(gs + hs, m) == GroupsLines(gs, m) + GroupsLines(hs, m)
    decreases |hs|
  {
    if hs == [] {
      assert gs + hs == gs;
    } else {
      var front, last := hs[..|hs| - 1], hs[|hs| - 1];
      assert (gs + hs)[..|gs + hs| - 1] == gs + front;
      assert (gs + hs)[|gs + hs| - 1] == last;
      GroupsLinesAppend(gs, front, m);
      AppendAssoc(GroupsLines(gs, m), GroupsLines(front, m), GroupLines(last, m));
    }
  }

  /** Group `k` is rendered as its Role line, then its Granted line, then
      its condition line exactly when the condition is truthy, right after
      the lines of the groups before it; the message opens with the header
      and ends with the link exactly when a logs URL is given. */
  lemma GroupRendered(e: IamChangeEvent, m: Markup, k: nat)
    requires k < |e.changes|
    ensures var lines := Lines(e, m); var at := GroupStart(e, m, k); var g := e.changes[k];
      && lines[0] == m.header + DisplayName(e)
      && lines[1] == m.assetType + e.resourceType
      && lines[2] == m.assetName + e.resourceName
      && at + 1 < |lines|
      && lines[at] == m.role + OptText(g.role)
      && lines[at + 1] == m.granted + ListRepr(g.members)
      && (Truthy(g.condition) ==> at + 2 < |lines| && lines[at + 2] == m.condition + StrOf(g.condition))
      && GroupStart(e, m, k + 1) == at + (if Truthy(g.condition) then 3 else 2)
  {
    var gs := e.changes;
    GroupsSplit(gs, k, m);
    var pre := GroupsLines(gs[..k], m);
    var gl := GroupLines(gs[k], m);
    var post := GroupsLines(gs[k + 1..], m);
    var head := HeadLines(e, m);
    assert Lines(e, m) == head + (pre + gl + post) + LinkLines(e, m);
    assert Lines(e, m)[..3] == head;
    LineInGroup(head, pre, gl, post, LinkLines(e, m), 0);
    LineInGroup(head, pre, gl, post, LinkLines(e, m), 1);
    if Truthy(gs[k].condition) {
      LineInGroup(head, pre, gl, post, LinkLines(e, m), 2);
    }
  }

  /** The groups' lines around group `k`. */
  lemma GroupsSplit(gs: seq<ChangeGroup>, k: nat, m: Markup)
    requires k < |gs|
    ensures GroupsLines(gs[..k + 1], m) == GroupsLines(gs[..k], m) + GroupLines(gs[k], m)
    ensures GroupsLines(gs, m) == GroupsLines(gs[..k], m) + GroupLines(gs[k], m) + GroupsLines(gs[k + 1..], m)
  {
    assert gs == gs[..k + 1] + gs[k + 1..];
    GroupsLinesAppend(gs[..k + 1], gs[k + 1..], m);
    GroupsLinesStep(gs, k, m);
  }

  /** Line `j` of a group sits `j` lines after the lines before the group. */
  lemma LineInGroup(head: seq<string>, pre: seq<string>, g: seq<string>, post: seq<string>, link: seq<string>, j: nat)
    requires j < |g|
    ensures |head| + |pre| + j < |head + (pre + g + post) + link|
    ensures (head + (pre + g + post) + link)[|head| + |pre| + j] == g[j]
  {
  }

  /** The message has the three head lines (header, asset type, asset
      name), two or three lines per group, and the link line last exactly
      when a logs URL is given. */
  lemma {:induction false} LineCount(e: IamChangeEvent, m: Markup)
    ensures |Lines(e, m)| == GroupStart(e, m, |e.changes|) + (if Given(e.logsUrl) then 1 else 0)
    ensures Lines(e, m)[..3] == [m.header + DisplayName(e), m.assetType + e.resourceType, m.assetName + e.resourceName]
    ensures Given(e.logsUrl) ==> Lines(e, m)[|Lines(e, m)| - 1] == m.linkOpen + e.logsUrl.value + m.linkClose
    ensures 2 * |e.changes| <= |GroupsLines(e.changes, m)| <= 3 * |e.changes|
  {
    assert e.changes[..|e.changes|] == e.changes;
    GroupsBounds(e.changes, m);
  }

  lemma {:induction false} GroupsBounds(gs: seq<ChangeGroup>, m: Markup)
    ensures 2 * |gs| <= |GroupsLines(gs, m)| <= 3 * |gs|
  {
    if gs != [] { GroupsBounds(gs[..|gs| - 1], m); }
  }
}

=== FILE: sinks.dfy ===
/** The single sinks the factory builds: a chat or mail channel, either
    bare or behind the filter wrapper. The wrapper reads `event_type` and
    `role` from the event, which has neither attribute, so any event-type
    or role filter raises AttributeError on every event; only the
    resource-type filter can ever pass or drop an event. */
module Sinks {

  import opened Wrappers
  import opened Py
  import opened Base
  import opened Io
  import opened Slack
  import opened Email

  datatype Channel = SlackSink(slack: SlackDestination) | EmailSink(email: EmailDestination)

  datatype Sink =
    | Plain(channel: Channel)
    | Filtered(inner: Channel, eventTypes: set<string>, roles: set<string>, resourceTypes: set<string>)

  /** `d.__class__.__name__`, as the composite reports failures. */
  function ClassName(s: Sink): (r: string)
    ensures s.Filtered? <==> r == "_FilterWrapper"
  {
    match s
    case Filtered(_, _, _, _) => "_FilterWrapper"
    case Plain(SlackSink(_)) => "SlackDestination"
    case Plain(EmailSink(_)) => "EmailDestination"
  }

  datatype Gate = Forward | Drop | Raise(error: PyError)

  /** The wrapper's three checks, in order. */
  function FilterGate(eventTypes: set<string>, roles: set<string>, resourceTypes: set<string>,
                      e: IamChangeEvent): (g: Gate)
    ensures g.Raise? <==> eventTypes != {} || roles != {}
    ensures g.Raise? ==> g.error.cls == "AttributeError"
    ensures g == Forward <==>
              eventTypes == {} && roles == {} && (resourceTypes == {} || e.resourceType in resourceTypes)
  {
    if eventTypes != {} then Raise(MissingAttribute("event_type"))
    else if roles != {} then Raise(MissingAttribute("role"))
    else if resourceTypes != {} && e.resourceType !in resourceTypes then Drop
    else Forward
  }

  /** What one channel's `send` does to the world and whether it raised.
      The chat sink's four endings all return normally. */
  ghost function ChannelSpec(c: Channel, e: IamChangeEvent, reply: nat -> HttpReply, smtp: nat -> SmtpReply,
                             w: World): (Result<(), PyError>, World)
  {
    match c
    case SlackSink(d) =>
      var (r, w') := Attempts(d, MessageText(e), reply, 0, w);
      (if r.Ok? then Ok(()) else Err(r.error), w')
    case EmailSink(d) => Delivery(d, e, smtp, w)
  }

  /** What one sink's `send` does: a wrapper that raises or drops leaves
      the world as it was. */
  ghost function SinkSpec(s: Sink, e: IamChangeEvent, reply: nat -> HttpReply, smtp: nat -> SmtpReply,
                          w: World): (o: (Result<(), PyError>, World))
    ensures s.Filtered? && FilterGate(s.eventTypes, s.roles, s.resourceTypes, e) != Forward ==>
      o.1 == w && (o.0.Err? <==> s.eventTypes != {} || s.roles != {})
  {
    match s
    case Plain(c) => ChannelSpec(c, e, reply, smtp, w)
    case Filtered(c, et, ro, rt) =>
      match FilterGate(et, ro, rt, e)
      case Raise(err) => (Err(err), w)
      case Drop => (Ok(()), w)
      case Forward => ChannelSpec(c, e, reply, smtp, w)
  }

  method ChannelSend(c: Channel, e: IamChangeEvent, net: Transport) returns (r: Result<(), PyError>)
    modifies net
    ensures (r, net.State()) == ChannelSpec(c, e, net.reply, net.smtp, old(net.State()))
    ensures net.dispatched == old(net.dispatched)
  {
    match c
    case SlackSink(d) =>
      var end := Slack.Send(d, e, net);
      r := if end.Ok? then Ok(()) else Err(end.error);
    case EmailSink(d) =>
      r := Email.Send(d, e, net);
  }

  /** `send` on a bare channel or on `_FilterWrapper`. */
  method SinkSend(s: Sink, e: IamChangeEvent, net: Transport) returns (r: Result<(), PyError>)
    modifies net
    ensures (r, net.State()) == SinkSpec(s, e, net.reply, net.smtp, old(net.State()))
    ensures net.dispatched == old(net.dispatched)
  {
    match s
    case Plain(c) =>
      r := ChannelSend(c, e, net);
    case Filtered(c, et, ro, rt) =>
      var g := FilterGate(et, ro, rt, e);
      match g
      case Raise(err) => r := Err(err);
      case Drop => r := Ok(());
      case Forward => r := ChannelSend(c, e, net);
  }

  /** A wrapper with an event-type or role filter raises on every event
      and sends nothing, whatever the event. */
  lemma AttributeFiltersAlwaysRaise(s: Sink, e: IamChangeEvent, reply: nat -> HttpReply, smtp: nat -> SmtpReply,
                                    w: World)
    requires s.Filtered? && (s.eventTypes != {} || s.roles != {})
    ensures SinkSpec(s, e, reply, smtp, w).0.Err?
    ensures SinkSpec(s, e, reply, smtp, w).0.error.cls == "AttributeError"
    ensures SinkSpec(s, e, reply, smtp, w).1 == w
  {
  }

  /** A wrapper with only a resource-type filter behaves as its channel on
      the listed resource types and does nothing on the others. */
  lemma ResourceFilterSelects(s: Sink, e: IamChangeEvent, reply: nat -> HttpReply, smtp: nat -> SmtpReply,
                              w: World)
    requires s.Filtered? && s.eventTypes == {} && s.roles == {}
    ensures e.resourceType in s.resourceTypes ==>
      SinkSpec(s, e, reply, smtp, w) == ChannelSpec(s.inner, e, reply, smtp, w)
    ensures s.resourceTypes != {} && e.resourceType !in s.resourceTypes ==>
      SinkSpec(s, e, reply, smtp, w) == (Ok(()), w)
  {
  }
}

=== FILE: slack.dfy ===
/** The chat sink: configuration check at construction, the message text,
    and a delivery policy of at most three POSTs with exponential backoff
    that honours the server's Retry-After hint. */
module Slack {

  import opened Wrappers
  import opened Py
  import opened Text
  import opened Base
  import opened Io
  import opened Render

  datatype SlackDestination = SlackDestination(
    webhook: Option<string>,
    token: Option<string>,
    channel: Option<string>)

  const MissingConfig := "Slack selected but missing config. "
                         + "Provide SLACK_WEBHOOK_URL or both SLACK_TOKEN and SLACK_CHANNEL."

  /** Construction: a webhook, or both a token and a channel, must be set. */
  function NewSlack(env: Env): (r: Result<SlackDestination, PyError>)
    ensures r.Ok? <==> Given(GetEnv(env, "SLACK_WEBHOOK_URL"))
                       || (Given(GetEnv(env, "SLACK_TOKEN")) && Given(GetEnv(env, "SLACK_CHANNEL")))
    ensures r.Ok? ==> r.value.webhook == GetEnv(env, "SLACK_WEBHOOK_URL")
                      && r.value.token == GetEnv(env, "SLACK_TOKEN")
                      && r.value.channel == GetEnv(env, "SLACK_CHANNEL")
    ensures r.Err? ==> r.error.cls == "DestinationConfigError"
  {
    var d := SlackDestination(GetEnv(env, "SLACK_WEBHOOK_URL"), GetEnv(env, "SLACK_TOKEN"),
                              GetEnv(env, "SLACK_CHANNEL"));
    if !Given(d.webhook) && !(Given(d.token) && Given(d.channel)) then
      Err(PyError("DestinationConfigError", MissingConfig))
    else Ok(d)
  }

  const ApiUrl := "https://slack.com/api/chat.postMessage"
  const RetryStatuses: set<int> := {429, 500, 502, 503, 504}

  /** The message text: the rendered lines joined by newlines. */
  function MessageText(e: IamChangeEvent): string
  {
    Join("\n", Lines(e, SlackMarkup))
  }

  /** The POST one attempt makes: the webhook with just the text when a
      webhook is set, the chat API with a bearer token and the full
      payload otherwise. */
  datatype Request = Request(url: string, authorization: Option<string>, payload: Json)

  function RequestFor(d: SlackDestination, text: string): (q: Request)
    ensures Given(d.webhook) ==> q.url == d.webhook.value && q.authorization == None
    ensures !Given(d.webhook) ==> q.url == ApiUrl && q.authorization == Some("Bearer " + OptText(d.token))
  {
    if Given(d.webhook) then Request(d.webhook.value, None, Obj([("text", Str(text))]))
    else
      Request(ApiUrl, Some("Bearer " + OptText(d.token)), Obj([
        ("channel", if d.channel.Some? then Str(d.channel.value) else Null),
        ("text", Str(text)),
        ("username", Str("IAM Notification")),
        ("unfurl_links", Bool(false)),
        ("unfurl_media", Bool(false)),
        ("icon_emoji", Str(":identification_card:"))]))
  }

  function ChannelEntry(d: SlackDestination): (string, Json)
  {
    ("channel", if d.channel.Some? then Str(d.channel.value) else Null)
  }

  /** The fixed presentation fields of the chat API payload, after the
      channel and the text. */
  const ApiExtras: seq<(string, Json)> := [
    ("username", Str("IAM Notification")),
    ("unfurl_links", Bool(false)),
    ("unfurl_media", Bool(false)),
    ("icon_emoji", Str(":identification_card:"))]

  /** What gets posted: the webhook body is the text alone; the API body
      carries the text and the configured channel (`None` when unset). */
  lemma RequestPayload(d: SlackDestination, text: string)
    ensures var q := RequestFor(d, text);
      && q.payload.Obj? && Lookup(q.payload.fields, "text") == Some(Str(text))
      && (Given(d.webhook) ==> |q.payload.fields| == 1)
      && (!Given(d.webhook) ==>
            Lookup(q.payload.fields, "channel") == Some(if d.channel.Some? then Str(d.channel.value) else Null))
  {
    var text' := ("text", Str(text));
    if Given(d.webhook) {
      LookupLast([], "text", Str(text), []);
      assert [] + [text'] + [] == [text'];
    } else {
      var channel := ChannelEntry(d);
      var fields := [channel, text'] + ApiExtras;
      assert RequestFor(d, text).payload.fields == fields;
      LookupLast([channel], "text", Str(text), ApiExtras);
      LookupLast([], "channel", channel.1, [text'] + ApiExtras);
      assert [channel] + [text'] + ApiExtras == fields;
      assert [] + [channel] + ([text'] + ApiExtras) == fields;
    }
  }

  /** How a run of attempts ends (the source returns `None` in all four
      cases and tells them apart only in its log). */
  datatype SlackEnd = Delivered | Rejected(status: int) | GaveUp | Exhausted

  function Pow2(n: nat): (r: nat)
    ensures r >= 1
  {
    if n == 0 then 1 else 2 * Pow2(n - 1)
  }

  function Max(a: int, b: int): int
  {
    if a >= b then a else b
  }

  /** `status == 200 and (webhook or resp.json().get("ok", False))`;
      decoding the body can raise. */
  function Succeeded(d: SlackDestination, status: int, body: Body): (r: Result<bool, PyError>)
    ensures status != 200 ==> r == Ok(false)
    ensures status == 200 && Given(d.webhook) ==> r == Ok(true)
  {
    if status != 200 then Ok(false)
    else if Given(d.webhook) then Ok(true)
    else
      match body
      case NotJson(reason) => Err(PyError("JSONDecodeError", reason))
      case JsonBody(j) =>
        var ok :- Get(j, "ok", Bool(false));
        Ok(Truthy(ok))
  }

  /** With a token, a 200 counts as success exactly when the body decodes
      to a dict whose `ok` (default `False`) is truthy; a body that is not
      JSON raises JSONDecodeError and one that is not a dict raises
      AttributeError. */
  lemma SucceededWithToken(d: SlackDestination, body: Body)
    requires !Given(d.webhook)
    ensures var r := Succeeded(d, 200, body);
      && (r.Ok? <==> body.JsonBody? && body.value.Obj?)
      && (body.NotJson? ==> r.Err? && r.error.cls == "JSONDecodeError")
      && (body.JsonBody? && !body.value.Obj? ==> r.Err? && r.error.cls == "AttributeError")
      && (r.Ok? ==> r.value == Truthy(Field(body.value.fields, "ok", Bool(false))))
  {
  }

  /** `int(resp.headers.get("Retry-After", "0"))`. */
  function RetryHint(hint: Option<string>): (r: Result<int, PyError>)
    ensures hint.None? ==> r == Ok(0)
    ensures hint.Some? ==> r == IntOf(hint.value)
  {
    if hint.Some? then IntOf(hint.value)
    else
      // The default header text "0" reads as 0.
      assert IntOf("0") == Ok(0) by {
        assert IntToString(0) == "0";
        IntRoundTrip(0);
      }
      Ok(0)
  }

  /** The attempts from number `attempt` (counting from 0) on, started in
      world `w`: what they end with and the world they leave. */
  ghost function Attempts(d: SlackDestination, text: string, reply: nat -> HttpReply,
                          attempt: nat, w: World): (Result<SlackEnd, PyError>, World)
    requires attempt <= 3
    decreases 3 - attempt
  {
    if attempt == 3 then (Ok(Exhausted), w)
    else
      var q := RequestFor(d, text);
      var w1 := AfterPost(w, q.url, q.authorization, q.payload);
      match reply(w.posts)
      case Unreachable(_) =>
        if attempt == 2 then (Ok(GaveUp), w1)
        else Attempts(d, text, reply, attempt + 1, AfterLog(w1, Sleep(Pow2(attempt))))
      case Reply(status, hint, body) =>
        match Succeeded(d, status, body)
        case Err(err) => (Err(err), w1)
        case Ok(true) => (Ok(Delivered), w1)
        case Ok(false) =>
          if status in RetryStatuses then
            match RetryHint(hint)
            case Err(err) => (Err(err), w1)
            case Ok(h) => Attempts(d, text, reply, attempt + 1, AfterLog(w1, Sleep(Max(h, Pow2(attempt)))))
          else (Ok(Rejected(status)), w1)
  }

  /** `SlackDestination.send`. */
  method Send(d: SlackDestination, e: IamChangeEvent, net: Transport) returns (r: Result<SlackEnd, PyError>)
    modifies net
    ensures (r, net.State()) == Attempts(d, MessageText(e), net.reply, 0, old(net.State()))
    ensures net.dispatched == old(net.dispatched)
  {
    var lines := BuildLines(e, SlackMarkup);
    var text := Join("\n", lines);
    var q := RequestFor(d, text);
    ghost var start := net.State();
    var attempt: nat := 0;
    while attempt < 3
      invariant attempt <= 3
      invariant Attempts(d, text, net.reply, 0, start) == Attempts(d, text, net.reply, attempt, net.State())
      invariant net.dispatched == old(net.dispatched)
    {
      var resp := net.Post(q.url, q.authorization, q.payload);
      if resp.Unreachable? {
        if attempt == 2 {
          return Ok(GaveUp);
        }
        net.Record(Sleep(Pow2(attempt)));
        attempt := attempt + 1;
        continue;
      }
      var ok := Succeeded(d, resp.status, resp.body);
      if ok.Err? {
        return Err(ok.error);
      }
      if ok.value {
        return Ok(Delivered);
      }
      if resp.status in RetryStatuses {
        var hint := RetryHint(resp.retryAfter);
        if hint.Err? {
          return Err(hint.error);
        }
        net.Record(Sleep(Max(hint.value, Pow2(attempt))));
        attempt := attempt + 1;
        continue;
      }
      return Ok(Rejected(resp.status));
    }
    return Ok(Exhausted);
  }

  /** `w'` continues `w` with only POSTs to `url` and sleeps of at least
      one second, and no mail session. */
  ghost predicate PostsAndSleeps(w: World, w': World, url: string)
  {
    && w'.sessions == w.sessions
    && |w.effects| <= |w'.effects| && w'.effects[..|w.effects|] == w.effects
    && forall k :: |w.effects| <= k < |w'.effects| ==>
         (w'.effects[k].Post? && w'.effects[k].url == url) || (w'.effects[k].Sleep? && w'.effects[k].seconds >= 1)
  }

  lemma PostsAndSleepsTrans(w0: World, w1: World, w2: World, url: string)
    requires PostsAndSleeps(w0, w1, url) && PostsAndSleeps(w1, w2, url)
    ensures PostsAndSleeps(w0, w2, url)
  {
    assert w2.effects[..|w0.effects|] == w2.effects[..|w1.effects|][..|w0.effects|];
    forall k | |w0.effects| <= k < |w2.effects|
      ensures (w2.effects[k].Post? && w2.effects[k].url == url) || (w2.effects[k].Sleep? && w2.effects[k].seconds >= 1)
    {
      if k < |w1.effects| {
        assert w2.effects[k] == w2.effects[..|w1.effects|][k];
      }
    }
  }

  lemma PostThenSleep(w: World, q: Request, s: int)
    requires s >= 1
    ensures PostsAndSleeps(w, AfterPost(w, q.url, q.authorization, q.payload), q.url)
    ensures PostsAndSleeps(w, AfterLog(AfterPost(w, q.url, q.authorization, q.payload), Sleep(s)), q.url)
  {
    var w1 := AfterPost(w, q.url, q.authorization, q.payload);
    assert w1.effects[..|w.effects|] == w.effects;
    var w2 := AfterLog(w1, Sleep(s));
    assert w2.effects[..|w.effects|] == w.effects;
  }

  /** From attempt `attempt` on, a run makes at most `3 - attempt` POSTs
      (at least one if any attempt is left), all to the same endpoint,
      possibly with sleeps of at least one second between them, touches no
      mail server and keeps what was logged before. */
  lemma {:induction false} AttemptsBounded(d: SlackDestination, text: string, reply: nat -> HttpReply,
                                           attempt: nat, w: World)
    requires attempt <= 3
    ensures var w' := Attempts(d, text, reply, attempt, w).1;
      && w.posts + (if attempt < 3 then 1 else 0) <= w'.posts <= w.posts + 3 - attempt
      && PostsAndSleeps(w, w', RequestFor(d, text).url)
    decreases 3 - attempt
  {
    var url := RequestFor(d, text).url;
    if attempt == 3 {
      assert w.effects[..|w.effects|] == w.effects;
    } else {
      var q := RequestFor(d, text);
      var w1 := AfterPost(w, q.url, q.authorization, q.payload);
      PostThenSleep(w, q, 1);
      match reply(w.posts)
      case Unreachable(_) =>
        if attempt < 2 {
          var w2 := AfterLog(w1, Sleep(Pow2(attempt)));
          PostThenSleep(w, q, Pow2(attempt));
          AttemptsBounded(d, text, reply, attempt + 1, w2);
          PostsAndSleepsTrans(w, w2, Attempts(d, text, reply, attempt + 1, w2).1, url);
        }
      case Reply(status, hint, body) =>
        if Succeeded(d, status, body) == Ok(false) && status in RetryStatuses && RetryHint(hint).Ok? {
          var w2 := AfterLog(w1, Sleep(Max(RetryHint(hint).value, Pow2(attempt))));
          PostThenSleep(w, q, Max(RetryHint(hint).value, Pow2(attempt)));
          AttemptsBounded(d, text, reply, attempt + 1, w2);
          PostsAndSleepsTrans(w, w2, Attempts(d, text, reply, attempt + 1, w2).1, url);
        }
    }
  }

  /** A run ends `Delivered` only right after a POST whose answer was a
      200 that counts as success (any 200 with a webhook; a 200 whose body
      has a truthy `ok` with a token). */
  lemma {:induction false} DeliveredMeansAccepted(d: SlackDestination, text: string, reply: nat -> HttpReply,
                                                  attempt: nat, w: World)
    requires attempt <= 3
    requires Attempts(d, text, reply, attempt, w).0 == Ok(Delivered)
    ensures var w' := Attempts(d, text, reply, attempt, w).1;
      && w'.posts > w.posts
      && reply(w'.posts - 1).Reply?
      && reply(w'.posts - 1).status == 200
      && Succeeded(d, 200, reply(w'.posts - 1).body) == Ok(true)
    decreases 3 - attempt
  {
    var q := RequestFor(d, text);
    var w1 := AfterPost(w, q.url, q.authorization, q.payload);
    match reply(w.posts)
    case Unreachable(_) =>
      var w2 := AfterLog(w1, Sleep(Pow2(attempt)));
      DeliveredMeansAccepted(d, text, reply, attempt + 1, w2);
    case Reply(status, hint, body) =>
      if Succeeded(d, status, body) == Ok(false) {
        var w2 := AfterLog(w1, Sleep(Max(RetryHint(hint).value, Pow2(attempt))));
        DeliveredMeansAccepted(d, text, reply, attempt + 1, w2);
      }
  }

  /** Three network errors in a row: three POSTs with sleeps of 1 and 2
      seconds between them, then the sink gives up without raising. */
  lemma GivesUpAfterThreeNetworkErrors(d: SlackDestination, text: string, reply: nat -> HttpReply, w: World)
    requires reply(w.posts).Unreachable? && reply(w.posts + 1).Unreachable? && reply(w.posts + 2).Unreachable?
    ensures var q := RequestFor(d, text); var p := Post(q.url, q.authorization, q.payload);
      Attempts(d, text, reply, 0, w) == (Ok(GaveUp), World(w.posts + 3, w.sessions,
        w.effects + [p, Sleep(1), p, Sleep(2), p]))
  {
    var q := RequestFor(d, text);
    var w1 := AfterLog(AfterPost(w, q.url, q.authorization, q.payload), Sleep(1));
    var w2 := AfterLog(AfterPost(w1, q.url, q.authorization, q.payload), Sleep(2));
    assert Attempts(d, text, reply, 0, w) == Attempts(d, text, reply, 1, w1);
    assert Attempts(d, text, reply, 1, w1) == Attempts(d, text, reply, 2, w2);
    assert Attempts(d, text, reply, 2, w2) == (Ok(GaveUp), AfterPost(w2, q.url, q.authorization, q.payload));
    var p := Post(q.url, q.authorization, q.payload);
    assert AfterPost(w2, q.url, q.authorization, q.payload).effects == w.effects + [p, Sleep(1), p, Sleep(2), p];
  }

  /** A rate-limit answer followed by a success: two POSTs with one sleep
      of `max(Retry-After, 1)` between them, and delivery. */
  lemma DeliversAfterOneRateLimit(d: SlackDestination, text: string, reply: nat -> HttpReply, w: World, h: int)
    requires reply(w.posts).Reply? && reply(w.posts).status == 429
    requires RetryHint(reply(w.posts).retryAfter) == Ok(h)
    requires reply(w.posts + 1).Reply? && reply(w.posts + 1).status == 200
    requires Succeeded(d, 200, reply(w.posts + 1).body) == Ok(true)
    ensures var q := RequestFor(d, text); var p := Post(q.url, q.authorization, q.payload);
      Attempts(d, text, reply, 0, w) == (Ok(Delivered), World(w.posts + 2, w.sessions,
        w.effects + [p, Sleep(Max(h, 1)), p]))
  {
    var q := RequestFor(d, text);
    var w1 := AfterLog(AfterPost(w, q.url, q.authorization, q.payload), Sleep(Max(h, 1)));
    assert Attempts(d, text, reply, 0, w) == Attempts(d, text, reply, 1, w1);
    assert Attempts(d, text, reply, 1, w1) == (Ok(Delivered), AfterPost(w1, q.url, q.authorization, q.payload));
    var p := Post(q.url, q.authorization, q.payload);
    assert AfterPost(w1, q.url, q.authorization, q.payload).effects == w.effects + [p, Sleep(Max(h, 1)), p];
  }

  /** An answer that is neither a success nor retryable (a 200 whose `ok`
      is false included) ends the run at once, without raising. */
  lemma StopsOnPermanentFailure(d: SlackDestination, text: string, reply: nat -> HttpReply,
                                attempt: nat, w: World)
    requires attempt < 3
    requires reply(w.posts).Reply? && reply(w.posts).status !in RetryStatuses
    requires Succeeded(d, reply(w.posts).status, reply(w.posts).body) == Ok(false)
    ensures var q := RequestFor(d, text);
      Attempts(d, text, reply, attempt, w) == (Ok(Rejected(reply(w.posts).status)), AfterPost(w, q.url, q.authorization, q.payload))
  {
  }

  /** A retryable status (429, 500, 502, 503 or 504) with a readable
      Retry-After hint `h`, on attempt `attempt` (from 0): one POST, a sleep
      of `max(h, 2 ** attempt)` seconds, and the next attempt. After the
      third attempt the next one is the end of the run. */
  lemma RetriesAfterHint(d: SlackDestination, text: string, reply: nat -> HttpReply,
                         attempt: nat, w: World, h: int)
    requires attempt < 3
    requires reply(w.posts).Reply? && reply(w.posts).status in RetryStatuses
    requires RetryHint(reply(w.posts).retryAfter) == Ok(h)
    ensures var q := RequestFor(d, text);
      Attempts(d, text, reply, attempt, w)
        == Attempts(d, text, reply, attempt + 1,
                    AfterLog(AfterPost(w, q.url, q.authorization, q.payload), Sleep(Max(h, Pow2(attempt)))))
  {
    assert Succeeded(d, reply(w.posts).status, reply(w.posts).body) == Ok(false);
  }

  /** Three retryable answers in a row: three POSTs, each followed by a
      sleep of `max(Retry-After, 2 ** attempt)` (the last one too), and the
      run ends without raising and without delivery. */
  lemma ExhaustedAfterThreeRetryables(d: SlackDestination, text: string, reply: nat -> HttpReply, w: World,
                                      h0: int, h1: int, h2: int)
    requires reply(w.posts).Reply? && reply(w.posts).status in RetryStatuses
    requires reply(w.posts + 1).Reply? && reply(w.posts + 1).status in RetryStatuses
    requires reply(w.posts + 2).Reply? && reply(w.posts + 2).status in RetryStatuses
    requires RetryHint(reply(w.posts).retryAfter) == Ok(h0)
    requires RetryHint(reply(w.posts + 1).retryAfter) == Ok(h1)
    requires RetryHint(reply(w.posts + 2).retryAfter) == Ok(h2)
    ensures var q := RequestFor(d, text); var p := Post(q.url, q.authorization, q.payload);
      Attempts(d, text, reply, 0, w) == (Ok(Exhausted), World(w.posts + 3, w.sessions,
        w.effects + [p, Sleep(Max(h0, 1)), p, Sleep(Max(h1, 2)), p, Sleep(Max(h2, 4))]))
  {
    var q := RequestFor(d, text);
    var p := Post(q.url, q.authorization, q.payload);
    var w1 := AfterLog(AfterPost(w, q.url, q.authorization, q.payload), Sleep(Max(h0, 1)));
    var w2 := AfterLog(AfterPost(w1, q.url, q.authorization, q.payload), Sleep(Max(h1, 2)));
    var w3 := AfterLog(AfterPost(w2, q.url, q.authorization, q.payload), Sleep(Max(h2, 4)));
    RetriesAfterHint(d, text, reply, 0, w, h0);
    RetriesAfterHint(d, text, reply, 1, w1, h1);
    RetriesAfterHint(d, text, reply, 2, w2, h2);
    assert w3.effects == w.effects + [p, Sleep(Max(h0, 1)), p, Sleep(Max(h1, 2)), p, Sleep(Max(h2, 4))];
  }

  /** A retryable status whose Retry-After header is not an integer makes
      `int()` raise ValueError right after that POST, ending the send. */
  lemma BadRetryHintRaises(d: SlackDestination, text: string, reply: nat -> HttpReply,
                           attempt: nat, w: World)
    requires attempt < 3
    requires reply(w.posts).Reply? && reply(w.posts).status in RetryStatuses
    requires reply(w.posts).retryAfter.Some? && ParseInt(reply(w.posts).retryAfter.value).None?
    ensures var q := RequestFor(d, text); var (r, w') := Attempts(d, text, reply, attempt, w);
      && r.Err? && r.error.cls == "ValueError"
      && r == Err(IntOf(reply(w.posts).retryAfter.value).error)
      && w' == AfterPost(w, q.url, q.authorization, q.payload)
  {
    assert Succeeded(d, reply(w.posts).status, reply(w.posts).body) == Ok(false);
  }
}

=== FILE: text.dfy ===
/** String operations of Python's `str` that the notifier relies on, on
    Dafny strings (sequences of Unicode scalar values). */
module Text {

  import opened Wrappers

  /** `p` is a prefix of `s` (Python `s.startswith(p)`). */
  predicate StartsWith(s: string, p: string)
  {
    |p| <= |s| && s[..|p|] == p
  }

  /** `s.endswith(suffix)`. */
  predicate EndsWith(s: string, suffix: string)
  {
    |suffix| <= |s| && s[|s| - |suffix|..] == suffix
  }

  /** `sub in s` for Python strings. */
  predicate Contains(s: string, sub: string)
    decreases |s|
  {
    StartsWith(s, sub) || (|s| > 0 && Contains(s[1..], sub))
  }

  /** An occurrence at any position makes `Contains` hold. */
  lemma {:induction false} ContainsAt(s: string, sub: string, i: nat)
    requires i + |sub| <= |s| && s[i..i + |sub|] == sub
    ensures Contains(s, sub)
    decreases i
  {
    if i > 0 {
      assert s[1..][i - 1..i - 1 + |sub|] == sub;
      ContainsAt(s[1..], sub, i - 1);
    }
  }

  /** Python's `sep.join(parts)`. */
  function Join(sep: string, parts: seq<string>): string
  {
    if |parts| == 0 then ""
    else if |parts| == 1 then parts[0]
    else parts[0] + sep + Join(sep, parts[1..])
  }

  /** Python's `s.split(sep)` for a one-character separator: the pieces
      between separators, always at least one. */
  function Split(s: string, sep: char): (parts: seq<string>)
    ensures |parts| >= 1
    ensures forall k :: 0 <= k < |parts| ==> sep !in parts[k]
    decreases |s|
  {
    if |s| == 0 then [""]
    else
      var rest := Split(s[1..], sep);
      if s[0] == sep then [""] + rest
      else [[s[0]] + rest[0]] + rest[1..]
  }

  /** `Join` undoes `Split`: splitting loses nothing. */
  lemma {:induction false} JoinSplit(s: string, sep: char)
    ensures Join([sep], Split(s, sep)) == s
    decreases |s|
  {
    if |s| > 0 {
      JoinSplit(s[1..], sep);
      var rest := Split(s[1..], sep);
      if s[0] == sep {
        assert Split(s, sep) == [""] + rest;
        if |rest| == 1 {
          assert Join([sep], [""] + rest) == "" + [sep] + rest[0];
        } else {
          assert ([""] + rest)[1..] == rest;
        }
      } else {
        var first := [s[0]] + rest[0];
        assert Split(s, sep) == [first] + rest[1..];
        if |rest| == 1 {
          assert Join([sep], [first]) == first;
        } else {
          assert ([first] + rest[1..])[1..] == rest[1..];
          assert Join([sep], rest) == rest[0] + [sep] + Join([sep], rest[1..]);
        }
      }
    }
  }

  /** Splitting at a separator that follows a separator-free prefix. */
  lemma {:induction false} SplitAfterPrefix(p: string, sep: char, s: string)
    requires sep !in p
    ensures Split(p + [sep] + s, sep) == [p] + Split(s, sep)
    decreases |p|
  {
    if p == [] {
      assert p + [sep] + s == [sep] + s;
      assert ([sep] + s)[1..] == s;
    } else {
      SplitAfterPrefix(p[1..], sep, s);
      var t := p + [sep] + s;
      assert t[0] == p[0] && t[1..] == p[1..] + [sep] + s;
      assert [p[0]] + p[1..] == p;
    }
  }

  /** `Split` undoes `Join` when no part holds the separator. */
  lemma {:induction false} SplitJoin(parts: seq<string>, sep: char)
    requires |parts| >= 1
    requires forall k :: 0 <= k < |parts| ==> sep !in parts[k]
    ensures Split(Join([sep], parts), sep) == parts
    decreases |parts|
  {
    if |parts| == 1 {
      SplitSingle(parts[0], sep);
    } else {
      SplitJoin(parts[1..], sep);
      SplitAfterPrefix(parts[0], sep, Join([sep], parts[1..]));
      assert [parts[0]] + parts[1..] == parts;
    }
  }

  /** Python's `s.split(sep)[-1]`: what follows the last separator. */
  function LastSegment(s: string, sep: char): (r: string)
    ensures sep !in r
    ensures |r| <= |s| && s[|s| - |r|..] == r
    ensures r == s || s[|s| - |r| - 1] == sep
  {
    if sep in s then
      var r := LastSegment(s[1..], sep);
      LastSegmentStep(s, sep, r);
      r
    else s
  }

  /** What one step of `LastSegment` needs: a suffix of the tail is a
      suffix of the whole, and a tail without separator means the
      separator is the first character. */
  lemma LastSegmentStep(s: string, sep: char, r: string)
    requires sep in s
    requires sep !in r && |r| < |s| && s[1..][|s| - 1 - |r|..] == r
    requires r == s[1..] || s[1..][|s| - 1 - |r| - 1] == sep
    ensures s[|s| - |r|..] == r
    ensures r == s || s[|s| - |r| - 1] == sep
  {
    assert s[|s| - |r|..] == s[1..][|s| - 1 - |r|..];
    assert forall k :: 1 <= k < |s| ==> s[k] == s[1..][k - 1];
  }

  lemma {:induction false} SplitSingle(s: string, sep: char)
    ensures |Split(s, sep)| == 1 <==> sep !in s
    ensures sep !in s ==> Split(s, sep) == [s]
    decreases |s|
  {
    if |s| > 0 {
      SplitSingle(s[1..], sep);
      assert s == [s[0]] + s[1..];
    }
  }

  /** `LastSegment` is the last piece `Split` yields. */
  lemma {:induction false} LastSegmentIsLastPiece(s: string, sep: char)
    ensures var parts := Split(s, sep); LastSegment(s, sep) == parts[|parts| - 1]
    decreases |s|
  {
    if sep !in s {
      SplitSingle(s, sep);
    } else {
      var rest := Split(s[1..], sep);
      LastSegmentIsLastPiece(s[1..], sep);
      assert LastSegment(s, sep) == rest[|rest| - 1];
      if s[0] == sep {
        assert Split(s, sep) == [""] + rest;
      } else {
        assert sep in s[1..] by {
          var i :| 0 <= i < |s| && s[i] == sep;
          assert s[1..][i - 1] == sep;
        }
        SplitSingle(s[1..], sep);
        assert |rest| > 1;
        assert Split(s, sep) == [[s[0]] + rest[0]] + rest[1..];
      }
    }
  }

  /** The characters Python's `str.isspace()` accepts. */
  predicate IsSpace(c: char)
  {
    ('\t' <= c <= '\r') || ('\U{1c}' <= c <= ' ') || c == '\U{85}' || c == '\U{a0}' ||
    c == '\U{1680}' || ('\U{2000}' <= c <= '\U{200a}') || c == '\U{2028}' || c == '\U{2029}' ||
    c == '\U{202f}' || c == '\U{205f}' || c == '\U{3000}'
  }

  function TrimStart(s: string): (r: string)
    ensures |r| <= |s|
    ensures r == [] || !IsSpace(r[0])
  {
    if |s| > 0 && IsSpace(s[0]) then TrimStart(s[1..]) else s
  }

  function TrimEnd(s: string): (r: string)
    ensures |r| <= |s|
    ensures r != [] ==> r[0] == s[0]
    ensures r == [] || !IsSpace(r[|r| - 1])
  {
    if |s| > 0 && IsSpace(s[|s| - 1]) then TrimEnd(s[..|s| - 1]) else s
  }

  /** Python's `s.strip()`. */
  function Strip(s: string): (r: string)
    ensures r == [] || (!IsSpace(r[0]) && !IsSpace(r[|r| - 1]))
  {
    TrimEnd(TrimStart(s))
  }

  /** `TrimStart` keeps a suffix. */
  lemma {:induction false} TrimStartSuffix(s: string)
    ensures s[|s| - |TrimStart(s)|..] == TrimStart(s)
  {
    if |s| > 0 && IsSpace(s[0]) {
      TrimStartSuffix(s[1..]);
    }
  }

  /** `TrimEnd` keeps a prefix. */
  lemma {:induction false} TrimEndPrefix(s: string)
    ensures s[..|TrimEnd(s)|] == TrimEnd(s)
  {
    if |s| > 0 && IsSpace(s[|s| - 1]) {
      TrimEndPrefix(s[..|s| - 1]);
    }
  }

  /** Every character of `Strip(s)` comes from `s`. */
  lemma StripInside(s: string)
    ensures forall c :: c in Strip(s) ==> c in s
  {
    TrimStartSuffix(s);
    var a := TrimStart(s);
    TrimEndPrefix(a);
    var r := TrimEnd(a);
    forall c | c in r ensures c in s {
      var k :| 0 <= k < |r| && r[k] == c;
      assert a[k] == c;
      assert s[|s| - |a| + k] == c;
    }
  }

  /** What `TrimStart` drops is white space. */
  lemma {:induction false} DroppedFrontAreSpaces(s: string)
    ensures forall k :: 0 <= k < |s| - |TrimStart(s)| ==> IsSpace(s[k])
  {
    if |s| > 0 && IsSpace(s[0]) {
      DroppedFrontAreSpaces(s[1..]);
      forall k | 0 < k < |s| - |TrimStart(s)| ensures IsSpace(s[k]) {
        assert s[k] == s[1..][k - 1];
      }
    }
  }

  /** What `TrimEnd` drops is white space. */
  lemma {:induction false} DroppedBackAreSpaces(s: string)
    ensures forall k :: |TrimEnd(s)| <= k < |s| ==> IsSpace(s[k])
  {
    if |s| > 0 && IsSpace(s[|s| - 1]) {
      var front := s[..|s| - 1];
      DroppedBackAreSpaces(front);
      forall k | |TrimEnd(s)| <= k < |s| - 1 ensures IsSpace(s[k]) {
        assert s[k] == front[k];
      }
    }
  }

  /** `Strip` removes white space only: what it drops on either side is
      all white space. */
  lemma TrimmedAreSpaces(s: string)
    ensures forall k :: 0 <= k < |s| - |TrimStart(s)| ==> IsSpace(s[k])
    ensures forall k :: |TrimEnd(s)| <= k < |s| ==> IsSpace(s[k])
  {
    DroppedFrontAreSpaces(s);
    DroppedBackAreSpaces(s);
  }

  /** Text without surrounding white space is its own `Strip`. */
  lemma StripNoop(s: string)
    requires s == [] || (!IsSpace(s[0]) && !IsSpace(s[|s| - 1]))
    ensures Strip(s) == s
  {
  }

  /** Python's `str.lower()` on ASCII letters; other characters are kept. */
  function Lower(s: string): (r: string)
    ensures |r| == |s|
    ensures forall k :: 0 <= k < |s| ==> !('A' <= r[k] <= 'Z')
  {
    seq(|s|, k requires 0 <= k < |s| =>
      if 'A' <= s[k] <= 'Z' then (s[k] as int + 32) as char else s[k])
  }

  /** Lower-casing keeps white space, commas and text with no capitals. */
  lemma LowerKeeps(s: string)
    ensures forall k :: 0 <= k < |s| ==> (IsSpace(Lower(s)[k]) <==> IsSpace(s[k]))
    ensures forall k :: 0 <= k < |s| ==> (Lower(s)[k] == ',' <==> s[k] == ',')
    ensures (forall k :: 0 <= k < |s| ==> !('A' <= s[k] <= 'Z')) ==> Lower(s) == s
  {
  }

  /** Python's `str.upper()` on ASCII letters; other characters are kept. */
  function Upper(s: string): (r: string)
    ensures |r| == |s|
    ensures forall k :: 0 <= k < |s| ==> !('a' <= r[k] <= 'z')
  {
    seq(|s|, k requires 0 <= k < |s| =>
      if 'a' <= s[k] <= 'z' then (s[k] as int - 32) as char else s[k])
  }

  predicate IsDigit(c: char)
  {
    '0' <= c <= '9'
  }

  function DigitChar(d: nat): char
    requires d < 10
  {
    ('0' as int + d) as char
  }

  function NatToString(n: nat): (r: string)
    ensures |r| >= 1
    ensures forall k :: 0 <= k < |r| ==> IsDigit(r[k])
  {
    if n < 10 then [DigitChar(n)] else NatToString(n / 10) + [DigitChar(n % 10)]
  }

  /** Python's `str(n)` for an integer. */
  function IntToString(n: int): string
  {
    if n < 0 then "-" + NatToString(-n) else NatToString(n)
  }

  /** A base-10 numeral as `int()` reads it: ASCII digits, where a single
      underscore may stand between two digits. */
  predicate Numeral(s: string)
  {
    && |s| > 0 && IsDigit(s[0]) && DigitsOrScores(s)
    && forall k :: 0 <= k < |s| && s[k] == '_' ==> k + 1 < |s| && IsDigit(s[k + 1])
  }

  predicate DigitsOrScores(s: string)
  {
    forall k :: 0 <= k < |s| ==> IsDigit(s[k]) || s[k] == '_'
  }

  /** The value of a numeral; underscores are skipped. */
  function NumeralValue(s: string): nat
    requires DigitsOrScores(s)
  {
    if |s| == 0 then 0
    else if s[|s| - 1] == '_' then NumeralValue(s[..|s| - 1])
    else NumeralValue(s[..|s| - 1]) * 10 + (s[|s| - 1] as int - '0' as int)
  }

  /** Python's `int(s)` in base 10: white space around the text is
      ignored, then an optional sign and a numeral; anything else is
      `None` (Python raises ValueError). */
  function ParseInt(s: string): (r: Option<int>)
    ensures r.Some? ==> Strip(s) != [] && (IsDigit(Strip(s)[0]) || Strip(s)[0] in "+-")
  {
    var t := Strip(s);
    if |t| > 0 && (t[0] == '-' || t[0] == '+') then
      if Numeral(t[1..]) then
        Some(if t[0] == '-' then -(NumeralValue(t[1..]) as int) else NumeralValue(t[1..]) as int)
      else None
    else if Numeral(t) then Some(NumeralValue(t) as int)
    else None
  }

  lemma {:induction false} DigitsRoundTrip(n: nat)
    ensures Numeral(NatToString(n)) && NumeralValue(NatToString(n)) == n
  {
    if n >= 10 {
      DigitsRoundTrip(n / 10);
      var r := NatToString(n);
      assert r[..|r| - 1] == NatToString(n / 10);
    }
  }

  /** A bare numeral reads as its value. */
  lemma ParseNumeral(t: string)
    requires Numeral(t)
    ensures ParseInt(t) == Some(NumeralValue(t) as int)
  {
    assert IsDigit(t[|t| - 1]);
    StripNoop(t);
  }

  /** A numeral after a minus sign reads as its negated value. */
  lemma ParseNegated(t: string)
    requires Numeral(t)
    ensures ParseInt("-" + t) == Some(-(NumeralValue(t) as int))
  {
    var s := "-" + t;
    assert s[|s| - 1] == t[|t| - 1] && IsDigit(t[|t| - 1]);
    StripNoop(s);
    assert s[1..] == t;
  }

  /** `int(str(n)) == n`: the integer text round-trips. */
  lemma IntRoundTrip(n: int)
    ensures ParseInt(IntToString(n)) == Some(n)
  {
    var m: nat := if n < 0 then -n else n;
    DigitsRoundTrip(m);
    if n < 0 {
      ParseNegated(NatToString(m));
    } else {
      ParseNumeral(NatToString(m));
    }
  }

  /** White space before text that starts with a non-space is dropped by
      `TrimStart`. */
  lemma {:induction false} TrimStartPadded(pre: string, u: string)
    requires forall k :: 0 <= k < |pre| ==> IsSpace(pre[k])
    requires u != [] && !IsSpace(u[0])
    ensures TrimStart(pre + u) == u
    decreases |pre|
  {
    if |pre| == 0 {
      assert pre + u == u;
    } else {
      assert (pre + u)[1..] == pre[1..] + u;
      TrimStartPadded(pre[1..], u);
    }
  }

  /** White space after text that ends with a non-space is dropped by
      `TrimEnd`. */
  lemma {:induction false} TrimEndPadded(u: string, post: string)
    requires forall k :: 0 <= k < |post| ==> IsSpace(post[k])
    requires u != [] && !IsSpace(u[|u| - 1])
    ensures TrimEnd(u + post) == u
    decreases |post|
  {
    if |post| == 0 {
      assert u + post == u;
    } else {
      var s := u + post;
      assert s[..|s| - 1] == u + post[..|post| - 1];
      TrimEndPadded(u, post[..|post| - 1]);
    }
  }

  /** `Strip` removes exactly the white space around text that starts and
      ends with a non-space. */
  lemma StripPadded(pre: string, s: string, post: string)
    requires forall k :: 0 <= k < |pre| ==> IsSpace(pre[k])
    requires forall k :: 0 <= k < |post| ==> IsSpace(post[k])
    requires s != [] && !IsSpace(s[0]) && !IsSpace(s[|s| - 1])
    ensures Strip(pre + s + post) == s
  {
    TrimEndPadded(s, post);
    assert (s + post)[0] == s[0];
    TrimStartPadded(pre, s + post);
    assert pre + s + post == pre + (s + post);
  }

  /** `int()` ignores white space around the numeral: `int(" 42\n") == 42`. */
  lemma IntIgnoresSpace(pre: string, n: int, post: string)
    requires forall k :: 0 <= k < |pre| ==> IsSpace(pre[k])
    requires forall k :: 0 <= k < |post| ==> IsSpace(post[k])
    ensures ParseInt(pre + IntToString(n) + post) == Some(n)
  {
    var s := IntToString(n);
    assert !IsSpace(s[0]) && !IsSpace(s[|s| - 1]);
    StripPadded(pre, s, post);
    StripNoop(s);
    SameStripSameInt(pre + s + post, s);
    IntRoundTrip(n);
  }

  lemma SameStripSameInt(a: string, b: string)
    requires Strip(a) == Strip(b)
    ensures ParseInt(a) == ParseInt(b)
  {
  }

  /** Dropping one underscore does not change a numeral's value. */
  lemma {:induction false} ValueSkipsUnderscore(a: string, b: string)
    requires DigitsOrScores(a) && DigitsOrScores(b)
    ensures NumeralValue(a + "_" + b) == NumeralValue(a + b)
    decreases |b|
  {
    if |b| == 0 {
      assert (a + "_" + b)[..|a|] == a;
      assert a + b == a;
    } else {
      var b' := b[..|b| - 1];
      var s := a + "_" + b;
      var t := a + b;
      assert s[..|s| - 1] == a + "_" + b';
      assert t[..|t| - 1] == a + b';
      ValueSkipsUnderscore(a, b');
    }
  }

  /** `int()` reads digits separated by an underscore as the digits
      alone: `int("1_000") == int("1000")`. */
  lemma UnderscoreIgnored(a: string, b: string)
    requires |a| > 0 && |b| > 0
    requires forall k :: 0 <= k < |a| ==> IsDigit(a[k])
    requires forall k :: 0 <= k < |b| ==> IsDigit(b[k])
    ensures ParseInt(a + "_" + b) == ParseInt(a + b)
    ensures ParseInt(a + b).Some?
  {
    var s := a + "_" + b;
    var t := a + b;
    assert s[|s| - 1] == b[|b| - 1] && t[|t| - 1] == b[|b| - 1];
    StripNoop(s);
    StripNoop(t);
    assert forall k :: |a| + 1 <= k < |s| ==> s[k] == b[k - |a| - 1];
    assert forall k :: |a| <= k < |t| ==> t[k] == b[k - |a|];
    assert Numeral(s);
    assert Numeral(t);
    ValueSkipsUnderscore(a, b);
  }

  /** Python's `s.replace(pat, rep)`: leftmost, non-overlapping. */
  function ReplaceAll(s: string, pat: string, rep: string): string
    requires |pat| > 0
    decreases |s|
  {
    if |s| < |pat| then s
    else if s[..|pat|] == pat then rep + ReplaceAll(s[|pat|..], pat, rep)
    else [s[0]] + ReplaceAll(s[1..], pat, rep)
  }

}

=== FILE: wrappers.dfy ===
/** Option and Result: the model's stand-ins for Python's `None` and for
    raised exceptions. Both are failure-compatible, so `:-` propagates. */
module Wrappers {

  datatype Option<+T> = None | Some(value: T)

  datatype Result<+T, +E> = Ok(value: T) | Err(error: E) {
    predicate IsFailure() { Err? }

    function PropagateFailure<U>(): Result<U, E>
      requires Err?
    {
      Err(error)
    }

    function Extract(): T
      requires Ok?
    {
      value
    }
  }

  /** A prefix one element longer is the prefix and that element. */
  lemma PrefixStep<T>(s: seq<T>, i: nat)
    requires i < |s|
    ensures s[..i + 1] == s[..i] + [s[i]]
  {
  }

  /** Appending in two steps is appending the two parts at once. */
  lemma AppendAssoc<T>(a: seq<T>, b: seq<T>, c: seq<T>)
    ensures (a + b) + c == a + (b + c)
  {
  }
}
